=== FILE: README.md ===
# Telegram signal relay: classifiers and queue gate

A Dafny model of the classification and lifecycle core of a Telegram trading-signal relay.

Channels post trade signals in their own dialect. A per-channel classifier turns each message into a result record:
- an action: NEW_SIGNAL, TP_HIT, SL_HIT, CANCELLED, CLOSED, BREAKEVEN or OTHER;
- the fields it can read, such as pair, side, type, entry, stop loss, take profits, leverage, TP level and pips;
- an order key that links a reply back to the signal that opened the order.

A static table routes each chat id to its classifier. The queue handler then:
- records the message;
- creates or updates the order;
- decides whether a notice goes to the destination channel;
- decides whether the trade handler is invoked.

The model is functional:
- Messages and results are immutable datatypes. A Python dict key is a `Slot`: missing, mapped to `None`, or mapped to a value.
- The classifiers are pure functions.
- The large entry regexes are opaque `Patterns` parameters, one per dialect.
- The small regexes are exact scanners with leftmost-match semantics (`Scan`): pips, TP levels, leverage, pairs, exit prices, targets and cancel markers.
- The two DynamoDB tables are maps.
- What the handler sends and invokes is a list of events. The bot's reply to a send is a parameter.

Modules follow the source files:
- `Text`, `Numbers`, `Scan` and `Signals` hold the shared string, number and record vocabulary.
- `WolfForex`, `WolfCrypto`, `RussianForex`, `FxGoldKiller`, `VipCrypto`, `LordForex` and `SanchirForex` are the channel classifiers under `classifiers/`.
- `Registry` is `classifiers/__init__.py`.
- `Queue` is `core/queue.py`.
- `WolfPrototype` is the prototype classifier of `test_wolf.py`.
- `Relay` holds the string helpers of `main.py`.

Where the repository's own description of the relay and its code disagree, the model follows the code:
- An EDITED message runs the order and notification logic again, like a NEW one.
- TP/SL notices are suppressed only for an edit of a message that was already a TP or SL hit. The handler loads the previous row only for EDITED and DELETED records, so two NEW hits for the same order are both sent.
- A DELETED record ends the whole batch, because the handler returns. So does an OTHER result.
- The Lord forex classifier is built but no chat id reaches it. The Sanchir forex and VIP crypto classifiers are not registered at all.
- In `main.py`, "Sell" alone is not a signal word; only "Sell" followed by digits is.
- The prototype classifier reads "TP 3107.50" as level 310 with price 7.50.

## Model

| member | source | states |
|---|---|---|
| Registry.SourceOf | classifiers/__init__.py:26-42 | Each chat id reaches exactly the channel of its branch: one id routes to Wolf forex, two to Wolf crypto, two to Russian forex and one to Gold Killer. The Lord branch is commented out, so no id reaches it. |
| Registry.Route | classifiers/__init__.py:23-44 | An unknown chat gives `None` without classifying. A known chat gives its channel's classifier result unchanged: Wolf forex, Russian forex and Gold Killer wrapped as a success, Wolf crypto's error raised as it is. Only Wolf crypto can raise. Any result carries the input record, and its order key names this message or the one it replies to, in the same chat. `fixed == false` is the program as written. |
| Registry.ChatsKeepTheirOrders | classifiers/__init__.py:26-44 | Results from two different chats never carry the same order key. |
| Registry.KeyedApart | classifiers/__init__.py:26-44 | Two results keyed in two different chats never carry the same order key. |
| Numbers.OrderKeyInjective | classifiers/RussianForex.py:51 | `f"{chat_id}_{msg_id}"` keys are injective: equal keys mean equal chat and message ids. |
| Numbers.NatStringRoundTrip | classifiers/RussianForex.py:51 | Reading back the decimal text of a natural number gives the number. |
| Numbers.IntStringRoundTrip | classifiers/RussianForex.py:51 | Reading back the text of a signed integer gives the integer. |
| Numbers.ParseDecimal | classifiers/WolfForex.py:75 | `float()` of a price succeeds exactly on decimal text (digits with at most one dot). |
| Numbers.ParseDecimalValue | classifiers/WolfForex.py:75 | `float()` of `i.f` is i + f / 10^|f|: its units are the integer digits shifted left by the length of the fraction plus the fraction's digits, at that scale. |
| Numbers.ParseDecimalWhole | classifiers/FxGoldKiller.py:93-94 | `float()` of a digit run without a dot is that whole number at scale 0. |
| Numbers.DecimalRoundTrip | classifiers/WolfForex.py:75 | Every decimal is what `float()` reads from its printed text, so `float()` reaches every value. |
| Scan.Search | classifiers/WolfForex.py:95 | `re.search` finds nothing iff no position matches. Otherwise it returns the match at the leftmost matching position. |
| Scan.FindAllPositions | classifiers/WolfForex.py:71 | `re.findall` returns one capture per match of the chain of successive leftmost, non-overlapping matches, in text order: each match is the first one at or after where the previous one ended, and nothing matches after the last. |
| Scan.SignedIntBefore | classifiers/RussianForex.py:183-184 | `re.search` of a signed number before a word finds nothing iff no position matches, and otherwise the number of the leftmost match. |
| Scan.LabelledNumber | classifiers/FxGoldKiller.py:118-119 | `re.search` of a number after a label finds nothing iff no position matches, and otherwise the number of the leftmost match. |
| Text.Strip | classifiers/RussianForex.py:207 | `strip()` returns a slice of the text with only whitespace before and after it and no whitespace at either end of the slice, and it leaves an already stripped string alone. |
| Text.StripSlice | classifiers/RussianForex.py:207 | The slice `strip()` keeps starts where `lstrip()` starts, and only whitespace lies outside it. |
| Text.StripUnique | classifiers/RussianForex.py:207 | Any slice with only whitespace outside it and no whitespace at its ends is exactly what `strip()` returns. |
| Text.Collapse | classifiers/WolfForex.py:113-115 | `' '.join(s.strip().split())` is single-spaced with no whitespace at either end. |
| Text.WordsOfJoin | classifiers/WolfForex.py:113-115 | Splitting a space-joined list of words gives the words back. |
| Text.JoinOfWords | classifiers/WolfForex.py:113-115 | Joining the words of a single-spaced, stripped string gives the string back. |
| Text.CollapseIdempotent | classifiers/WolfForex.py:113-115 | Collapsing whitespace twice is collapsing it once. |
| Text.JoinSplit | classifiers/RussianForex.py:207 | Joining the pieces of `s.split(c)` with `c` gives `s` back. |
| Text.SplitJoin | classifiers/RussianForex.py:207 | Splitting a `c`-joined list of pieces that contain no `c` gives the pieces back. |
| Text.NormalizeSpaces | classifiers/VipCryptoClassifier.py:84-86 | After strip, odd-space replacement and `\s+` squashing, no U+00A0, U+200B or U+202F remains. Every whitespace character left is a single space not followed by another. The visible characters of the input are all kept, in order. The words are exactly those of the input once its odd spaces are spaces, so each whitespace run between two words has become one separating space. |
| Text.NormalizeSpacesIsCollapse | classifiers/VipCryptoClassifier.py:84-86 | Without a zero-width space in the input, normalising equals `' '.join(t.split())` of the input with its odd spaces made spaces. |
| Text.WordsOfSquash | classifiers/VipCryptoClassifier.py:86 | Replacing every `\s+` run by one space keeps the words, in order. |
| WolfForex.Classify | classifiers/WolfForex.py:27-78 | A root message with an entry match is NEW_SIGNAL with type MARKET, its own key, the pattern's pair, side, entry and stop loss, and the `re.findall` take profits. A reply with a TP keyword is TP_HIT with the level; a reply with an SL keyword and no TP keyword is SL_HIT. Both use the replied key and carry the exit price, and anything else is `None`. `fixed == false` is the take-profit pattern as written. |
| WolfForex.TpWinsOverSl | classifiers/WolfForex.py:43-60 | Any reply containing "TP" is TP_HIT, whatever SL keywords it also has. |
| WolfForex.Level | classifiers/WolfForex.py:90-92 | The TP level is 1 when no label matches. Otherwise it is the number read by the leftmost label match. |
| WolfForex.ExitPriceAt | classifiers/WolfForex.py:95-96 | A match of `@\s*(\d+\.\d+)` at `p` starts with the `@`, and its value is what `float()` reads from the dotted number after the spaces. |
| WolfForex.ExitPrice | classifiers/WolfForex.py:94-96 | The exit price is always set. It is `None` iff no position matches, and otherwise the price of the leftmost match. |
| WolfForex.AsWrittenTakeProfits | classifiers/WolfForex.py:71 | As written, the take-profit regex reads "TP 3107.50" as 7.50. The corrected reading gives 3107.50. |
| WolfForex.AsWrittenCutsPrice | classifiers/WolfForex.py:71 | At every label followed by a price with two or more integer digits, the pattern as written reads the price from its last integer digit on, while the intended reading takes the whole number; both end at the same place. |
| WolfForex.AsWrittenLosesDigits | classifiers/WolfForex.py:71 | There, when the integer part does not start with 0, the price as written has the same scale and fewer units than the price in the text. |
| WolfForex.PriceIsWholeRun | classifiers/WolfForex.py:71 | The corrected take-profit price never starts inside a digit run. |
| WolfForex.FixOnlyTouchesBarePrices | classifiers/WolfForex.py:71 | The correction changes nothing where the label's digits are absent or separated from the price. |
| WolfCrypto.Normalize | classifiers/WolfCrypto.py:70-76 | The normalised text holds no odd space and none of 💰🚫✅🔹. Every whitespace character in it is a plain space, and every other visible character of the input is kept, in order. It is the shared space normaliser's output, whose words and single spacing `Text.NormalizeSpaces` states, with the four decorations deleted. |
| WolfCrypto.NormalizeNotIdempotent | classifiers/WolfCrypto.py:70-76 | The normaliser is not idempotent: "✅ A" gives " A", which gives "A". |
| WolfCrypto.CheckedTpNeverFires | classifiers/WolfCrypto.py:75-84 | The ✅-based TP regex can never match the normalised text, because every ✅ is deleted first. |
| WolfCrypto.ActionOf | classifiers/WolfCrypto.py:13-23 | TP hit before SL hit before cancelled before new signal, else OTHER, each as an if-and-only-if. |
| WolfCrypto.ManualCancelSubsumed | classifiers/WolfCrypto.py:97-103 | The "#PAIR/USDT Manually Cancelled" regex adds nothing: any text it matches already contains "cancelled". |
| WolfCrypto.PairOf | classifiers/WolfCrypto.py:107 | No pair is found iff no position matches the pair pattern. A found pair is the leftmost match: at least two characters followed by "/USDT". |
| WolfCrypto.ProfitText | classifiers/WolfCrypto.py:215-218 | The leftmost "Profit:" match when there is one. Otherwise nothing is found iff no "…% profit" position matches, and a found text is the leftmost such match. |
| WolfCrypto.Price | classifiers/WolfCrypto.py:168 | `float(tp.replace(',', ''))` succeeds exactly on decimal text once commas are removed, and raises ValueError otherwise. |
| WolfCrypto.PriceSkipsComma | classifiers/WolfCrypto.py:168 | A comma inside a price changes neither whether it parses nor its value. |
| WolfCrypto.PriceOfShown | classifiers/WolfCrypto.py:168 | Every decimal is the price of its own printed text. |
| WolfCrypto.PriceList | classifiers/WolfCrypto.py:168 | The list comprehension succeeds iff every capture parses, and then holds each capture's price at its position. Otherwise it raises the error of the first capture that does not parse. |
| WolfCrypto.MapAll | classifiers/WolfCrypto.py:168 | Applying a parser to each item in turn succeeds iff every item parses, keeps the items' order, and otherwise stops at the first failure. |
| WolfCrypto.TakeProfitSlot | classifiers/WolfCrypto.py:160-170 | take_profit is missing iff `findall` found nothing. Otherwise it holds the price of each non-empty capture, commas removed, in text order. It raises iff some capture is not a number. |
| WolfCrypto.Leverage | classifiers/WolfCrypto.py:172-184 | Leverage is 1 when the text has no "lev" label. |
| WolfCrypto.TpLevel | classifiers/WolfCrypto.py:197-212 | No TP level is read when the text has neither "tp" nor "take profit". |
| WolfCrypto.NewSignalData | classifiers/WolfCrypto.py:118-186 | A new signal carries the found pair, the side read from the keywords, the leverage, and the entry, stop loss and take profits as read. It raises iff one of those three does not parse, with the error of the first in entry, stop loss, take profit order. No key is set to `None`. |
| WolfCrypto.OutcomeData | classifiers/WolfCrypto.py:188-220 | An outcome carries the TP level when one is read, the found pair (else the one given), and `float()` of the found profit text as profit_percent. It raises ValueError on that text exactly when the text is not a number. |
| WolfCrypto.Classify | classifiers/WolfCrypto.py:5-60 | A missing `msg_text` raises KeyError. A result has type LIMIT, the precedence chain's action, the order key rule and no `None`-valued key. |
| WolfCrypto.ClassifyByAction | classifiers/WolfCrypto.py:47-60 | With text present, a new signal is `_extract_new_signal_data` of the base result, and a TP or SL hit is `_extract_outcome_data` of it. Every other action succeeds. |
| WolfCrypto.ClassifyText | classifiers/WolfCrypto.py:10-60 | On normalised text, a result has type LIMIT, the precedence chain's action, the order key rule for that action and no `None`-valued key. A new signal is `NewSignalData` of the base result, and a TP or SL hit is `OutcomeData` of it. A cancellation always succeeds, and any other action gives the base result unchanged. |
| WolfCrypto.BaseOf | classifiers/WolfCrypto.py:25-45 | The result before the per-action fields: the message, the action, type LIMIT, the order key, and no pair, entry, take profit or profit key. |
| WolfCrypto.ActionIgnoresReply | classifiers/WolfCrypto.py:13-23 | The action does not depend on whether or what the message replies to. |
| WolfCrypto.OrderIdRules | classifiers/WolfCrypto.py:62-68 | OTHER has no key. A TP/SL reply uses the replied key. CANCELLED and NEW_SIGNAL use their own key. |
| WolfCrypto.NewSignalShape | classifiers/WolfCrypto.py:124-134 | A new signal has a USDT pair, a side of "BUY", "SELL" or the string "None", and a leverage. |
| WolfCrypto.DefaultLeverage | classifiers/WolfCrypto.py:183-184 | Without a leverage label a new signal has leverage 1. |
| WolfCrypto.NoTpLevelDefault | classifiers/WolfCrypto.py:197-212 | An outcome without a TP label has no tp_level key: there is no default. |
| WolfCrypto.UnparsableTakeProfitRaises | classifiers/WolfCrypto.py:168 | A captured take-profit run without digits, such as ".", makes the classifier raise ValueError. |
| RussianForex.CleanLineShape | classifiers/RussianForex.py:207 | Each cleaned line is single-spaced with no whitespace at either end. |
| RussianForex.JoinClean | classifiers/RussianForex.py:207 | The cleaned message contains no carriage return. |
| RussianForex.CleanMessageEnds | classifiers/RussianForex.py:207 | The cleaned message has no whitespace at either end. |
| RussianForex.CleanMessageOfBlank | classifiers/RussianForex.py:207 | A blank message cleans to the empty string. |
| RussianForex.CleanMessageSplits | classifiers/RussianForex.py:205-207 | Line breaks are kept: splitting the cleaned message gives the cleaned lines. |
| RussianForex.CleanLineIdempotent | classifiers/RussianForex.py:207 | Cleaning a line twice is cleaning it once. |
| RussianForex.CleanMessageIdempotent | classifiers/RussianForex.py:205-207 | Cleaning a message twice is cleaning it once. |
| RussianForex.CleanLinesOfClean | classifiers/RussianForex.py:205-207 | A cleaned message has the same cleaned lines as the original. |
| RussianForex.EntryTextIsCleaned | classifiers/RussianForex.py:97 | The entry extractor's second cleaning, after CRLF replacement, leaves the already cleaned message unchanged. |
| RussianForex.SlIsCrossWithoutCancel | classifiers/RussianForex.py:166-174 | The SL test holds iff the text has ❌ and is not a cancel. TP and SL never both hold. |
| RussianForex.NormalizeOrderType | classifiers/RussianForex.py:81-92 | BUYSTOP, SELLSTOP, BUYLIMIT and SELLLIMIT become their underscored forms. Anything else is unchanged, and a BUY prefix is kept. |
| RussianForex.Pips | classifiers/RussianForex.py:183-184 | pips is always set. It is `None` iff no signed integer precedes "пункт", and otherwise the number of the leftmost match. |
| RussianForex.NewSignal | classifiers/RussianForex.py:42-52 | The side is BUY iff the upper-cased order type starts with BUY. Type is the normalised order type, and the take profit is a one-element list. Pair, raw order type and timeframe are the pattern's, and the key is the message's own. |
| RussianForex.TpReport | classifiers/RussianForex.py:180-193 | A TP hit is keyed by the replied-to message. It is partial iff the lower-cased text mentions "фикс" or "часть", and at break-even iff it mentions "бу" or "безубыток". |
| RussianForex.Classify | classifiers/RussianForex.py:37-79 | Entries only on roots and outcomes only on replies, in the order cancel, TP, SL. NEW_SIGNAL uses its own key and the others use the replied key; unmatched messages give `None`. |
| RussianForex.EntryFields | classifiers/RussianForex.py:42-52 | A NEW_SIGNAL's side is BUY or SELL in agreement with its type, and carries the pattern's pair, timeframe, entry, stop loss and single take profit. |
| RussianForex.TpReportFields | classifiers/RussianForex.py:180-193 | A TP hit of the cleaned text is partial iff it mentions "фикс" or "часть", at break-even iff it mentions "бу" or "безубыток", and carries its pips. |
| FxGoldKiller.Classify | classifiers/FxGoldKiller.py:28-68 | Entries only on roots and outcomes only on replies, in the order cancel, TP, SL. NEW_SIGNAL is the entry built from the pattern's groups under its own key; outcomes use the replied key. A TP hit carries the TP level and pips of the text, and an SL hit its pips. |
| FxGoldKiller.NewSignal | classifiers/FxGoldKiller.py:70-97 | The entry has the matched pair, the upper-cased side, and the entry and stop loss as whole prices. Type is LIMIT iff "LIMIT" occurs in the upper-cased text. take_profit is `None` iff the optional TP block did not match, and otherwise holds TP1 to TP5 in order. |
| FxGoldKiller.Prices | classifiers/FxGoldKiller.py:76-81 | The take-profit list keeps the TP groups' values in order. |
| FxGoldKiller.TpLevel | classifiers/FxGoldKiller.py:117-119 | The TP level is 1 when no "TP" is followed by a digit. Otherwise it is the number after the leftmost such "TP". |
| FxGoldKiller.Pips | classifiers/FxGoldKiller.py:121-123 | pips is always set. It is `None` iff no signed integer precedes "PIPS", and otherwise the number of the leftmost match. |
| FxGoldKiller.AsWrittenNeedsDone | classifiers/FxGoldKiller.py:99-113 | With the literals as written, a reply whose text lacks both of their lead characters is at most a TP hit, and only through "DONE". |
| FxGoldKiller.AsWrittenDropsMarkedReplies | classifiers/FxGoldKiller.py:99-113 | With the literals as written, every reply without their lead characters and without "DONE" gives `None`, while the real emoji read each such reply that is a cancellation or an SL hit, and a cancellation as CANCELLED. |
| FxGoldKiller.AsWrittenDropsStopLoss | classifiers/FxGoldKiller.py:105-108 | With the literals as written, the sample reply "❌ SL HIT -40 PIPS" gives `None`. |
| FxGoldKiller.AsWrittenDropsCancel | classifiers/FxGoldKiller.py:110-113 | With the literals as written, the sample reply "✅ Delete limit" gives `None`. |
| FxGoldKiller.EmojiReadsStopLoss | classifiers/FxGoldKiller.py:105-108 | With the real emoji, "❌ SL HIT -40 PIPS" is an SL hit on the replied order. |
| FxGoldKiller.EmojiReadsCancel | classifiers/FxGoldKiller.py:110-113 | With the real emoji, "✅ Delete limit" cancels the replied order. |
| VipCrypto.Normalize | classifiers/VipCryptoClassifier.py:82-87 | No odd space and no run of two spaces remains, every whitespace character is a space, and every visible character of the input is kept, in order. The words are those of the input with its odd spaces made spaces. |
| VipCrypto.LeadingZeroWidthSpace | classifiers/VipCryptoClassifier.py:84-85 | Strip runs before the replacement, so a leading U+200B survives as a leading space. |
| VipCrypto.ActionOf | classifiers/VipCryptoClassifier.py:34-40 | TP hit before new signal, else OTHER, each as an if-and-only-if. |
| VipCrypto.SideOf | classifiers/VipCryptoClassifier.py:107 | The side is BUY iff the captured side upper-cases to LONG, and SELL otherwise. |
| VipCrypto.Leverage | classifiers/VipCryptoClassifier.py:110-116 | Leverage is 1 when the margin text has no "(". |
| VipCrypto.TargetsAreParsed | classifiers/VipCryptoClassifier.py:126-138 | The targets are exactly the matched items that parse as numbers. |
| VipCrypto.UnparsableItemSkipped | classifiers/VipCryptoClassifier.py:131-136 | Any item that is not a number is skipped: the targets are those of the other items, in the same order. |
| VipCrypto.UnparsableTargetSkipped | classifiers/VipCryptoClassifier.py:131-136 | An item that is not a number is skipped, and the later items are kept. |
| VipCrypto.EntryData | classifiers/VipCryptoClassifier.py:97-124 | A new signal carries pair, side, entry, leverage and targets. take_profit is left out when there are none. It raises iff the entry text is not a number. |
| VipCrypto.Classify | classifiers/VipCryptoClassifier.py:26-72 | A missing `msg_text` raises KeyError. A result has type LIMIT, the chain's action, the key rule and no `None`-valued key. Otherwise it raises ValueError exactly when the action is NEW_SIGNAL and the entry text is not a number. |
| VipCrypto.OrderIdRules | classifiers/VipCryptoClassifier.py:74-80 | OTHER has no key. A TP hit that replies uses the replied key. Everything else uses its own key. |
| VipCrypto.ExtractedFields | classifiers/VipCryptoClassifier.py:97-152 | A TP hit carries pair, integer level and profit percent. A new signal carries pair, side, `float()` of the entry, leverage and no TP level. It has take_profit iff some target parsed, and then it is the parsed targets. |
| LordForex.Classify | classifiers/LordForex.py:53-104 | Every message gives a result, by NEW ORDER, CLOSED, CANCELLED, OTHER precedence. A new order is MARKET, keyed "lord" plus its trade ID, with the upper-cased pair and side, entry, stop loss and a one-element take-profit list. A close is keyed the same way, carries pair, side, entry, exit and result, and is TP_HIT iff its result does not start with '-'. CANCELLED and OTHER carry the cleaned text and no key. |
| LordForex.LordKeysAreDisjoint | classifiers/LordForex.py:62 | A "lord" key never equals a `chat_msg` key. |
| LordForex.LordKeyInjective | classifiers/LordForex.py:62-75 | Two trade IDs give the same key iff they are equal. |
| LordForex.ClosedFindsItsOrder | classifiers/LordForex.py:56-76 | A CLOSED report carries the order key of a NEW ORDER message iff both name the same trade ID. |
| LordForex.IgnoresReply | classifiers/LordForex.py:53-91 | The reply id plays no part in the result. |
| SanchirForex.NewSignal | classifiers/SanchirForex.py:21-31 | The type is the upper-cased side token, and the side is BUY iff it starts with BUY. Pair is upper-cased, entry is the pattern's price, and the key is the message's own. stop_loss is `None` and take_profit is empty. |
| SanchirForex.Classify | classifiers/SanchirForex.py:17-53 | Entries only on roots. Replies are checked for "cancel", then "close", then "breakeven", ignoring case. Keys follow the same root/reply rule. A NEW_SIGNAL is exactly the entry pattern's fields. |
| SanchirForex.CloseShadowsBreakeven | classifiers/SanchirForex.py:40-51 | A reply containing "close" is never read as break-even. |
| Queue.Destination | core/queue.py:27-29 | The two shared chats always go to the shared channel. Otherwise forex goes to the forex channel and everything else to the crypto channel. |
| Queue.EditedRow | core/queue.py:57-71 | An edit sets text, action and update time, and keeps the rest of an existing row. |
| Queue.SetStatus | core/queue.py:115-129 | A status update sets status and update time on the order, creating the row if missing. It keeps the delivery and extraction of an existing row and leaves every other order alone. |
| Queue.SetDelivery | core/queue.py:160-170 | After a send, the order gets the destination chat and message id and nothing else changes. |
| Queue.Act | core/queue.py:89-178 | Acting on a result never touches the message table and halts iff the action is OTHER. It changes only the result's own order, and every event is about this result. |
| Queue.Prev | core/queue.py:31-54 | A previous row is used iff the record is an edit of a stored message. |
| Queue.Recorded | core/queue.py:37-71 | A NEW record writes its own row with reply, text, action, creation time and result. An EDITED record sets text, action and update time on its row, over the previous row if there is one. Any other kind, including a `null` kind, writes nothing. No other row changes. |
| Queue.MsgType | core/queue.py:25 | A missing kind reads as NEW, a JSON `null` as `None`, and any other value as itself. |
| Queue.Step | core/queue.py:14-193 | An undecodable or incomplete record, or a classifier that raises, changes nothing and lets the batch go on. A `None` result changes nothing; it ends the batch for a deletion and lets it go on otherwise. Every event is about this record's result. |
| Queue.Proceed | core/queue.py:33-193 | Once classified: an error or a `None` result changes nothing, and only a deletion ends the batch. Every event is about the result. |
| Queue.FoldConcat | core/queue.py:14-193 | Handling a batch in two parts equals handling it whole, unless the first part ended early. |
| Queue.HaltEndsBatch | core/queue.py:87-90 | An early return drops every later record of the batch. |
| Queue.DeletedStopsBatch | core/queue.py:72-87 | A DELETED record writes nothing, sends nothing, and ends the batch. |
| Queue.StepFrame | core/queue.py:37-170 | A record changes no message row but its own, and no order but its result's. |
| Queue.UndeliveredOrderGetsStub | core/queue.py:115-131 | An outcome for an order never delivered still records the status, possibly on a new stub row, and sends nothing. |
| Queue.NoticesReplyToDelivery | core/queue.py:131-158 | An outcome notice is sent as a reply to the order's delivered message. |
| Queue.EditedHitsAreNotResent | core/queue.py:141-151 | An edit of a stored TP/SL message sends no new TP/SL notice, but a NEW TP/SL message always sends one. |
| Queue.NewSignalDelivery | core/queue.py:93-178 | A complete new signal makes a PENDING order, and sends the entry notice first. A successful send records its message id. The trade handler is invoked iff the chat is one of the two trading chats. |
| Queue.NewSignalUndelivered | core/queue.py:93-170 | A new signal whose send fails is still stored PENDING, with no delivered message id. |
| WolfPrototype.Clean | test_wolf.py:108-110 | Cleaning equals collapsing whitespace, with or without the strip. |
| WolfPrototype.CleanIdempotent | test_wolf.py:79-80 | Cleaning twice, as `extract_signal` then `classify` do, is cleaning once. |
| WolfPrototype.FirstEntry | test_wolf.py:70-73 | The entry patterns are tried in order and the first match wins. The result is none iff none matches. |
| WolfPrototype.Classify | test_wolf.py:54-75 | An ignored message gives `None`. Then TP, SL and entry are tried in that order, each as an if-and-only-if. |
| WolfPrototype.ClassifyCleaned | test_wolf.py:56 | Classifying an already cleaned message gives the same answer. |
| WolfPrototype.ExtractSignal | test_wolf.py:77-106 | An extracted signal has the first matching pattern's symbol, side and price. Its stop loss is the same-line one if captured, else the searched one. Its take profits are the level map read from the cleaned message. |
| WolfPrototype.ExtractMatchesClassify | test_wolf.py:82-83 | A signal is extracted iff the message classifies as an entry. |
| WolfPrototype.SearchStopLoss | test_wolf.py:120-123 | The stop loss is none iff no label position matches. Otherwise it is the value at a matching position with no match before it. |
| WolfPrototype.LastLevelWins | test_wolf.py:112-118 | Every matched level is a key, every key is a matched level, and a level's last occurrence sets its price. |
| WolfPrototype.EntryTakeProfits | test_wolf.py:94 | An entry's take-profit map has exactly the matched levels as keys. |
| WolfPrototype.BarePriceBecomesLevel | test_wolf.py:115 | "TP 3107.50" is read as level 310 with price 7.50. |
| WolfPrototype.BarePriceSplits | test_wolf.py:115 | At every label followed by a bare price with two or more integer digits, the level is all of those digits but the last, and the price is the same cut tail the production pattern reads, smaller than the written price. |
| Relay.NullifiedIff | main.py:102-108 | A message is nullified iff the phrase occurs with any of its spaces possibly written as a newline. |
| Relay.PairGroup | main.py:115-124 | No pair is found iff neither the marked nor the plain pattern matches anywhere. Otherwise it is the leftmost marked match, or the leftmost plain match when no marked one exists. |
| Relay.ProfitPercent | main.py:138-142 | "Unknown" when no "(…% PROFIT" match exists, else the stripped group of the leftmost match. |
| Relay.TradeDetails | main.py:111-148 | Without a pair, pair and base are "Unknown". A pair without '/' is its own base. A one-slash pair splits into base and quote. Two or more slashes raise. |
| Relay.NullifiedMessage | main.py:151-164 | The template fails iff extraction fails, and is otherwise filled from the extracted details. |
| Relay.FillEmbedsDetails | main.py:160-163 | The message holds the pair, profit percent and base currency verbatim at their template slots. |
| Relay.BeforeRule | main.py:183-185 | The text before the first horizontal rule: a prefix before which no rule starts, followed by a rule when shorter than the text. |
| Relay.BeforeRuleUnique | main.py:183-185 | The prefix ending at the first position that starts a rule, or the whole text when none does, is what the split keeps. |
| Relay.CutAtFire | main.py:190-193 | Text without 🔥 is unchanged. Otherwise the result is the stripped text before the first 🔥, followed by one 🔥, and has no earlier one. |
| Relay.CutAtFirstFire | main.py:190-193 | At the position of the first 🔥 the cut keeps exactly the stripped text before it and the emoji. |
| Relay.ProcessText | main.py:167-178 | A promotional message gives `None`. Otherwise the result is `None` iff the filtered text is empty. |
| Relay.SignalMessageWords | main.py:249-253 | A text is a signal message iff one of its words, taken whole, is BUY, SELL, Buy, or Sell followed by digits only. |
| Relay.SignalWords | main.py:249-253 | "SELL" and "Sell7" are signals; "Sell" and "BUYER" are not. |
| Relay.Pieces | main.py:67-70 | An over-long line is cut into non-empty pieces of at most 400 characters that concatenate back to it. Each piece is translated once. |
| Relay.Translate | main.py:47-83 | Text of at most 500 characters is translated in one call. A longer text is cut into chunks of at most 450 characters, or single over-long lines. The chunks hold the text's characters in order, up to line breaks, and the output joins their translations with newlines. |
| Relay.ChunkLines | main.py:56-80 | The chunking loop keeps every chunk well formed, translates each one, and keeps the lines' characters in order. |

## Left out

- All I/O:
  - DynamoDB is two maps, and `put_item`/`update_item` are map updates.
  - The Telegram send is the `sent` parameter of `Queue.Config`, returning the message id when the bot answers ok.
  - The Lambda invocation is a `Trigger` event.
  - The destination channel ids are `Queue.Config` fields, because they are imported from a module that does not define them.
- The handler's return value, its logging and its second trigger list, which is empty, are not modelled.
- Queue.Step: an EDITED record with no stored row is assumed to load as no previous row.
- Queue.Step: a JSON `null` `msg_text` is not distinguished from a missing one.
- Queue.Complete: a JSON `null` `chat_id` or `msg_id` is treated like a missing key, so the record is skipped. The source would go on with `None` in the table key.
- WolfCrypto.Classify: its own contract does not name the per-action field builders. `WolfCrypto.ClassifyByAction` states that link for every message with text.
- Queue.Step: bot or DynamoDB exceptions are not modelled. Only the KeyError for a missing `to_msg_id` and missing result keys is.
- The notice texts (`make_*_message`) are left out: they are formatting inside the bot wrapper, which is not part of this model.
- Regex semantics:
  - The large multi-line patterns are opaque `Patterns` parameters.
  - `lower()`/`upper()` cover ASCII and basic Cyrillic only.
  - `\w` covers ASCII letters, digits, `_` and the Cyrillic block.
- Python floats: prices are exact decimals (units over a power of ten). Numbers.ParseDecimal, ParseDecimalValue and DecimalRoundTrip state which texts `float()` accepts and the value it reads. Rounding to binary floating point is not modelled.
- Digits: `\d`, `int()` and `float()` accept ASCII digits only. Python also accepts every Unicode decimal digit (category Nd) there.
- Relay.ProcessText: the emoji-cut cascade after the fire cut is the uninterpreted `rest` parameter.
- `replace_forex_terms` is left out: it reads an external JSON file.
- The translator is the uninterpreted `tr` parameter.
- The async Telegram handler is left out.
- Relay.Translate: the contract fixes the chunks' characters up to line breaks. It does not state which line breaks become chunk boundaries.
- WolfCrypto.Leverage: states only the default of 1 without a "lev" label, not which digits are read.
- WolfCrypto.TpLevel: states only that no level is read without a TP label, not which of the three forms wins.
- VipCrypto.Leverage: states only the default of 1 without a "(", not which digits are read.
- WolfCrypto.NewSignalData: the entry and stop-loss searches are opaque, so only their absence or presence is modelled.
- Scan.FindAll: its own contract states only when the list is empty. The contents and order of the matches are stated by `Scan.FindAllPositions`.
- WolfCrypto.NormalizeNotIdempotent, WolfCrypto.UnparsableTakeProfitRaises, VipCrypto.UnparsableTargetSkipped, Relay.SignalWords, WolfForex.AsWrittenTakeProfits and WolfPrototype.BarePriceBecomesLevel: sample inputs. The general statements are `WolfCrypto.PriceList`, `VipCrypto.UnparsableItemSkipped`, `Relay.SignalMessageWords`, `WolfForex.AsWrittenCutsPrice` and `WolfPrototype.BarePriceSplits`. Non-idempotence has no general form: it holds for some texts only.
- The rest of the repository is left out: trading, scheduling, forwarding, setup scripts and the websocket listener. They are I/O or floating-point position sizing.

## Findings

| source | as written | input that shows it | evidently intended | confidence | as-written member | corrected member |
|---|---|---|---|---|---|---|
| classifiers/FxGoldKiller.py:105-108 | the SL marker literal is the cross mark's UTF-8 bytes read as single-byte characters, with one byte lost | reply "❌ SL HIT -40 PIPS" gives `None`, as does every reply without the literals' lead characters and without "DONE" | the reply is an SL hit on the replied order | low, not executed (the source text may have been re-encoded after the fact) | FxGoldKiller.AsWrittenDropsMarkedReplies | FxGoldKiller.EmojiReadsStopLoss |
| classifiers/FxGoldKiller.py:110-113 | the check-mark literal is mis-encoded in the same way | reply "✅ Delete limit" gives `None` | the reply cancels the replied order | low, not executed (the source text may have been re-encoded after the fact) | FxGoldKiller.AsWrittenDropsCancel | FxGoldKiller.EmojiReadsCancel |
| classifiers/WolfForex.py:71 | `\s*\d*\s*(\d+\.\d+)` lets the optional level digits eat the front of a price that directly follows the label | "TP 3107.50" gives take profit 7.50, and every bare price of two or more integer digits loses all but its last one | take profit 3107.50 | medium, not executed | WolfForex.AsWrittenCutsPrice | WolfForex.PriceIsWholeRun |

Both readings are kept side by side:
- `Registry.Classifiers` carries a `fixed` flag, and `fixed == false` is the program as written. With it, the Gold Killer classifier gets the markers as the code spells them, and `WolfForex.Classify` uses the take-profit pattern as written.
- `fixed == true` selects the real emoji and the intended take-profit reading.
- `WolfForex.FixOnlyTouchesBarePrices` shows that the two take-profit readings agree everywhere except at a bare price.

=== FILE: fx_gold_killer.dfy ===
/** The FX Gold Killer channel's classifier (`FxGoldKillerClassifier`):
    XAUUSD entries on root messages, cancellations and TP/SL hits on replies.
    Its tests look for four emoji; the classifier takes them as a parameter,
    because the literals in the code are those emoji's UTF-8 bytes read
    back as single-byte characters (see the findings in the README). */
module FxGoldKiller {
  import opened Wrappers
  import opened Text
  import opened Numbers
  import opened Scan
  import opened Signals

  /** The four markers the tests look for: check mark, cross mark, money
      mouth face and money bag. */
  datatype Markers = Markers(check: string, cross: string, moneyFace: string, moneyBag: string)

  /** The literals as the code spells them: each emoji's UTF-8 bytes decoded
      one byte per character (the cross mark's 0x9D byte has no character
      and is gone). */
  const AsWritten: Markers := Markers(
    "\U{E2}\U{153}\U{2026}", "\U{E2}\U{152}", "\U{11F}\U{178}\U{A4}\U{2018}", "\U{11F}\U{178}\U{2019}\U{B0}")

  /** The emoji themselves: ✅ ❌ 🤑 💰. */
  const Emoji: Markers := Markers("\U{2705}", "\U{274C}", "\U{1F911}", "\U{1F4B0}")

  /** The five TP groups, which the entry pattern makes optional together. */
  datatype Targets = Targets(tp1: nat, tp2: nat, tp3: nat, tp4: nat, tp5: nat)

  /** The groups of the entry pattern. Prices are `\d+`, which `float()`
      reads exactly; `targets` is `None` when the optional TP block did not
      match. */
  datatype EntryGroups = EntryGroups(pair: string, side: string, entry: nat, stopLoss: nat, targets: Option<Targets>)

  /** The entry pattern kept opaque. */
  datatype Patterns = Patterns(entry: string -> Option<EntryGroups>)

  /** `_is_cancel_message`. */
  predicate IsCancel(mk: Markers, t: string) {
    ContainsUpper(t, "DELETE") && ContainsUpper(t, "LIMIT") && Contains(t, mk.check)
  }

  /** `_is_tp_message`: "DONE" is looked for in the text as it is. */
  predicate IsTp(mk: Markers, t: string) {
    ContainsUpper(t, "TP") && ContainsUpper(t, "HIT") &&
    ContainsAny(t, [mk.check, "DONE", mk.moneyFace, mk.moneyBag])
  }

  /** `_is_sl_message`. */
  predicate IsSl(mk: Markers, t: string) {
    ContainsUpper(t, "SL") && ContainsUpper(t, "HIT") && Contains(t, mk.cross)
  }

  /** `([+-]?\d+)\s*PIPS` ignoring case: the number before the leftmost
      "PIPS" that has one, or `None`. */
  function Pips(t: string): (r: Slot<int>)
    ensures !r.Absent?
    ensures r.Null? <==> forall p | 0 <= p < |t| :: SignedIntBeforeAt(t, p, "PIPS", true).None?
    ensures r.Present? ==> exists p | 0 <= p < |t| ::
      SignedIntBeforeAt(t, p, "PIPS", true) == Some(r.value) && forall q | 0 <= q < p :: SignedIntBeforeAt(t, q, "PIPS", true).None?
  {
    match SignedIntBefore(t, "PIPS", true)
    case Some(v) => Present(v)
    case None => Null
  }

  /** `TP(\d+)` ignoring case: the number right after the leftmost "TP"
      that has one, and 1 when no "TP" is followed by a digit. */
  function TpLevel(t: string): (r: nat)
    ensures (forall p | 0 <= p < |t| :: LabelledNumberAt(t, p, "TP", false).None?) ==> r == 1
    ensures (exists p | 0 <= p < |t| :: LabelledNumberAt(t, p, "TP", false).Some?) ==>
      exists p | 0 <= p < |t| :: LabelledNumberAt(t, p, "TP", false) == Some(r) && forall q | 0 <= q < p :: LabelledNumberAt(t, q, "TP", false).None?
  {
    LabelledNumber(t, "TP", false).GetOr(1)
  }

  /** The five levels in order. */
  function Levels(g: Targets): (r: seq<nat>)
    ensures |r| == 5
  {
    [g.tp1, g.tp2, g.tp3, g.tp4, g.tp5]
  }

  function Prices(ns: seq<nat>): (r: seq<Decimal>)
    ensures |r| == |ns| && forall k | 0 <= k < |ns| :: r[k] == Decimal(ns[k], 0)
  {
    seq(|ns|, k requires 0 <= k < |ns| => Decimal(ns[k], 0))
  }

  /** `_extract_entry` merged into the result: the matched pair, side,
      entry and stop loss, and all five take profits or `None`. */
  function NewSignal(m: Msg, t: string, g: EntryGroups): (r: Signal)
    ensures r.action == Action.NewSignal && r.orderId == Present(OrderKey(m.chatId, m.msgId))
    ensures r.orderType == Present(if ContainsUpper(t, "LIMIT") then "LIMIT" else "MARKET")
    ensures r.pair == Present(g.pair) && r.side == Present(Upper(g.side))
    ensures r.entry == Present(Decimal(g.entry, 0)) && r.stopLoss == Present(Decimal(g.stopLoss, 0))
    ensures r.takeProfit.Null? <==> g.targets.None?
    ensures r.takeProfit.Present? ==> var tps := r.takeProfit.value; var n := g.targets.value;
      && |tps| == 5
      && tps[0] == Decimal(n.tp1, 0) && tps[1] == Decimal(n.tp2, 0) && tps[2] == Decimal(n.tp3, 0)
      && tps[3] == Decimal(n.tp4, 0) && tps[4] == Decimal(n.tp5, 0)
    ensures !r.takeProfit.Absent?
  {
    Bare(m, Action.NewSignal).(
      pair := Present(g.pair), side := Present(Upper(g.side)),
      entry := Present(Decimal(g.entry, 0)), stopLoss := Present(Decimal(g.stopLoss, 0)),
      takeProfit := if g.targets.None? then Null else Present(Prices(Levels(g.targets.value))),
      orderType := Present(if ContainsUpper(t, "LIMIT") then "LIMIT" else "MARKET"),
      orderId := Present(RootKey(m)))
  }

  /** `process_message` with the given markers. */
  function Classify(mk: Markers, ps: Patterns, m: Msg): (r: Option<Signal>)
    ensures r.Some? ==> r.value.source == m
    ensures var t := Collapse(TextOrEmpty(m));
      && (r.Some? && r.value.action == Action.NewSignal <==> !IsReply(m) && ps.entry(t).Some?)
      && (r.Some? && r.value.action == Cancelled <==> IsReply(m) && IsCancel(mk, t))
      && (r.Some? && r.value.action == TpHit <==> IsReply(m) && !IsCancel(mk, t) && IsTp(mk, t))
      && (r.Some? && r.value.action == SlHit <==> IsReply(m) && !IsCancel(mk, t) && !IsTp(mk, t) && IsSl(mk, t))
    ensures r.Some? ==> r.value.action in {Action.NewSignal, Cancelled, TpHit, SlHit}
    ensures r.Some? && r.value.action == Action.NewSignal ==> r.value.orderId == Present(OrderKey(m.chatId, m.msgId))
    ensures r.Some? && r.value.action != Action.NewSignal ==> r.value.orderId == Present(OrderKey(m.chatId, m.reply.value))
    ensures var t := Collapse(TextOrEmpty(m));
      r.Some? && r.value.action == TpHit ==> r.value.tpLevel == Present(TpLevel(t)) && r.value.pips == Pips(t)
    ensures r.Some? && r.value.action == SlHit ==> r.value.pips == Pips(Collapse(TextOrEmpty(m)))
    ensures var t := Collapse(TextOrEmpty(m));
      r.Some? && r.value.action == Action.NewSignal ==> r.value == NewSignal(m, t, ps.entry(t).value)
  {
    var t := Collapse(TextOrEmpty(m));
    if !IsReply(m) then
      match ps.entry(t)
      case Some(g) => Some(NewSignal(m, t, g))
      case None => None
    else if IsCancel(mk, t) then Some(Bare(m, Cancelled).(orderId := Present(ReplyKey(m))))
    else if IsTp(mk, t) then
      Some(Bare(m, TpHit).(tpLevel := Present(TpLevel(t)), pips := Pips(t), orderId := Present(ReplyKey(m))))
    else if IsSl(mk, t) then Some(Bare(m, SlHit).(pips := Pips(t), orderId := Present(ReplyKey(m))))
    else None
  }

  /** With the markers as written, a reply whose cleaned text has neither
      lead character of the decoded literals can only ever be read as a TP
      hit, and then only through the plain word "DONE": real cross marks,
      check marks and money emoji are invisible. */
  lemma {:induction false} AsWrittenNeedsDone(ps: Patterns, m: Msg)
    requires IsReply(m)
    requires var t := Collapse(TextOrEmpty(m)); '\U{E2}' !in t && '\U{11F}' !in t
    ensures var r := Classify(AsWritten, ps, m);
      r.None? || (r.value.action == TpHit && Contains(Collapse(TextOrEmpty(m)), "DONE"))
  {
    var t := Collapse(TextOrEmpty(m));
    AbsentChar(t, AsWritten.check, 0);
    AbsentChar(t, AsWritten.cross, 0);
    AbsentChar(t, AsWritten.moneyFace, 0);
    AbsentChar(t, AsWritten.moneyBag, 0);
    if IsTp(AsWritten, t) {
      var k :| 0 <= k < 4 && Contains(t, [AsWritten.check, "DONE", AsWritten.moneyFace, AsWritten.moneyBag][k]);
      assert k == 1;
    }
  }

  /** Every reply whose cleaned text has neither lead character of the
      decoded literals and no "DONE" is dropped as written, while the emoji
      markers read each such reply that is a cancellation or carries a
      stop-loss cross: the two marker sets disagree on all of them. */
  lemma {:induction false} AsWrittenDropsMarkedReplies(ps: Patterns, m: Msg)
    requires IsReply(m)
    requires var t := Collapse(TextOrEmpty(m)); '\U{E2}' !in t && '\U{11F}' !in t && !Contains(t, "DONE")
    ensures Classify(AsWritten, ps, m).None?
    ensures var t := Collapse(TextOrEmpty(m));
      IsCancel(Emoji, t) || IsSl(Emoji, t) ==> Classify(Emoji, ps, m).Some?
    ensures var t := Collapse(TextOrEmpty(m));
      IsCancel(Emoji, t) ==> Classify(Emoji, ps, m).value.action == Cancelled
  {
    AsWrittenNeedsDone(ps, m);
  }

  const StopLossReply: string := "\U{274C} SL HIT -40 PIPS"
  const CancelReply: string := "\U{2705} Delete limit"

  lemma {:induction false} StopLossReplyClean()
    ensures Collapse(StopLossReply) == StopLossReply
  {
    CollapseOfSingleSpaced(StopLossReply);
  }

  lemma {:induction false} CancelReplyClean()
    ensures Collapse(CancelReply) == CancelReply
  {
    var ws := ["\U{2705}", "Delete", "limit"];
    assert JoinWith(ws, " ") == CancelReply by {
      assert ws[1..][1..] == ["limit"];
    }
    assert Spaceless(ws[0]) && Spaceless(ws[1]) && Spaceless(ws[2]);
    CollapseOfJoin(ws);
  }

  lemma {:induction false} StopLossReplyNoDecoded()
    ensures !Contains(StopLossReply, AsWritten.check) && !Contains(StopLossReply, AsWritten.cross)
  {
    AbsentChar(StopLossReply, AsWritten.check, 0);
    AbsentChar(StopLossReply, AsWritten.cross, 0);
  }

  lemma {:induction false} StopLossReplyNoDone()
    ensures !Contains(StopLossReply, "DONE")
  {
    AbsentChar(StopLossReply, "DONE", 0);
  }

  /** No character of the stop-loss reply is a lead character of a money
      marker. */
  lemma {:induction false} StopLossReplyNoMoney(c: char)
    requires c == '\U{11F}' || c == '\U{1F911}' || c == '\U{1F4B0}'
    ensures c !in StopLossReply
  {
    forall i | 0 <= i < |StopLossReply| ensures StopLossReply[i] != c {
    }
  }

  lemma {:induction false} StopLossReplyAsWritten()
    ensures !IsCancel(AsWritten, StopLossReply) && !IsTp(AsWritten, StopLossReply) && !IsSl(AsWritten, StopLossReply)
  {
    StopLossReplyNoDecoded();
    StopLossReplyNoMoney('\U{11F}');
    AbsentChar(StopLossReply, AsWritten.moneyFace, 0);
    AbsentChar(StopLossReply, AsWritten.moneyBag, 0);
    StopLossReplyNoDone();
  }

  lemma {:induction false} CancelReplyAsWritten()
    ensures !IsCancel(AsWritten, CancelReply) && !IsTp(AsWritten, CancelReply) && !IsSl(AsWritten, CancelReply)
  {
    CancelReplyNoDecoded();
    CancelReplyNoDone();
  }

  /** No character of the cancellation reply is a lead character of a
      decoded literal, nor the capital O of "DONE". */
  lemma {:induction false} CancelReplyLacks(c: char)
    requires c == '\U{E2}' || c == '\U{11F}' || c == 'O'
    ensures c !in CancelReply
  {
    forall i | 0 <= i < |CancelReply| ensures CancelReply[i] != c {
    }
  }

  lemma {:induction false} CancelReplyNoDecoded()
    ensures !Contains(CancelReply, AsWritten.check) && !Contains(CancelReply, AsWritten.cross)
    ensures !Contains(CancelReply, AsWritten.moneyFace) && !Contains(CancelReply, AsWritten.moneyBag)
  {
    CancelReplyLacks('\U{E2}');
    CancelReplyLacks('\U{11F}');
    AbsentChar(CancelReply, AsWritten.check, 0);
    AbsentChar(CancelReply, AsWritten.cross, 0);
    AbsentChar(CancelReply, AsWritten.moneyFace, 0);
    AbsentChar(CancelReply, AsWritten.moneyBag, 0);
  }

  lemma {:induction false} CancelReplyNoDone()
    ensures !Contains(CancelReply, "DONE")
  {
    CancelReplyLacks('O');
    AbsentChar(CancelReply, "DONE", 1);
  }

  lemma {:induction false} StopLossReplyWords()
    ensures ContainsUpper(StopLossReply, "SL") && ContainsUpper(StopLossReply, "HIT")
  {
    var u := Upper(StopLossReply);
    assert u[2] == 'S' && u[3] == 'L';
    assert u[5] == 'H' && u[6] == 'I' && u[7] == 'T';
    assert StartsAt(u, 2, "SL");
    assert StartsAt(u, 5, "HIT");
    ContainsAt(u, 2, "SL");
    ContainsAt(u, 5, "HIT");
  }

  lemma {:induction false} StopLossReplyEmoji()
    ensures !IsCancel(Emoji, StopLossReply) && !IsTp(Emoji, StopLossReply) && IsSl(Emoji, StopLossReply)
  {
    assert StartsAt(StopLossReply, 0, Emoji.cross);
    ContainsAt(StopLossReply, 0, Emoji.cross);
    StopLossReplyWords();
    StopLossReplyNoEmoji();
    StopLossReplyNoDone();
  }

  lemma {:induction false} StopLossReplyNoEmoji()
    ensures !Contains(StopLossReply, Emoji.check)
    ensures !Contains(StopLossReply, Emoji.moneyFace) && !Contains(StopLossReply, Emoji.moneyBag)
  {
    AbsentChar(StopLossReply, Emoji.check, 0);
    StopLossReplyNoMoney('\U{1F911}');
    StopLossReplyNoMoney('\U{1F4B0}');
    AbsentChar(StopLossReply, Emoji.moneyFace, 0);
    AbsentChar(StopLossReply, Emoji.moneyBag, 0);
  }

  lemma {:induction false} CancelReplyEmoji()
    ensures IsCancel(Emoji, CancelReply)
  {
    var c := CancelReply;
    var v := Upper(c);
    assert v[2] == 'D' && v[3] == 'E' && v[4] == 'L' && v[5] == 'E' && v[6] == 'T' && v[7] == 'E';
    assert v[9] == 'L' && v[10] == 'I' && v[11] == 'M' && v[12] == 'I' && v[13] == 'T';
    assert StartsAt(c, 0, Emoji.check);
    assert StartsAt(v, 2, "DELETE");
    assert StartsAt(v, 9, "LIMIT");
    ContainsAt(c, 0, Emoji.check);
    ContainsAt(v, 2, "DELETE");
    ContainsAt(v, 9, "LIMIT");
  }

  /** The stop-loss reply of the channel's own examples, with a real cross
      mark, is dropped by the classifier as written. */
  lemma {:induction false} AsWrittenDropsStopLoss(ps: Patterns, chat: int, id: int, to: int)
    requires to != 0
    ensures Classify(AsWritten, ps, Msg(chat, id, Some(to), Some(StopLossReply))).None?
  {
    StopLossReplyClean();
    StopLossReplyAsWritten();
  }

  /** So is the cancel reply, with a real check mark. */
  lemma {:induction false} AsWrittenDropsCancel(ps: Patterns, chat: int, id: int, to: int)
    requires to != 0
    ensures Classify(AsWritten, ps, Msg(chat, id, Some(to), Some(CancelReply))).None?
  {
    CancelReplyClean();
    CancelReplyAsWritten();
  }

  /** With the emoji markers the stop-loss reply is a stop-loss hit on the
      order it answers. */
  lemma {:induction false} EmojiReadsStopLoss(ps: Patterns, chat: int, id: int, to: int)
    requires to != 0
    ensures var r := Classify(Emoji, ps, Msg(chat, id, Some(to), Some(StopLossReply)));
      r.Some? && r.value.action == SlHit && r.value.orderId == Present(OrderKey(chat, to))
  {
    StopLossReplyClean();
    StopLossReplyEmoji();
  }

  /** With the emoji markers the cancel reply cancels the order it answers. */
  lemma {:induction false} EmojiReadsCancel(ps: Patterns, chat: int, id: int, to: int)
    requires to != 0
    ensures var r := Classify(Emoji, ps, Msg(chat, id, Some(to), Some(CancelReply)));
      r.Some? && r.value.action == Cancelled && r.value.orderId == Present(OrderKey(chat, to))
  {
    CancelReplyClean();
    CancelReplyEmoji();
  }
}

=== FILE: lord_forex.dfy ===
/** The Lord forex channel's classifier (`LordForexClassifier`): it reads
    every message on its own, without looking at replies, and keys orders by
    the channel's own trade ID. */
module LordForex {
  import opened Wrappers
  import opened Text
  import opened Numbers
  import opened Signals

  /** The groups of the NEW ORDER pattern; prices are `\d+\.\d+` and `id`
      is the digit run after "ID:". */
  datatype NewOrderGroups = NewOrderGroups(pair: string, side: string, entry: Decimal, takeProfit: Decimal, stopLoss: Decimal, id: string)

  /** The groups of the CLOSED pattern; `result` is `[+-]?\d+\.\d+%`. */
  datatype ClosedGroups = ClosedGroups(pair: string, side: string, entry: Decimal, exit: Decimal, result: string, id: string)

  /** The three patterns kept opaque. */
  datatype Patterns = Patterns(
    newOrder: string -> Option<NewOrderGroups>,
    closed: string -> Option<ClosedGroups>,
    cancelled: string -> bool)

  /** `f"lord{id}"`: the channel's own order key. */
  function LordKey(id: string): (k: string)
    ensures StartsWith(k, "lord") && k[4..] == id
  {
    "lord" + id
  }

  /** A closed trade is a profit unless its result starts with a minus. */
  predicate IsProfit(result: string) {
    !StartsWith(result, "-")
  }

  /** `process_message`: a result for every message. */
  function Classify(ps: Patterns, m: Msg): (r: Signal)
    ensures r.source == m
    ensures var t := Collapse(TextOrEmpty(m));
      && (r.action == Action.NewSignal <==> ps.newOrder(t).Some?)
      && (r.action in {TpHit, SlHit} <==> ps.newOrder(t).None? && ps.closed(t).Some?)
      && (r.action == Cancelled <==> ps.newOrder(t).None? && ps.closed(t).None? && ps.cancelled(t))
      && (r.action == Other <==> ps.newOrder(t).None? && ps.closed(t).None? && !ps.cancelled(t))
    ensures var t := Collapse(TextOrEmpty(m)); ps.newOrder(t).Some? ==>
      var g := ps.newOrder(t).value;
      && r.orderId == Present(LordKey(g.id)) && r.orderType == Present("MARKET")
      && r.pair == Present(Upper(g.pair)) && r.side == Present(Upper(g.side))
      && r.entry == Present(g.entry) && r.stopLoss == Present(g.stopLoss) && r.takeProfit == Present([g.takeProfit])
    ensures var t := Collapse(TextOrEmpty(m)); ps.newOrder(t).None? && ps.closed(t).Some? ==>
      var c := ps.closed(t).value;
      && r.orderId == Present(LordKey(c.id)) && r.outcome == Present(c.result)
      && r.pair == Present(Upper(c.pair)) && r.side == Present(Upper(c.side))
      && r.entryPrice == Present(c.entry) && r.exitPrice == Present(c.exit)
    ensures r.action in {Cancelled, Other} ==> r.orderId.Absent? && r.message == Present(Collapse(TextOrEmpty(m)))
    ensures r.action in {TpHit, SlHit} ==>
      r.outcome.Present? && (r.action == TpHit <==> IsProfit(r.outcome.value)) && r.isProfit == Present(r.action == TpHit)
  {
    var t := Collapse(TextOrEmpty(m));
    match ps.newOrder(t)
    case Some(g) =>
      Bare(m, Action.NewSignal).(
        pair := Present(Upper(g.pair)), side := Present(Upper(g.side)), entry := Present(g.entry),
        stopLoss := Present(g.stopLoss), takeProfit := Present([g.takeProfit]),
        orderType := Present("MARKET"), orderId := Present(LordKey(g.id)))
    case None =>
      match ps.closed(t)
      case Some(c) =>
        Bare(m, if IsProfit(c.result) then TpHit else SlHit).(
          pair := Present(Upper(c.pair)), side := Present(Upper(c.side)),
          entryPrice := Present(c.entry), exitPrice := Present(c.exit), outcome := Present(c.result),
          isProfit := Present(IsProfit(c.result)), orderId := Present(LordKey(c.id)))
      case None =>
        if ps.cancelled(t) then Bare(m, Cancelled).(message := Present(t))
        else Bare(m, Other).(message := Present(t))
  }

  /** A lord key never equals a `chat_msg` key, which starts with a minus
      or a digit: the two key spaces of the order table are disjoint. */
  lemma {:induction false} LordKeysAreDisjoint(id: string, chat: int, msg: int)
    ensures LordKey(id) != OrderKey(chat, msg)
  {
    var k := OrderKey(chat, msg);
    assert k[0] == IntToString(chat)[0];
    assert LordKey(id)[0] == 'l';
  }

  /** Different trade IDs give different keys. */
  lemma {:induction false} LordKeyInjective(a: string, b: string)
    ensures LordKey(a) == LordKey(b) <==> a == b
  {
    if LordKey(a) == LordKey(b) {
      assert a == LordKey(a)[4..];
    }
  }

  /** A CLOSED report lands on the order its NEW ORDER message opened
      exactly when both carry the same trade ID. */
  lemma {:induction false} ClosedFindsItsOrder(ps: Patterns, open: Msg, close: Msg)
    requires ps.newOrder(Collapse(TextOrEmpty(open))).Some?
    requires ps.newOrder(Collapse(TextOrEmpty(close))).None? && ps.closed(Collapse(TextOrEmpty(close))).Some?
    ensures Classify(ps, open).orderId == Classify(ps, close).orderId <==>
      ps.newOrder(Collapse(TextOrEmpty(open))).value.id == ps.closed(Collapse(TextOrEmpty(close))).value.id
  {
    LordKeyInjective(ps.newOrder(Collapse(TextOrEmpty(open))).value.id, ps.closed(Collapse(TextOrEmpty(close))).value.id);
  }

  /** The reply field plays no part: the same text gives the same result
      whatever it answers. */
  lemma {:induction false} IgnoresReply(ps: Patterns, m: Msg, reply: Option<int>)
    ensures Classify(ps, m.(reply := reply)) == Classify(ps, m).(source := m.(reply := reply))
  {
  }
}

=== FILE: numbers.dfy ===
/** Decimal text: Python's `str(int)` and `int(...)`, the `f"{chat_id}_{msg_id}"`
    order keys built from them, and `float(...)` on digit-and-dot runs, with
    prices kept as exact scaled integers instead of floats. */
module Numbers {
  import opened Wrappers
  import opened Text

  predicate AllDigits(s: string) {
    forall k | 0 <= k < |s| :: IsDigit(s[k])
  }

  function DigitChar(d: nat): char
    requires d < 10
  {
    ('0' as int + d) as char
  }

  function DigitValue(c: char): nat
    requires IsDigit(c)
  {
    c as int - '0' as int
  }

  /** Python's `str(n)` for a non-negative integer: decimal digits without
      leading zeros. */
  function NatToString(n: nat): (r: string)
    ensures |r| > 0 && AllDigits(r)
    ensures r[0] == '0' ==> n == 0
    decreases n
  {
    if n < 10 then [DigitChar(n)] else NatToString(n / 10) + [DigitChar(n % 10)]
  }

  /** Python's `int(s)` on a run of ASCII digits. */
  function DigitsToNat(s: string): nat
    requires AllDigits(s)
    decreases |s|
  {
    if |s| == 0 then 0 else DigitsToNat(s[..|s| - 1]) * 10 + DigitValue(s[|s| - 1])
  }

  /** Reading back the digits of `n` gives `n`. */
  lemma {:induction false} NatStringRoundTrip(n: nat)
    ensures DigitsToNat(NatToString(n)) == n
    decreases n
  {
    if n >= 10 {
      var r := NatToString(n);
      NatStringRoundTrip(n / 10);
      assert r[..|r| - 1] == NatToString(n / 10);
    }
  }

  /** Python's `str(i)` for any integer. */
  function IntToString(i: int): (r: string)
    ensures |r| > 0 && '_' !in r
    ensures r[0] == '-' || IsDigit(r[0])
  {
    var r := if i < 0 then "-" + NatToString(-i) else NatToString(i);
    assert forall k | 0 <= k < |r| :: r[k] == '-' || IsDigit(r[k]);
    r
  }

  /** The text `str(i)` produces: an optional minus and a digit run. */
  predicate IntText(s: string) {
    |s| > 0 && (if s[0] == '-' then |s| > 1 && AllDigits(s[1..]) else AllDigits(s))
  }

  function ParseInt(s: string): int
    requires IntText(s)
  {
    if s[0] == '-' then 0 - DigitsToNat(s[1..]) else DigitsToNat(s)
  }

  lemma {:induction false} IntStringRoundTrip(i: int)
    ensures IntText(IntToString(i)) && ParseInt(IntToString(i)) == i
  {
    if i < 0 {
      var d := NatToString(-i);
      NatStringRoundTrip(-i);
      assert ("-" + d)[1..] == d;
    } else {
      NatStringRoundTrip(i);
    }
  }

  /** Python's `f"{chat_id}_{msg_id}"`, the order key of a message. */
  function OrderKey(chat: int, id: int): string {
    IntToString(chat) + "_" + IntToString(id)
  }

  /** Splitting an order key at `_` gives back both numbers, so distinct
      (chat, message) pairs never share a key. */
  lemma {:induction false} OrderKeyInjective(c1: int, i1: int, c2: int, i2: int)
    requires OrderKey(c1, i1) == OrderKey(c2, i2)
    ensures c1 == c2 && i1 == i2
  {
    var a1, b1 := IntToString(c1), IntToString(i1);
    var a2, b2 := IntToString(c2), IntToString(i2);
    assert JoinWith([a1, b1], "_") == OrderKey(c1, i1);
    assert JoinWith([a2, b2], "_") == OrderKey(c2, i2);
    SplitJoin([a1, b1], '_');
    SplitJoin([a2, b2], '_');
    assert [a1, b1] == [a2, b2];
    IntStringRoundTrip(c1);
    IntStringRoundTrip(c2);
    IntStringRoundTrip(i1);
    IntStringRoundTrip(i2);
  }

  /** An exact decimal `units / 10^scale`, standing for Python's float. */
  datatype Decimal = Decimal(units: nat, scale: nat)

  /** The texts `float()` accepts among strings of digits and dots: at most
      one dot and at least one digit. */
  predicate DecimalText(s: string) {
    || (|s| > 0 && AllDigits(s))
    || (exists k | 0 <= k < |s| :: s[k] == '.' && AllDigits(s[..k]) && AllDigits(s[k + 1..]) && |s| > 1)
  }

  /** Python's `float(s)` on a string of digits and dots; `None` stands for
      the `ValueError` it raises otherwise. */
  function ParseDecimal(s: string): (r: Option<Decimal>)
    ensures r.Some? <==> DecimalText(s)
  {
    var k := Span(s, 0, IsDigit);
    if k == |s| then
      if k > 0 then Some(Decimal(DigitsToNat(s), 0)) else None
    else if s[k] != '.' then
      assert !DecimalText(s);
      None
    else
      var f := Span(s, k + 1, IsDigit);
      if f != |s| then
        assert !DecimalText(s);
        None
      else if |s| == 1 then None
      else
        assert AllDigits(s[..k] + s[k + 1..]);
        assert DecimalText(s) by {
          assert s[k] == '.' && AllDigits(s[..k]) && AllDigits(s[k + 1..]);
        }
        Some(Decimal(DigitsToNat(s[..k] + s[k + 1..]), |s| - k - 1))
  }

  /** A whole number's digits read back as that number. */
  lemma {:induction false} ParseDecimalOfNat(n: nat)
    ensures ParseDecimal(NatToString(n)) == Some(Decimal(n, 0))
  {
    NatStringRoundTrip(n);
  }

  function Pow10(n: nat): (r: nat)
    ensures r >= 1
  {
    if n == 0 then 1 else 10 * Pow10(n - 1)
  }

  /** The value of two digit runs written one after the other. */
  lemma {:induction false} DigitsConcat(a: string, b: string)
    requires AllDigits(a) && AllDigits(b)
    ensures AllDigits(a + b)
    ensures DigitsToNat(a + b) == DigitsToNat(a) * Pow10(|b|) + DigitsToNat(b)
    decreases |b|
  {
    assert AllDigits(a + b) by {
      forall k | 0 <= k < |a + b| ensures IsDigit((a + b)[k]) {
        if k >= |a| {
          assert (a + b)[k] == b[k - |a|];
        }
      }
    }
    if |b| == 0 {
      assert a + b == a;
    } else {
      var init := b[..|b| - 1];
      assert (a + b)[..|a + b| - 1] == a + init;
      assert (a + b)[|a + b| - 1] == b[|b| - 1];
      DigitsConcat(a, init);
      ShiftDigit(DigitsToNat(a), Pow10(|init|), DigitsToNat(init), DigitValue(b[|b| - 1]));
    }
  }

  lemma {:induction false} ShiftDigit(x: int, p: int, y: int, d: int)
    ensures (x * p + y) * 10 + d == x * (10 * p) + (y * 10 + d)
  {
  }

  /** `float()` of a digit run without a dot is that whole number. */
  lemma {:induction false} ParseDecimalWhole(s: string)
    requires |s| > 0 && AllDigits(s)
    ensures ParseDecimal(s) == Some(Decimal(DigitsToNat(s), 0))
  {
    SpanStops(s, 0, |s|);
  }

  /** A digit scan from `i` stops at the first non-digit. */
  lemma {:induction false} SpanStops(s: string, i: nat, j: nat)
    requires i <= j <= |s|
    requires forall k | i <= k < j :: IsDigit(s[k])
    requires j == |s| || !IsDigit(s[j])
    ensures Span(s, i, IsDigit) == j
  {
  }

  /** `float()` of `i.f` keeps the digits of both parts, scaled by the
      length of the fraction. */
  lemma {:induction false} ParseDecimalSplit(s: string, k: nat)
    requires k < |s| && s[k] == '.' && |s| > 1 && AllDigits(s[..k]) && AllDigits(s[k + 1..])
    ensures AllDigits(s[..k] + s[k + 1..])
    ensures ParseDecimal(s) == Some(Decimal(DigitsToNat(s[..k] + s[k + 1..]), |s| - k - 1))
  {
    DigitsConcat(s[..k], s[k + 1..]);
    assert forall j | 0 <= j < k :: s[..k][j] == s[j];
    SpanStops(s, 0, k);
    assert forall j | k + 1 <= j < |s| :: s[k + 1..][j - k - 1] == s[j];
    SpanStops(s, k + 1, |s|);
  }

  /** `float()` of `i.f` is the number i + f / 10^|f|: scaled by the length
      of the fraction, the units are the integer part shifted left by that
      many places plus the fraction. */
  lemma {:induction false} ParseDecimalValue(s: string, k: nat)
    requires k < |s| && s[k] == '.' && |s| > 1 && AllDigits(s[..k]) && AllDigits(s[k + 1..])
    ensures ParseDecimal(s) == Some(Decimal(DigitsToNat(s[..k]) * Pow10(|s| - k - 1) + DigitsToNat(s[k + 1..]), |s| - k - 1))
  {
    ParseDecimalSplit(s, k);
    DigitsConcat(s[..k], s[k + 1..]);
  }

  /** Two digit runs joined by a dot read as the run of all their digits,
      scaled by the length of the second. */
  lemma {:induction false} ParseDotted(a: string, b: string)
    requires |a| > 0 && |b| > 0 && AllDigits(a) && AllDigits(b)
    ensures ParseDecimal(a + "." + b) == Some(Decimal(DigitsToNat(a + b), |b|))
  {
    var s := a + "." + b;
    assert s[..|a|] == a && s[|a| + 1..] == b && s[|a|] == '.';
    ParseDecimalSplit(s, |a|);
  }

  /** `n` written with at least `w` digits, zeros in front. */
  function PadDigits(n: nat, w: nat): (r: string)
    ensures AllDigits(r) && |r| >= w && |r| > 0
    ensures DigitsToNat(r) == n
    decreases w
  {
    NatStringRoundTrip(n);
    if |NatToString(n)| >= w then NatToString(n)
    else
      var p := PadDigits(n, w - 1);
      if |p| >= w then p
      else
        DigitsConcat("0", p);
        assert DigitsToNat("0") == 0 by {
          assert "0"[..0] == "";
        }
        "0" + p
  }

  /** The text of a decimal with exactly `scale` digits after the dot, and
      no dot when the scale is 0. */
  function ShowDecimal(d: Decimal): (s: string) {
    var digits := PadDigits(d.units, d.scale + 1);
    if d.scale == 0 then digits
    else digits[..|digits| - d.scale] + "." + digits[|digits| - d.scale..]
  }

  lemma {:induction false} SplitDigits(t: string, k: nat)
    requires k <= |t| && AllDigits(t)
    ensures AllDigits(t[..k]) && AllDigits(t[k..]) && t[..k] + t[k..] == t
  {
    assert forall i | 0 <= i < k :: t[..k][i] == t[i];
    assert forall i | 0 <= i < |t| - k :: t[k..][i] == t[k + i];
  }

  /** Reading back the text of a decimal gives the decimal: every `Decimal`
      is what `float()` makes of some text. */
  lemma {:induction false} DecimalRoundTrip(d: Decimal)
    ensures ParseDecimal(ShowDecimal(d)) == Some(d)
  {
    if d.scale == 0 {
      WholeRoundTrip(d);
    } else {
      DottedRoundTrip(d);
    }
  }

  lemma {:induction false} WholeRoundTrip(d: Decimal)
    requires d.scale == 0
    ensures ParseDecimal(ShowDecimal(d)) == Some(d)
  {
    var digits := PadDigits(d.units, 1);
    assert ShowDecimal(d) == digits;
    ParseDecimalWhole(digits);
  }

  lemma {:induction false} DottedRoundTrip(d: Decimal)
    requires d.scale > 0
    ensures ParseDecimal(ShowDecimal(d)) == Some(d)
  {
    var digits := PadDigits(d.units, d.scale + 1);
    var k := |digits| - d.scale;
    var a, b := digits[..k], digits[k..];
    SplitDigits(digits, k);
    assert ShowDecimal(d) == a + "." + b;
    ParseDotted(a, b);
  }

  /** The text of a decimal holds nothing but digits and a dot. */
  lemma {:induction false} ShownCharacters(d: Decimal)
    ensures forall k | 0 <= k < |ShowDecimal(d)| :: DigitOrDot(ShowDecimal(d)[k])
  {
    var digits := PadDigits(d.units, d.scale + 1);
    if d.scale > 0 {
      var k := |digits| - d.scale;
      var a, b := digits[..k], digits[k..];
      SplitDigits(digits, k);
      var t := a + "." + b;
      assert ShowDecimal(d) == t;
      forall i | 0 <= i < |t| ensures DigitOrDot(t[i]) {
        if i < |a| {
          assert t[i] == a[i];
        } else if i > |a| {
          assert t[i] == b[i - |a| - 1];
        }
      }
    }
  }
}

=== FILE: queue.dfy ===
/** The queue consumer (`handler` of core/queue.py): for each queued message
    it classifies the text, records the message, keeps the order table up to
    date and forwards notices to the destination channel. The two tables are
    maps; DynamoDB's `put_item` replaces a row, `update_item` sets some
    attributes and creates the row when it is missing. */
module Queue {
  import opened Wrappers
  import opened Numbers
  import opened Signals
  import Registry

  /** The fields of a decoded queue message; `None`/`Absent` is a missing
      key and `Null` a JSON `null`. Only `msg_text` and `msg_type` have
      defaults; `msg_date`, `reply_msg_id` and `signal_type` must be present
      but may be null. */
  datatype Body = Body(
    chatId: Option<int>, msgId: Option<int>, msgDate: Slot<string>, text: Option<string>,
    reply: Slot<int>, msgType: Slot<string>, signalType: Slot<string>)

  /** A queue record: its body either decodes as JSON or it does not. */
  datatype Record = Undecodable | Decoded(body: Body)

  /** A row of the message table. A row first written by an edit has no
      reply, creation time or result. */
  datatype MsgRow = MsgRow(
    reply: Slot<int>, text: string, action: Action,
    createdAt: Option<string>, updatedAt: Option<string>, result: Option<Signal>)

  datatype Status = Pending | Reached(action: Action)

  /** A row of the order table. A row first written by a status update has
      only its status and update time. */
  datatype OrderRow = OrderRow(
    status: Status, chat: Option<int>, extracted: Option<Signal>, pnl: Option<int>,
    createdAt: Option<string>, updatedAt: Option<string>, toChat: Option<int>, toMsg: Option<int>)

  datatype Db = Db(msgs: map<(int, int), MsgRow>, orders: map<string, OrderRow>)

  /** What the handler does outside the tables: a notice about a result
      sent to a channel (as a reply when `replyTo` is set), or the trade
      handler invoked with a result. */
  datatype Event = Send(channel: int, about: Signal, replyTo: Option<int>) | Trigger(signal: Signal)

  /** The deployment: the two destination channels, and the message id the
      bot API returns for a successful send (`None` when it is not ok). */
  datatype Config = Config(forex: int, crypto: int, sent: Event -> Option<int>)

  /** One record's effect; `halt` is set when the handler returns early. */
  datatype Outcome = Outcome(db: Db, events: seq<Event>, halt: bool)

  /** The whole batch: final tables, events in order, and whether every
      record was reached. */
  datatype Run = Run(db: Db, events: seq<Event>, completed: bool)

  const SharedDestination: int := -1002665107295
  const TriggerChats: set<int> := {-1002587201256, -1001338521686}
  const StatusActions: set<Action> := {TpHit, SlHit, Cancelled, InProfitUpdate}

  /** `TO_CHANNEL_ID`; a null `signal_type` is not "forex". */
  function Destination(cfg: Config, chat: int, signalType: Option<string>): (c: int)
    ensures chat in {-1002643902459, -1002587201256} ==> c == SharedDestination
    ensures chat !in {-1002643902459, -1002587201256} ==> c == (if signalType == Some("forex") then cfg.forex else cfg.crypto)
  {
    if chat in {-1002643902459, -1002587201256} then SharedDestination
    else if signalType == Some("forex") then cfg.forex else cfg.crypto
  }

  /** The keys read with `message[...]` are all there. */
  predicate Complete(b: Body) {
    b.chatId.Some? && b.msgId.Some? && !b.msgDate.Absent? && !b.reply.Absent? && !b.signalType.Absent?
  }

  /** `message.get("msg_type", "NEW")`: the default only for a missing key;
      a JSON `null` reads as `None`, which is none of the three kinds. */
  function MsgType(b: Body): (k: Option<string>)
    ensures b.msgType.Absent? ==> k == Some("NEW")
    ensures b.msgType.Null? ==> k.None?
    ensures b.msgType.Present? ==> k == Some(b.msgType.value)
  {
    match b.msgType
    case Absent => Some("NEW")
    case Null => None
    case Present(t) => Some(t)
  }

  /** The record handed to the classifiers. */
  function MsgOf(b: Body): Msg
    requires Complete(b)
  {
    Msg(b.chatId.value, b.msgId.value, b.reply.Get(), b.text)
  }

  /** The classification of a record's message, when its body decodes and
      is complete. */
  function Classified(cs: Registry.Classifiers, rec: Record): Option<Result<Option<Signal>, Fault>> {
    if rec.Decoded? && Complete(rec.body) then Some(Registry.Route(cs, MsgOf(rec.body))) else None
  }

  /** The result a record produces, if any. */
  function ResultOf(cs: Registry.Classifiers, rec: Record): Option<Signal> {
    match Classified(cs, rec)
    case Some(Success(Some(r))) => Some(r)
    case _ => None
  }

  /** The keys `result[...]` reads when storing a new order. */
  predicate HasOrderFields(r: Signal) {
    r.orderId.Present? && !r.pair.Absent? && !r.side.Absent? && !r.orderType.Absent? &&
    !r.entry.Absent? && !r.stopLoss.Absent? && !r.takeProfit.Absent?
  }

  /** The EDITED branch's `update_item` on the message row. */
  function EditedRow(before: Option<MsgRow>, text: string, a: Action, date: Option<string>): (row: MsgRow)
    ensures row.text == text && row.action == a && row.updatedAt == date
    ensures before.Some? ==> row.reply == before.value.reply && row.createdAt == before.value.createdAt && row.result == before.value.result
  {
    match before
    case Some(row) => row.(text := text, action := a, updatedAt := date)
    case None => MsgRow(Absent, text, a, None, date, None)
  }

  /** The status `update_item` on the order table. */
  function SetStatus(orders: map<string, OrderRow>, key: string, a: Action, date: Option<string>): (r: map<string, OrderRow>)
    ensures r.Keys == orders.Keys + {key}
    ensures r[key].status == Reached(a) && r[key].updatedAt == date
    ensures key in orders ==> r[key].toMsg == orders[key].toMsg && r[key].extracted == orders[key].extracted
    ensures key !in orders ==> r[key].toMsg.None? && r[key].extracted.None?
    ensures forall k | k in orders && k != key :: r[k] == orders[k]
  {
    var row := if key in orders then orders[key].(status := Reached(a), updatedAt := date)
               else OrderRow(Reached(a), None, None, None, None, date, None, None);
    orders[key := row]
  }

  /** The delivery `update_item` after a new signal is sent. */
  function SetDelivery(orders: map<string, OrderRow>, key: string, chat: int, id: int): (r: map<string, OrderRow>)
    requires key in orders
    ensures r.Keys == orders.Keys
    ensures r[key] == orders[key].(toChat := Some(chat), toMsg := Some(id))
    ensures forall k | k in orders && k != key :: r[k] == orders[k]
  {
    orders[key := orders[key].(toChat := Some(chat), toMsg := Some(id))]
  }

  /** Whether a TP/SL notice goes out: not when the edited message was
      already a TP or SL. */
  predicate ShouldSend(a: Action, prev: Option<MsgRow>) {
    a == Action.NewSignal || a == Cancelled || a == InProfitUpdate ||
    ((a == TpHit || a == SlHit) && !(prev.Some? && prev.value.action in {TpHit, SlHit}))
  }

  /** Everything after the message row is written: the order table, the
      notice and the trade trigger. */
  function Act(cfg: Config, db: Db, chat: int, date: Option<string>, dest: int, r: Signal, prev: Option<MsgRow>): (o: Outcome)
    ensures o.db.msgs == db.msgs
    ensures o.halt <==> r.action == Other
    ensures forall k | k in db.orders && Present(k) != r.orderId :: k in o.db.orders && o.db.orders[k] == db.orders[k]
    ensures o.db.orders.Keys <= db.orders.Keys + (if r.orderId.Present? then {r.orderId.value} else {})
    ensures forall e | e in o.events :: (e.Send? ==> e.about == r && e.channel == dest) && (e.Trigger? ==> e.signal == r)
    ensures |o.events| <= 2
    ensures r.action == Action.NewSignal && HasOrderFields(r) ==> var key := r.orderId.value;
      && key in o.db.orders && o.db.orders[key].status == Pending && o.db.orders[key].extracted == Some(r)
      && o.db.orders[key].toMsg == cfg.sent(Send(dest, r, None))
  {
    if r.action == Other then Outcome(db, [], true)
    else if r.action == Action.NewSignal then
      if !HasOrderFields(r) then Outcome(db, [], false)
      else
        var key := r.orderId.value;
        var orders := db.orders[key := OrderRow(Pending, Some(chat), Some(r), Some(0), date, Some(""), None, None)];
        var ev := Send(dest, r, None);
        var delivered := match cfg.sent(ev)
          case Some(id) => SetDelivery(orders, key, dest, id)
          case None => orders;
        Outcome(db.(orders := delivered), [ev] + (if chat in TriggerChats then [Trigger(r)] else []), false)
    else if r.action in StatusActions then
      if !r.orderId.Present? then Outcome(db, [], false)
      else
        var key := r.orderId.value;
        var orders := SetStatus(db.orders, key, r.action, date);
        match orders[key].toMsg
        case None => Outcome(db.(orders := orders), [], false)
        case Some(to) =>
          Outcome(db.(orders := orders), if ShouldSend(r.action, prev) then [Send(dest, r, Some(to))] else [], false)
    else Outcome(db, [], false)
  }

  /** The stored row an edit starts from. */
  function Prev(db: Db, b: Body): (prev: Option<MsgRow>)
    requires Complete(b)
    ensures prev.Some? <==> b.msgType == Present("EDITED") && (b.chatId.value, b.msgId.value) in db.msgs
  {
    var key := (b.chatId.value, b.msgId.value);
    if MsgType(b) == Some("EDITED") && key in db.msgs then Some(db.msgs[key]) else None
  }

  /** The message table after the message itself is recorded: a new
      message is put whole, an edit updates its row, anything else is not
      written. */
  function Recorded(db: Db, b: Body, r: Signal): (msgs: map<(int, int), MsgRow>)
    requires Complete(b)
    ensures forall k | k in db.msgs && k != (b.chatId.value, b.msgId.value) :: k in msgs && msgs[k] == db.msgs[k]
    ensures msgs.Keys <= db.msgs.Keys + {(b.chatId.value, b.msgId.value)}
    ensures var key := (b.chatId.value, b.msgId.value);
      MsgType(b) == Some("NEW") ==> key in msgs && msgs[key] == MsgRow(b.reply, b.text.GetOr(""), r.action, b.msgDate.Get(), None, Some(r))
    ensures var key := (b.chatId.value, b.msgId.value);
      MsgType(b) == Some("EDITED") ==> key in msgs && msgs[key] == EditedRow(Prev(db, b), b.text.GetOr(""), r.action, b.msgDate.Get())
    ensures MsgType(b) !in {Some("NEW"), Some("EDITED")} ==> msgs == db.msgs
  {
    var key := (b.chatId.value, b.msgId.value);
    var kind := MsgType(b);
    if kind == Some("NEW") then db.msgs[key := MsgRow(b.reply, b.text.GetOr(""), r.action, b.msgDate.Get(), None, Some(r))]
    else if kind == Some("EDITED") then db.msgs[key := EditedRow(Prev(db, b), b.text.GetOr(""), r.action, b.msgDate.Get())]
    else db.msgs
  }

  /** One record of the loop body. */
  function Step(cfg: Config, cs: Registry.Classifiers, db: Db, rec: Record): (o: Outcome)
    ensures Classified(cs, rec).None? ==> o == Outcome(db, [], false)
    ensures Classified(cs, rec).Some? && Classified(cs, rec).value.Failure? ==> o == Outcome(db, [], false)
    ensures forall e | e in o.events :: ResultOf(cs, rec) == Some(if e.Send? then e.about else e.signal)
    ensures Classified(cs, rec) == Some(Success(None)) ==> o == Outcome(db, [], rec.body.msgType == Present("DELETED"))
  {
    match Classified(cs, rec)
    case None => Outcome(db, [], false)
    case Some(routed) => Proceed(cfg, db, rec.body, routed)
  }

  /** The loop body once the record's message has been classified. */
  function Proceed(cfg: Config, db: Db, b: Body, routed: Result<Option<Signal>, Fault>): (o: Outcome)
    requires Complete(b)
    ensures routed.Failure? ==> o == Outcome(db, [], false)
    ensures routed == Success(None) ==> o == Outcome(db, [], b.msgType == Present("DELETED"))
    ensures routed.Success? && routed.value.Some? ==>
      forall e | e in o.events :: routed.value.value == (if e.Send? then e.about else e.signal)
  {
    if routed.Failure? then Outcome(db, [], false)
    else if MsgType(b) == Some("DELETED") then Outcome(db, [], true)
    else if routed.value.None? then Outcome(db, [], false)
    else
      var r := routed.value.value;
      Act(cfg, db.(msgs := Recorded(db, b, r)), b.chatId.value, b.msgDate.Get(),
          Destination(cfg, b.chatId.value, b.signalType.Get()), r, Prev(db, b))
  }

  /** A record with a result, other than a deletion, records its message
      and then acts on the result. */
  lemma {:induction false} StepOfResult(cfg: Config, cs: Registry.Classifiers, db: Db, b: Body)
    requires Complete(b) && b.msgType != Present("DELETED") && ResultOf(cs, Decoded(b)).Some?
    ensures var r := ResultOf(cs, Decoded(b)).value;
      Step(cfg, cs, db, Decoded(b)) ==
        Act(cfg, db.(msgs := Recorded(db, b, r)), b.chatId.value, b.msgDate.Get(),
            Destination(cfg, b.chatId.value, b.signalType.Get()), r, Prev(db, b))
  {
  }

  /** The records in order from the given tables, stopping at the first
      early return. */
  function Fold(step: (Db, Record) -> Outcome, db: Db, recs: seq<Record>): (run: Run)
    ensures |recs| == 0 ==> run == Run(db, [], true)
    decreases |recs|
  {
    if |recs| == 0 then Run(db, [], true)
    else
      var o := step(db, recs[0]);
      if o.halt then Run(o.db, o.events, false)
      else
        var rest := Fold(step, o.db, recs[1..]);
        Run(rest.db, o.events + rest.events, rest.completed)
  }

  /** `handler`. */
  function Handle(cfg: Config, cs: Registry.Classifiers, db: Db, recs: seq<Record>): Run {
    Fold((d: Db, rec: Record) => Step(cfg, cs, d, rec), db, recs)
  }

  // ------------------------------------------------------------ lemmas

  /** Handling a batch in two parts is handling it whole: the second part
      starts from the tables the first left, unless the first stopped. */
  lemma {:induction false} FoldConcat(step: (Db, Record) -> Outcome, db: Db, a: seq<Record>, b: seq<Record>)
    ensures var ra := Fold(step, db, a);
      Fold(step, db, a + b) ==
        if ra.completed then
          var rb := Fold(step, ra.db, b);
          Run(rb.db, ra.events + rb.events, rb.completed)
        else ra
    decreases |a|
  {
    if |a| == 0 {
      assert a + b == b;
      var rb := Fold(step, db, b);
      assert [] + rb.events == rb.events;
    } else {
      assert (a + b)[0] == a[0];
      assert (a + b)[1..] == a[1..] + b;
      var o := step(db, a[0]);
      if !o.halt {
        var tail := Fold(step, o.db, a[1..]);
        FoldConcat(step, o.db, a[1..], b);
        if tail.completed {
          var rb := Fold(step, tail.db, b);
          assert o.events + (tail.events + rb.events) == (o.events + tail.events) + rb.events;
        }
      }
    }
  }

  /** A record whose handling returns early ends the batch: nothing after
      it is read. */
  lemma {:induction false} HaltEndsBatch(cfg: Config, cs: Registry.Classifiers, db: Db, rec: Record, rest: seq<Record>)
    requires Step(cfg, cs, db, rec).halt
    ensures Handle(cfg, cs, db, [rec] + rest) == Run(Step(cfg, cs, db, rec).db, Step(cfg, cs, db, rec).events, false)
  {
    assert ([rec] + rest)[0] == rec;
  }

  /** A deleted message's record stops the batch and writes nothing. */
  lemma {:induction false} DeletedStopsBatch(cfg: Config, cs: Registry.Classifiers, db: Db, b: Body)
    requires Complete(b) && b.msgType == Present("DELETED") && Registry.Route(cs, MsgOf(b)).Success?
    ensures Step(cfg, cs, db, Decoded(b)) == Outcome(db, [], true)
  {
  }

  /** A record changes the message row of its own message only, and the
      order row of its own result's key only. */
  lemma {:induction false} StepFrame(cfg: Config, cs: Registry.Classifiers, db: Db, rec: Record)
    ensures var o := Step(cfg, cs, db, rec);
      && (forall k | k in db.msgs && (!rec.Decoded? || k != (rec.body.chatId.GetOr(0), rec.body.msgId.GetOr(0))) ::
            k in o.db.msgs && o.db.msgs[k] == db.msgs[k])
      && (forall k | k in db.orders && (ResultOf(cs, rec).None? || ResultOf(cs, rec).value.orderId != Present(k)) ::
            k in o.db.orders && o.db.orders[k] == db.orders[k])
  {
  }

  /** On the order table: a status report for an order with no delivered
      message updates (or creates) its row and sends nothing. */
  lemma {:induction false} ActOnUndelivered(cfg: Config, db: Db, chat: int, date: Option<string>, dest: int, r: Signal, prev: Option<MsgRow>)
    requires r.action in StatusActions && r.orderId.Present?
    requires r.orderId.value !in db.orders || db.orders[r.orderId.value].toMsg.None?
    ensures var o := Act(cfg, db, chat, date, dest, r, prev);
      && o.events == [] && !o.halt
      && r.orderId.value in o.db.orders
      && o.db.orders[r.orderId.value].status == Reached(r.action)
      && o.db.orders[r.orderId.value].toMsg.None?
  {
    var orders := SetStatus(db.orders, r.orderId.value, r.action, date);
    assert orders[r.orderId.value].toMsg.None?;
  }

  /** A status report for an order never delivered (or unknown) leaves a
      stub row behind and sends nothing. */
  lemma {:induction false} UndeliveredOrderGetsStub(cfg: Config, cs: Registry.Classifiers, db: Db, b: Body)
    requires Complete(b) && MsgType(b) in {Some("NEW"), Some("EDITED")}
    requires ResultOf(cs, Decoded(b)).Some?
    requires var r := ResultOf(cs, Decoded(b)).value;
      r.action in StatusActions && r.orderId.Present? &&
      (r.orderId.value !in db.orders || db.orders[r.orderId.value].toMsg.None?)
    ensures var o := Step(cfg, cs, db, Decoded(b)); var r := ResultOf(cs, Decoded(b)).value;
      && o.events == [] && !o.halt
      && r.orderId.value in o.db.orders
      && o.db.orders[r.orderId.value].status == Reached(r.action)
      && o.db.orders[r.orderId.value].toMsg.None?
  {
    StepOfResult(cfg, cs, db, b);
    var r := ResultOf(cs, Decoded(b)).value;
    ActOnUndelivered(cfg, db.(msgs := Recorded(db, b, r)), b.chatId.value, b.msgDate.Get(),
      Destination(cfg, b.chatId.value, b.signalType.Get()), r, Prev(db, b));
  }

  /** On the order table: a status notice for a delivered order replies
      to the delivered message, and goes out unless an edit repeats a
      TP/SL report. */
  lemma {:induction false} ActOnDelivered(cfg: Config, db: Db, chat: int, date: Option<string>, dest: int, r: Signal, prev: Option<MsgRow>, to: int)
    requires r.action in StatusActions && r.orderId.Present?
    requires r.orderId.value in db.orders && db.orders[r.orderId.value].toMsg == Some(to)
    ensures var o := Act(cfg, db, chat, date, dest, r, prev);
      && (forall e | e in o.events :: e == Send(dest, r, Some(to)))
      && (|o.events| == 1 <==> ShouldSend(r.action, prev))
      && (|o.events| == 0 <==> !ShouldSend(r.action, prev))
  {
    var orders := SetStatus(db.orders, r.orderId.value, r.action, date);
    assert orders[r.orderId.value].toMsg == Some(to);
  }

  /** A status notice is threaded under the forwarded signal: it replies
      to the message id stored when the signal was delivered. */
  lemma {:induction false} NoticesReplyToDelivery(cfg: Config, cs: Registry.Classifiers, db: Db, b: Body, to: int)
    requires Complete(b) && MsgType(b) in {Some("NEW"), Some("EDITED")}
    requires ResultOf(cs, Decoded(b)).Some?
    requires var r := ResultOf(cs, Decoded(b)).value;
      r.action in StatusActions && r.orderId.Present? &&
      r.orderId.value in db.orders && db.orders[r.orderId.value].toMsg == Some(to)
    ensures var o := Step(cfg, cs, db, Decoded(b));
      forall e | e in o.events :: e.Send? && e.replyTo == Some(to)
  {
    StepOfResult(cfg, cs, db, b);
    var r := ResultOf(cs, Decoded(b)).value;
    ActOnDelivered(cfg, db.(msgs := Recorded(db, b, r)), b.chatId.value, b.msgDate.Get(),
      Destination(cfg, b.chatId.value, b.signalType.Get()), r, Prev(db, b), to);
  }

  /** An edit that turns a TP/SL report into a TP/SL report sends nothing
      new; a fresh TP/SL report on a delivered order always sends. */
  lemma {:induction false} EditedHitsAreNotResent(cfg: Config, cs: Registry.Classifiers, db: Db, b: Body, to: int)
    requires Complete(b)
    requires ResultOf(cs, Decoded(b)).Some?
    requires var r := ResultOf(cs, Decoded(b)).value;
      r.action in {TpHit, SlHit} && r.orderId.Present? &&
      r.orderId.value in db.orders && db.orders[r.orderId.value].toMsg == Some(to)
    ensures var o := Step(cfg, cs, db, Decoded(b)); var key := (b.chatId.value, b.msgId.value);
      && (b.msgType == Present("EDITED") && key in db.msgs && db.msgs[key].action in {TpHit, SlHit} ==> o.events == [])
      && (MsgType(b) == Some("NEW") ==> |o.events| == 1)
  {
    if b.msgType != Present("DELETED") {
      StepOfResult(cfg, cs, db, b);
      var r := ResultOf(cs, Decoded(b)).value;
      var prev := Prev(db, b);
      var key := (b.chatId.value, b.msgId.value);
      if b.msgType == Present("EDITED") && key in db.msgs {
        assert prev == Some(db.msgs[key]);
      }
      ActOnDelivered(cfg, db.(msgs := Recorded(db, b, r)), b.chatId.value, b.msgDate.Get(),
        Destination(cfg, b.chatId.value, b.signalType.Get()), r, prev, to);
    }
  }

  /** A delivered new signal is stored pending, with the id of the
      forwarded message; the trade handler runs only for new signals from
      the two crypto chats. */
  lemma {:induction false} NewSignalDelivery(cfg: Config, cs: Registry.Classifiers, db: Db, b: Body, id: int)
    requires Complete(b) && MsgType(b) in {Some("NEW"), Some("EDITED")}
    requires ResultOf(cs, Decoded(b)).Some?
    requires var r := ResultOf(cs, Decoded(b)).value;
      r.action == Action.NewSignal && HasOrderFields(r) &&
      cfg.sent(Send(Destination(cfg, b.chatId.value, b.signalType.Get()), r, None)) == Some(id)
    ensures var o := Step(cfg, cs, db, Decoded(b)); var r := ResultOf(cs, Decoded(b)).value;
      && r.orderId.value in o.db.orders
      && o.db.orders[r.orderId.value].status == Pending
      && o.db.orders[r.orderId.value].toMsg == Some(id)
      && |o.events| > 0 && o.events[0] == Send(Destination(cfg, b.chatId.value, b.signalType.Get()), r, None)
      && (Trigger(r) in o.events <==> b.chatId.value in TriggerChats)
  {
    StepOfResult(cfg, cs, db, b);
    var r := ResultOf(cs, Decoded(b)).value;
    ActOnNewSignal(cfg, db.(msgs := Recorded(db, b, r)), b.chatId.value, b.msgDate.Get(),
      Destination(cfg, b.chatId.value, b.signalType.Get()), r, Prev(db, b), id);
  }

  /** On the order table: a delivered new signal is stored pending with the
      forwarded message's id, and the trade handler follows the forward
      only for the two crypto chats. */
  lemma {:induction false} ActOnNewSignal(cfg: Config, db: Db, chat: int, date: Option<string>, dest: int, r: Signal, prev: Option<MsgRow>, id: int)
    requires r.action == Action.NewSignal && HasOrderFields(r)
    requires cfg.sent(Send(dest, r, None)) == Some(id)
    ensures var o := Act(cfg, db, chat, date, dest, r, prev);
      && r.orderId.value in o.db.orders
      && o.db.orders[r.orderId.value].status == Pending
      && o.db.orders[r.orderId.value].toMsg == Some(id)
      && |o.events| > 0 && o.events[0] == Send(dest, r, None)
      && (Trigger(r) in o.events <==> chat in TriggerChats)
  {
    var o := Act(cfg, db, chat, date, dest, r, prev);
    var ev := Send(dest, r, None);
    assert o.events == [ev] + (if chat in TriggerChats then [Trigger(r)] else []);
    assert Trigger(r) != ev;
  }

  /** A new signal whose forward fails is still stored pending, with no
      delivered message id, so later status reports for it only update
      the row. */
  lemma {:induction false} NewSignalUndelivered(cfg: Config, cs: Registry.Classifiers, db: Db, b: Body)
    requires Complete(b) && MsgType(b) in {Some("NEW"), Some("EDITED")}
    requires ResultOf(cs, Decoded(b)).Some?
    requires var r := ResultOf(cs, Decoded(b)).value;
      r.action == Action.NewSignal && HasOrderFields(r) &&
      cfg.sent(Send(Destination(cfg, b.chatId.value, b.signalType.Get()), r, None)).None?
    ensures var o := Step(cfg, cs, db, Decoded(b)); var r := ResultOf(cs, Decoded(b)).value;
      && r.orderId.value in o.db.orders
      && o.db.orders[r.orderId.value].status == Pending
      && o.db.orders[r.orderId.value].toMsg.None?
  {
    StepOfResult(cfg, cs, db, b);
  }
}

=== FILE: registry.dfy ===
/** The processor that routes each message to its channel's classifier by
    chat id (`ForexSignalProcessor`). The Lord forex classifier is built but
    no chat id reaches it; Sanchir forex and VIP crypto are not registered. */
module Registry {
  import opened Wrappers
  import opened Numbers
  import opened Signals
  import WolfForex
  import WolfCrypto
  import RussianForex
  import FxGoldKiller

  /** The channels the processor knows. */
  datatype Source = WolfForexChannel | WolfCryptoChannel | RussianChannel | FxGoldChannel

  /** The opaque entry patterns of every routed classifier, and which
      reading of the two misread patterns to use: `fixed == false` is the
      program as written (the Wolf forex take-profit pattern that drops
      integer digits, the Gold Killer markers as their mis-decoded bytes),
      `fixed == true` the evident intent. */
  datatype Classifiers = Classifiers(
    wolfForex: WolfForex.Patterns,
    wolfCrypto: WolfCrypto.Patterns,
    russian: RussianForex.Patterns,
    fxGold: FxGoldKiller.Patterns,
    fixed: bool)

  function GoldMarkers(fixed: bool): FxGoldKiller.Markers {
    if fixed then FxGoldKiller.Emoji else FxGoldKiller.AsWritten
  }

  /** The `if`/`elif` chain on `chat_id`. */
  function SourceOf(chat: int): (r: Option<Source>)
    ensures r == Some(WolfForexChannel) <==> chat == -1001485605405
    ensures r == Some(WolfCryptoChannel) <==> chat in {-1001338521686, -1002587201256}
    ensures r == Some(RussianChannel) <==> chat in {-1001297727353, -1002643902459}
    ensures r == Some(FxGoldChannel) <==> chat == -1001150362511
  {
    if chat == -1001485605405 then Some(WolfForexChannel)
    else if chat == -1001338521686 then Some(WolfCryptoChannel)
    else if chat == -1001297727353 then Some(RussianChannel)
    else if chat == -1002643902459 then Some(RussianChannel)
    else if chat == -1002587201256 then Some(WolfCryptoChannel)
    else if chat == -1001150362511 then Some(FxGoldChannel)
    else None
  }

  /** The result's order key, if any, names an order of the message's own
      chat: the message itself or the one it replies to. */
  predicate KeyedInChat(r: Signal, m: Msg) {
    r.orderId.Present? ==>
      r.orderId.value == OrderKey(m.chatId, m.msgId) ||
      (m.reply.Some? && r.orderId.value == OrderKey(m.chatId, m.reply.value))
  }

  /** `process_message`: `None` for an unknown chat, otherwise the chosen
      classifier's result unchanged. */
  function Route(cs: Classifiers, m: Msg): (r: Result<Option<Signal>, Fault>)
    ensures SourceOf(m.chatId).None? ==> r == Success(None)
    ensures SourceOf(m.chatId) == Some(WolfForexChannel) ==> r == Success(WolfForex.Classify(cs.wolfForex, m, cs.fixed))
    ensures SourceOf(m.chatId) == Some(WolfCryptoChannel) ==>
      var c := WolfCrypto.Classify(cs.wolfCrypto, m);
      (c.Success? ==> r == Success(Some(c.value))) && (c.Failure? ==> r == Failure(c.error))
    ensures SourceOf(m.chatId) == Some(RussianChannel) ==> r == Success(RussianForex.Classify(cs.russian, m))
    ensures SourceOf(m.chatId) == Some(FxGoldChannel) ==>
      r == Success(FxGoldKiller.Classify(GoldMarkers(cs.fixed), cs.fxGold, m))
    ensures r.Failure? ==> SourceOf(m.chatId) == Some(WolfCryptoChannel)
    ensures r.Success? && r.value.Some? ==> r.value.value.source == m && KeyedInChat(r.value.value, m)
  {
    match SourceOf(m.chatId)
    case None => Success(None)
    case Some(WolfForexChannel) =>
      WolfForexKeyed(cs.wolfForex, m, cs.fixed);
      Success(WolfForex.Classify(cs.wolfForex, m, cs.fixed))
    case Some(WolfCryptoChannel) =>
      WolfCryptoKeyed(cs.wolfCrypto, m);
      var c := WolfCrypto.Classify(cs.wolfCrypto, m);
      if c.Success? then Success(Some(c.value)) else Failure(c.error)
    case Some(RussianChannel) =>
      RussianKeyed(cs.russian, m);
      Success(RussianForex.Classify(cs.russian, m))
    case Some(FxGoldChannel) =>
      FxGoldKeyed(GoldMarkers(cs.fixed), cs.fxGold, m);
      Success(FxGoldKiller.Classify(GoldMarkers(cs.fixed), cs.fxGold, m))
  }

  lemma {:induction false} WolfForexKeyed(ps: WolfForex.Patterns, m: Msg, fixed: bool)
    ensures var r := WolfForex.Classify(ps, m, fixed); r.Some? ==> r.value.source == m && KeyedInChat(r.value, m)
  {
  }

  lemma {:induction false} WolfCryptoKeyed(ps: WolfCrypto.Patterns, m: Msg)
    ensures var r := WolfCrypto.Classify(ps, m); r.Success? ==> r.value.source == m && KeyedInChat(r.value, m)
  {
    var r := WolfCrypto.Classify(ps, m);
    if r.Success? {
      WolfCrypto.OrderIdCases(m, r.value);
    }
  }

  lemma {:induction false} RussianKeyed(ps: RussianForex.Patterns, m: Msg)
    ensures var r := RussianForex.Classify(ps, m); r.Some? ==> r.value.source == m && KeyedInChat(r.value, m)
  {
  }

  lemma {:induction false} FxGoldKeyed(mk: FxGoldKiller.Markers, ps: FxGoldKiller.Patterns, m: Msg)
    ensures var r := FxGoldKiller.Classify(mk, ps, m); r.Some? ==> r.value.source == m && KeyedInChat(r.value, m)
  {
  }

  /** Messages from different chats never touch the same order. */
  lemma {:induction false} ChatsKeepTheirOrders(cs: Classifiers, m1: Msg, m2: Msg)
    requires m1.chatId != m2.chatId
    requires Route(cs, m1).Success? && Route(cs, m1).value.Some? && Route(cs, m1).value.value.orderId.Present?
    requires Route(cs, m2).Success? && Route(cs, m2).value.Some? && Route(cs, m2).value.value.orderId.Present?
    ensures Route(cs, m1).value.value.orderId != Route(cs, m2).value.value.orderId
  {
    KeyedApart(Route(cs, m1).value.value, m1, Route(cs, m2).value.value, m2);
  }

  /** Two results keyed in two different chats carry different keys. */
  lemma {:induction false} KeyedApart(r1: Signal, m1: Msg, r2: Signal, m2: Msg)
    requires m1.chatId != m2.chatId && r1.orderId.Present? && r2.orderId.Present?
    requires KeyedInChat(r1, m1) && KeyedInChat(r2, m2)
    ensures r1.orderId != r2.orderId
  {
    var k1, k2 := r1.orderId.value, r2.orderId.value;
    if k1 == k2 {
      var i1 := if k1 == OrderKey(m1.chatId, m1.msgId) then m1.msgId else m1.reply.value;
      var i2 := if k2 == OrderKey(m2.chatId, m2.msgId) then m2.msgId else m2.reply.value;
      OrderKeyInjective(m1.chatId, i1, m2.chatId, i2);
    }
  }
}

=== FILE: relay.dfy ===
/** The string handling of the translating relay bot (main.py): the
    promotional filter and first clean-up steps of `process_text`, the
    nullified-trade template, the signal test, and the chunking of long
    texts for the translator. The literals below are the code points the
    file holds, which are emoji and Cyrillic text read in the Mac Roman
    encoding. */
module Relay {
  import opened Wrappers
  import opened Text
  import opened Scan
  import opened Signals
  import Numbers

  // ------------------------------------------------------ nullified trade

  const NullPhrase: string := "will be considered as NULL"

  /** `is_nullified_trade_message`. */
  predicate IsNullified(text: string) {
    Contains(ReplaceAll(text, "\n", " "), NullPhrase)
  }

  /** Replacing newlines by spaces is a character-by-character map. */
  lemma {:induction false} NewlinesToSpaces(s: string)
    ensures var r := ReplaceAll(s, "\n", " ");
      |r| == |s| && forall k | 0 <= k < |s| :: r[k] == (if s[k] == '\n' then ' ' else s[k])
    decreases |s|
  {
    if |s| > 0 {
      NewlinesToSpaces(s[1..]);
      assert s[..1] == [s[0]];
    }
  }

  /** The phrase at `i`, where any of its spaces may be a line break. */
  predicate LooseAt(text: string, i: int) {
    0 <= i && i + |NullPhrase| <= |text| &&
    forall k | 0 <= k < |NullPhrase| :: text[i + k] == NullPhrase[k] || (NullPhrase[k] == ' ' && text[i + k] == '\n')
  }

  /** A message is nullified exactly when it carries the phrase with its
      words separated by spaces or line breaks. */
  lemma {:induction false} NullifiedIff(text: string)
    ensures IsNullified(text) <==> exists i | 0 <= i <= |text| - |NullPhrase| :: LooseAt(text, i)
  {
    var r := ReplaceAll(text, "\n", " ");
    NewlinesToSpaces(text);
    assert '\n' !in NullPhrase;
    forall i | 0 <= i <= |text| - |NullPhrase| ensures StartsAt(r, i, NullPhrase) <==> LooseAt(text, i) {
      if StartsAt(r, i, NullPhrase) {
        forall k | 0 <= k < |NullPhrase|
          ensures text[i + k] == NullPhrase[k] || (NullPhrase[k] == ' ' && text[i + k] == '\n')
        {
          assert r[i..i + |NullPhrase|][k] == r[i + k];
        }
      }
      if LooseAt(text, i) {
        forall k | 0 <= k < |NullPhrase| ensures r[i..i + |NullPhrase|][k] == NullPhrase[k] {
          assert r[i + k] == NullPhrase[k];
        }
      }
    }
  }

  /** The prefix the pair pattern and the template begin with. */
  const Marker: string := "\U{201A}\U{FB}\U{EF}"
  const NullTail: string := " will be considered as NULL"

  /** The first index from `i` on where the tail phrase starts. */
  function TailFrom(s: string, i: nat): (r: Option<nat>)
    requires i <= |s| + 1
    ensures r.Some? ==> i <= r.value && StartsAt(s, r.value, NullTail)
    ensures r.Some? ==> forall q | i <= q < r.value :: !StartsAt(s, q, NullTail)
    ensures r.None? ==> forall q | i <= q <= |s| :: !StartsAt(s, q, NullTail)
  {
    var at := (q: nat) => if StartsAt(s, q, NullTail) then Some(q) else None;
    assert forall q: nat :: at(q).Some? <==> StartsAt(s, q, NullTail);
    FirstMatch(|s| + 1, at, i)
  }

  /** `\‚ûï(.*?) will be considered as NULL` (with DOTALL) at `p`: the
      shortest text between the marker and the tail. */
  function MarkedPairAt(s: string, p: nat): (r: Option<string>)
    ensures r.Some? ==> StartsAt(s, p, Marker) && StartsAt(s, p + |Marker| + |r.value|, NullTail)
  {
    if !StartsAt(s, p, Marker) then None
    else
      match TailFrom(s, p + 3)
      case None => None
      case Some(q) => Some(s[p + 3..q])
  }

  /** `([\w]+/[\w]+) will be considered as NULL` at `p`. Both runs are
      greedy and a word character can be neither `/` nor the space that
      starts the tail, so backtracking finds nothing shorter. */
  function PlainPairAt(s: string, p: nat): (r: Option<string>)
    ensures r.Some? ==> exists k | 0 < k < |r.value| - 1 :: r.value[k] == '/'
    ensures r.Some? ==> StartsAt(s, p + |r.value|, NullTail)
  {
    if p >= |s| || !IsWordChar(s[p]) then None
    else
      var e := Span(s, p, IsWordChar);
      if e == |s| || s[e] != '/' then None
      else
        var f := Span(s, e + 1, IsWordChar);
        if f == e + 1 || !StartsAt(s, f, NullTail) then None
        else
          assert s[p..f][e - p] == '/';
          Some(s[p..f])
  }

  /** The pair group: the marked form anywhere wins over the plain form. */
  function PairGroup(s: string): (r: Option<string>)
    ensures r.None? <==>
      (forall p | 0 <= p < |s| :: MarkedPairAt(s, p).None?) && (forall p | 0 <= p < |s| :: PlainPairAt(s, p).None?)
    ensures (exists p | 0 <= p < |s| :: MarkedPairAt(s, p).Some?) ==>
      exists p | 0 <= p < |s| :: MarkedPairAt(s, p) == r && forall q | 0 <= q < p :: MarkedPairAt(s, q).None?
    ensures (forall p | 0 <= p < |s| :: MarkedPairAt(s, p).None?) && r.Some? ==>
      exists p | 0 <= p < |s| :: PlainPairAt(s, p) == r && forall q | 0 <= q < p :: PlainPairAt(s, q).None?
  {
    var marked := (p: nat) => MarkedPairAt(s, p);
    var plain := (p: nat) => PlainPairAt(s, p);
    assert forall p: nat :: marked(p) == MarkedPairAt(s, p);
    assert forall p: nat :: plain(p) == PlainPairAt(s, p);
    var m := Search(|s|, marked);
    if m.Some? then m else Search(|s|, plain)
  }

  /** `%\s+PROFIT` at `q`. */
  predicate PercentProfitAt(s: string, q: nat) {
    q < |s| && s[q] == '%' && Span(s, q + 1, IsSpace) > q + 1 && StartsAt(s, Span(s, q + 1, IsSpace), "PROFIT")
  }

  /** `\((.*?)%\s+PROFIT` at `p`: `.` stops at a line break, and the lazy
      group takes the first `%` that is followed by the word. */
  function ProfitAt(s: string, p: nat): (r: Option<string>)
    ensures r.Some? ==> p < |s| && s[p] == '(' && '\n' !in r.value && PercentProfitAt(s, p + 1 + |r.value|)
  {
    if p >= |s| || s[p] != '(' then None
    else
      var at := (q: nat) => if p + 1 <= q <= |s| && '\n' !in s[p + 1..q] && PercentProfitAt(s, q) then Some(q) else None;
      assert forall q: nat :: at(q).Some? <==> p + 1 <= q <= |s| && '\n' !in s[p + 1..q] && PercentProfitAt(s, q);
      match FirstMatch(|s|, at, p + 1)
      case None => None
      case Some(q) => Some(s[p + 1..q])
  }

  /** The stripped profit group, or "Unknown". */
  function ProfitPercent(s: string): (r: string)
    ensures (forall p | 0 <= p < |s| :: ProfitAt(s, p).None?) ==> r == "Unknown"
    ensures (exists p | 0 <= p < |s| :: ProfitAt(s, p).Some?) ==>
      exists p | 0 <= p < |s| :: ProfitAt(s, p).Some? && r == Strip(ProfitAt(s, p).value) &&
        forall q | 0 <= q < p :: ProfitAt(s, q).None?
  {
    var at := (p: nat) => ProfitAt(s, p);
    assert forall p: nat :: at(p) == ProfitAt(s, p);
    match Search(|s|, at)
    case None => "Unknown"
    case Some(g) => Strip(g)
  }

  datatype Details = Details(tradePair: string, baseCurrency: string, profitPercent: string)

  /** `extract_trade_details`: a pair with two slashes makes the unpacking
      of `split("/")` raise. */
  function TradeDetails(text: string): (r: Result<Details, Fault>)
    ensures PairGroup(text).None? ==> r == Success(Details("Unknown", "Unknown", ProfitPercent(text)))
    ensures r.Success? ==> r.value.profitPercent == ProfitPercent(text)
    ensures r.Success? && PairGroup(text).Some? ==> r.value.tradePair == Strip(PairGroup(text).value)
    ensures r.Success? && '/' !in r.value.tradePair ==> r.value.baseCurrency == r.value.tradePair
    ensures r.Success? && PairGroup(text).Some? && '/' in r.value.tradePair ==>
      '/' !in r.value.baseCurrency &&
      exists quote | '/' !in quote :: r.value.tradePair == r.value.baseCurrency + "/" + quote
    ensures r.Failure? <==> PairGroup(text).Some? && |SplitOn(Strip(PairGroup(text).value), '/')| > 2
  {
    var profit := ProfitPercent(text);
    match PairGroup(text)
    case None => Success(Details("Unknown", "Unknown", profit))
    case Some(g) =>
      var pair := Strip(g);
      var parts := SplitOn(pair, '/');
      if '/' !in pair then
        Success(Details(pair, pair, profit))
      else if |parts| != 2 then
        assert |parts| > 2 by { SplitOfSlash(pair); }
        Failure(ValueError(pair))
      else
        JoinSplit(pair, '/');
        assert JoinWith(parts, "/") == parts[0] + "/" + parts[1];
        Success(Details(pair, parts[0], profit))
  }

  /** A text holding the separator splits into at least two pieces. */
  lemma {:induction false} SplitOfSlash(s: string)
    requires '/' in s
    ensures |SplitOn(s, '/')| >= 2
  {
    var k :| 0 <= k < |s| && s[k] == '/';
    assert s[k] == '/';
  }

  const TemplateHead: string := Marker
  const TemplateAfterPair: string := "-\U{2013}\U{2265} \U{2013}\U{221E}\U{2014}\U{C4}\U{2013}\U{220F}\U{2013}\U{AA}\U{2013}\U{2202}\U{2013}\U{221E}\U{2013}\U{221E} \U{2014}\U{DC}\U{2014}\U{C9}\U{2014}\U{DC}\U{2013}\U{AA}\U{2013}\U{221E}\U{2013}\U{2265}\U{2013}\U{A5}\U{2014}\U{C5}\U{2013}\U{221E}\U{2013}\U{3A9}. ("
  const TemplateAfterProfit: string := "% A\U{2014}\U{E0}\U{2013}\U{220F}\U{2013}\U{2265}/A\U{2013}\U{AA}\U{2013}\U{A5}\U{2013}\U{221E}\U{2013}\U{2265}\U{2013}\U{A5}\U{2013}\U{221E}\U{2013}\U{AA})\n\n\U{201A}\U{FB}\U{B0}\U{D4}\U{220F}\U{E8}"
  const TemplateAfterBase: string := " \U{2013}\U{3A9}\U{2014}\U{E5} \U{2013}\U{221E}\U{2014}\U{C4}\U{2013}\U{220F}\U{2013}\U{AA}\U{2013}\U{2202}\U{2013}\U{221E}\U{2013}\U{221E}\U{2013}\U{3A9}\U{2013}\U{A5} \U{2013}\U{E6}\U{2014}\U{C4}\U{2013}\U{E6}\U{2014}\U{D6} \U{2014}\U{D6}\U{2013}\U{221E}\U{2013}\U{3A9}\U{2014}\U{E0}\U{2013}\U{220F}\U{2013}\U{3A9}\U{2013}\U{A5} \U{2014}\U{D6}\U{201C}\U{D8}\U{2014}\U{C4}\U{2014}\U{E7}\U{2014}\U{D6}\U{2014}\U{E7}\U{2014}\U{E7}\U{2014}\U{C5} \U{201D}\U{A9}\U{2013}\U{BA}\U{2013}\U{3A9}\U{201D}\U{A9} SL \U{2014}\U{DC}\U{2013}\U{E6}\U{2014}\U{D6}\U{2014}\U{E5}\U{2014}\U{C5}\U{2013}\U{E6}\U{2013}\U{3A9} \U{2013}\U{B1}\U{2013}\U{221E}\U{2013}\U{3C0}\U{2013}\U{3A9}\U{2013}\U{221E}."

  /** The translated template filled with the three details. */
  function Fill(d: Details): string {
    TemplateHead + d.tradePair + TemplateAfterPair + d.profitPercent + TemplateAfterProfit + d.baseCurrency + TemplateAfterBase
  }

  /** `custom_translate_nullified_trade`. */
  function NullifiedMessage(text: string): (r: Result<string, Fault>)
    ensures r.Failure? <==> TradeDetails(text).Failure?
    ensures r.Success? ==> r.value == Fill(TradeDetails(text).value)
  {
    match TradeDetails(text)
    case Failure(e) => Failure(e)
    case Success(d) => Success(Fill(d))
  }

  /** Where the three filled-in values sit in a filled template. */
  lemma {:induction false} Slots(h: string, x: string, m1: string, y: string, m2: string, z: string, t: string)
    ensures var r := h + x + m1 + y + m2 + z + t;
      var i := |h|; var j := i + |x| + |m1|; var k := j + |y| + |m2|;
      && r[i..i + |x|] == x && r[j..j + |y|] == y && r[k..k + |z|] == z && r[..|h|] == h
  {
  }

  /** The template carries the pair, the profit and the base currency
      exactly, each at its own slot, so the details can be read back. */
  lemma {:induction false} FillEmbedsDetails(d: Details)
    ensures var r := Fill(d);
      var i := |TemplateHead|;
      var j := i + |d.tradePair| + |TemplateAfterPair|;
      var k := j + |d.profitPercent| + |TemplateAfterProfit|;
      && r[i..i + |d.tradePair|] == d.tradePair
      && r[j..j + |d.profitPercent|] == d.profitPercent
      && r[k..k + |d.baseCurrency|] == d.baseCurrency
      && StartsWith(r, TemplateHead)
  {
    Slots(TemplateHead, d.tradePair, TemplateAfterPair, d.profitPercent, TemplateAfterProfit, d.baseCurrency, TemplateAfterBase);
  }

  // ------------------------------------------------------------- filters

  /** The alternatives of the promotional pattern. */
  const PromoWords: seq<string> := [
    "Ad", "altcoin", "apology", "sorry", "support", "recover", "candle", "risk", "luck", "refer",
    "paypal", "positive", "subscription", "appreciating", "movements", "market", "markets",
    "tests", "test", "yes"]

  /** `\b(...)\b` with one alternative at `p`, ignoring case. */
  predicate PromoAt(s: string, p: int, w: string) {
    WordBoundary(s, p) && StartsAtIgnoringCase(s, p, w) && WordBoundary(s, p + |w|)
  }

  /** The promotional pattern matches somewhere; the matcher tries every
      alternative at every position. */
  predicate Promotional(s: string) {
    exists p, k | 0 <= p < |s| && 0 <= k < |PromoWords| :: PromoAt(s, p, PromoWords[k])
  }

  const GreenHeart: string := "\U{F8FF}\U{FC}\U{ED}\U{F6}"
  const Dollar: string := "\U{F8FF}\U{FC}\U{ED}\U{B5}"
  const Chart: string := "\U{F8FF}\U{FC}\U{EC}\U{E4}"
  const Fire: string := "\U{F8FF}\U{FC}\U{EE}\U{2022}"

  /** The characters of the horizontal-rule class `[-‚Äî_]`. */
  predicate IsRule(c: char) {
    c == '-' || c == '\U{201A}' || c == '\U{C4}' || c == '\U{EE}' || c == '_'
  }

  predicate RuleAt(s: string, i: int) {
    0 <= i && i + 3 <= |s| && IsRule(s[i]) && IsRule(s[i + 1]) && IsRule(s[i + 2])
  }

  /** `re.split(r"[-‚Äî_]{3,}", s)[0]`: the text before the first run of
      three or more rule characters. */
  function BeforeRule(s: string): (r: string)
    ensures StartsWith(s, r)
    ensures forall i | 0 <= i < |r| :: !RuleAt(r, i)
    ensures |r| < |s| ==> RuleAt(s, |r|)
    ensures forall i | 0 <= i < |r| :: !RuleAt(s, i)
  {
    var at := (i: nat) => if RuleAt(s, i) then Some(i) else None;
    assert forall i: nat :: at(i).Some? <==> RuleAt(s, i);
    match FirstMatch(|s|, at, 0)
    case None =>
      assert forall i | 0 <= i < |s| :: !RuleAt(s, i);
      s
    case Some(p) =>
      var r := s[..p];
      forall i | 0 <= i < |r| ensures !RuleAt(r, i) {
        if RuleAt(r, i) {
          assert r[i] == s[i] && r[i + 1] == s[i + 1] && r[i + 2] == s[i + 2];
          assert RuleAt(s, i);
        }
      }
      r
  }

  /** The first index where `p` occurs. */
  function FirstAt(s: string, p: string): (r: Option<nat>)
    ensures r.Some? ==> StartsAt(s, r.value, p) && forall i | 0 <= i < r.value :: !StartsAt(s, i, p)
    ensures r.None? <==> !Contains(s, p)
  {
    var at := (i: nat) => if StartsAt(s, i, p) then Some(i) else None;
    assert forall i: nat :: at(i).Some? <==> StartsAt(s, i, p);
    FirstMatch(|s| + 1, at, 0)
  }

  /** A piece of a text without `p` has none either. */
  lemma {:induction false} SliceAvoids(s: string, a: nat, b: nat, p: string)
    requires a <= b <= |s| && !Contains(s, p)
    ensures !Contains(s[a..b], p)
  {
    var t := s[a..b];
    forall i | 0 <= i <= |t| - |p| ensures !StartsAt(t, i, p) {
      forall j | i <= j < i + |p| ensures t[j] == s[a + j] {
      }
      assert t[i..i + |p|] == s[a + i..a + i + |p|];
      assert !StartsAt(s, a + i, p);
    }
  }

  /** Stripping a text without `p` leaves none either. */
  lemma {:induction false} StripAvoids(s: string, p: string)
    requires !Contains(s, p)
    ensures !Contains(Strip(s), p)
  {
    var a, b := StripBounds(s);
    SliceAvoids(s, a, b, p);
  }

  /** The fire step: everything after the first fire emoji is dropped and
      the emoji kept once at the end. */
  function CutAtFire(s: string): (r: string)
    ensures !Contains(s, Fire) ==> r == s
    ensures Contains(s, Fire) ==> EndsWith(r, Fire) && !Contains(r[..|r| - |Fire|], Fire)
    ensures Contains(s, Fire) ==>
      exists i | StartsAt(s, i, Fire) && (forall j | 0 <= j < i :: !StartsAt(s, j, Fire)) :: r == Strip(s[..i]) + Fire
  {
    match FirstAt(s, Fire)
    case None => s
    case Some(i) =>
      var head := s[..i];
      forall j | 0 <= j <= |head| - |Fire| ensures !StartsAt(head, j, Fire) {
        assert head[j..j + |Fire|] == s[j..j + |Fire|];
        assert !StartsAt(s, j, Fire);
      }
      StripAvoids(head, Fire);
      var r := Strip(head) + Fire;
      assert r[..|r| - |Fire|] == Strip(head);
      assert r[|r| - |Fire|..] == Fire;
      r
  }

  /** The text before a position that starts a rule run, with none before
      it, is what the split keeps. */
  lemma {:induction false} BeforeRuleUnique(s: string, n: nat)
    requires n <= |s| && (n == |s| || RuleAt(s, n))
    requires forall i | 0 <= i < n :: !RuleAt(s, i)
    ensures BeforeRule(s) == s[..n]
  {
  }

  /** At the first fire emoji the cut keeps the stripped text before it and
      the emoji. */
  lemma {:induction false} CutAtFirstFire(s: string, i: nat)
    requires StartsAt(s, i, Fire) && forall j | 0 <= j < i :: !StartsAt(s, j, Fire)
    ensures CutAtFire(s) == Strip(s[..i]) + Fire
  {
    ContainsAt(s, i, Fire);
    var k := FirstAt(s, Fire).value;
    if k < i {
      assert false;
    }
    if i < k {
      assert false;
    }
  }

  predicate EndsWith(s: string, p: string) {
    |p| <= |s| && s[|s| - |p|..] == p
  }

  /** The first steps of `process_text`, in order: green hearts to dollar
      signs, the cut at a horizontal rule, the chart emoji removed, the cut
      at the fire emoji. */
  function EarlySteps(s: string): string {
    var t := ReplaceAll(s, GreenHeart, Dollar);
    var t := Strip(BeforeRule(t));
    var t := ReplaceAll(t, Chart, "");
    CutAtFire(t)
  }

  /** `process_text`: `None` for a promotional message or an empty result;
      the clean-up after the early steps is the parameter `rest`. */
  function ProcessText(rest: string -> string, s: string): (r: Option<string>)
    ensures Promotional(s) ==> r.None?
    ensures r.Some? ==> |r.value| > 0 && r.value == rest(EarlySteps(s))
    ensures r.None? <==> Promotional(s) || rest(EarlySteps(s)) == ""
  {
    if Promotional(s) then None
    else
      var t := rest(EarlySteps(s));
      if t == "" then None else Some(t)
  }

  /** `\b(BUY|SELL|Buy|Sell\d+)\b` at `p`, case-sensitive. After `Sell`
      the digit run is greedy and only its end can be a boundary. */
  predicate SignalWordAt(s: string, p: int) {
    LiteralAt(s, p, "BUY") || LiteralAt(s, p, "SELL") || LiteralAt(s, p, "Buy") || SellAt(s, p)
  }

  /** `\bl\b` at `p`. */
  predicate LiteralAt(s: string, p: int, l: string) {
    WordBoundary(s, p) && StartsAt(s, p, l) && WordBoundary(s, p + |l|)
  }

  /** `\bSell\d+\b` at `p`. */
  predicate SellAt(s: string, p: int) {
    WordBoundary(s, p) && StartsAt(s, p, "Sell") && Span(s, p + 4, IsDigit) > p + 4 && WordBoundary(s, Span(s, p + 4, IsDigit))
  }

  /** `is_signal_message`. */
  predicate IsSignalMessage(s: string) {
    exists p | 0 <= p < |s| :: SignalWordAt(s, p)
  }

  // --------------------------------------------------- the signal words

  /** A signal word on its own: BUY, SELL, Buy, or Sell followed by one or
      more digits and nothing else. */
  predicate SignalToken(w: string) {
    w == "BUY" || w == "SELL" || w == "Buy" || SellToken(w)
  }

  predicate SellToken(w: string) {
    |w| > 4 && w[..4] == "Sell" && Numbers.AllDigits(w[4..])
  }

  /** A word of the text begins at `p`. */
  predicate WordStart(s: string, p: int) {
    0 <= p < |s| && IsWordChar(s[p]) && (p == 0 || !IsWordChar(s[p - 1]))
  }

  /** The whole word that begins at `p`: the maximal run of word
      characters from there. */
  function WordFrom(s: string, p: nat): (w: string)
    requires p <= |s|
    ensures forall k | 0 <= k < |w| :: IsWordChar(w[k])
    ensures p + |w| <= |s| && (p + |w| == |s| || !IsWordChar(s[p + |w|]))
  {
    s[p..Span(s, p, IsWordChar)]
  }

  /** `is_signal_message` read word by word: the text holds a signal word
      iff one of its words, taken whole, is a signal token. */
  lemma {:induction false} SignalMessageWords(s: string)
    ensures IsSignalMessage(s) <==> exists p | 0 <= p < |s| :: WordStart(s, p) && SignalToken(WordFrom(s, p))
  {
    forall p | 0 <= p < |s| ensures SignalWordAt(s, p) <==> WordStart(s, p) && SignalToken(WordFrom(s, p)) {
      SignalWordIsToken(s, p);
    }
  }

  lemma {:induction false} SignalWordIsToken(s: string, p: nat)
    requires p < |s|
    ensures SignalWordAt(s, p) <==> WordStart(s, p) && SignalToken(WordFrom(s, p))
  {
    LiteralWord(s, p, "BUY");
    LiteralWord(s, p, "SELL");
    LiteralWord(s, p, "Buy");
    SellWord(s, p);
  }

  /** A literal made of word characters stands between two boundaries iff
      it is the whole word beginning there. */
  lemma {:induction false} LiteralWord(s: string, p: nat, l: string)
    requires p <= |s| && |l| > 0 && forall k | 0 <= k < |l| :: IsWordChar(l[k])
    ensures LiteralAt(s, p, l) <==> WordStart(s, p) && WordFrom(s, p) == l
  {
    if !StartsAt(s, p, l) {
      assert |WordFrom(s, p)| == |l| ==> s[p..p + |l|] == WordFrom(s, p);
      return;
    }
    assert s[p..p + |l|] == l;
    assert forall k | p <= k < p + |l| :: IsWordChar(s[k]) by {
      forall k | p <= k < p + |l| ensures IsWordChar(s[k]) {
        assert s[k] == l[k - p];
      }
    }
    assert IsWordChar(s[p]) && IsWordChar(s[p + |l| - 1]);
    if WordBoundary(s, p + |l|) {
      WordRunEnds(s, p, p + |l|);
    }
  }

  /** `Sell\d+` between boundaries is exactly a word "Sell" followed by
      digits only. */
  lemma {:induction false} SellWord(s: string, p: nat)
    requires p <= |s|
    ensures SellAt(s, p) <==> WordStart(s, p) && SellToken(WordFrom(s, p))
  {
    var j := Span(s, p, IsWordChar);
    var w := WordFrom(s, p);
    if !StartsAt(s, p, "Sell") {
      assert |w| >= 4 ==> w[..4] == s[p..p + 4];
      return;
    }
    assert s[p..p + 4] == "Sell";
    assert IsWordChar(s[p]) && IsWordChar(s[p + 1]) && IsWordChar(s[p + 2]) && IsWordChar(s[p + 3]);
    assert j >= p + 4;
    var e := Span(s, p + 4, IsDigit);
    if e > p + 4 && WordBoundary(s, e) {
      assert IsWordChar(s[e - 1]);
      assert forall k | p <= k < e :: IsWordChar(s[k]) by {
        forall k | p <= k < e ensures IsWordChar(s[k]) {
          if k < p + 4 {
            assert s[k] == s[p..p + 4][k - p];
          }
        }
      }
      WordRunEnds(s, p, e);
      assert w[4..] == s[p + 4..e];
    }
    if |w| > 4 && Numbers.AllDigits(w[4..]) {
      assert forall k | p + 4 <= k < j :: IsDigit(s[k]) by {
        forall k | p + 4 <= k < j ensures IsDigit(s[k]) {
          assert s[k] == w[4..][k - p - 4];
        }
      }
      assert j == |s| || !IsDigit(s[j]);
      Numbers.SpanStops(s, p + 4, j);
      assert IsWordChar(s[j - 1]);
    }
  }

  lemma {:induction false} WordRunEnds(s: string, i: nat, j: nat)
    requires i <= j <= |s|
    requires forall k | i <= k < j :: IsWordChar(s[k])
    requires j == |s| || !IsWordChar(s[j])
    ensures Span(s, i, IsWordChar) == j
  {
  }

  /** "SELL" and "Sell7" are signals, while "Sell" alone and "BUYER" are
      not. */
  lemma {:induction false} SignalWords()
    ensures IsSignalMessage("SELL")
    ensures IsSignalMessage("Sell7")
    ensures !IsSignalMessage("Sell")
    ensures !IsSignalMessage("BUYER")
  {
    assert SignalWordAt("SELL", 0);
    assert Span("Sell7", 5, IsDigit) == 5;
    assert Span("Sell7", 4, IsDigit) == 5;
    assert SignalWordAt("Sell7", 0);
    assert Span("Sell", 4, IsDigit) == 4;
    forall p | 0 <= p < 4 ensures !SignalWordAt("Sell", p) {
      if p > 0 {
        assert !WordBoundary("Sell", p) by { assert IsWordChar("Sell"[p - 1]) && IsWordChar("Sell"[p]); }
      }
    }
    forall p | 0 <= p < 5 ensures !SignalWordAt("BUYER", p) {
      if p > 0 {
        assert !WordBoundary("BUYER", p) by { assert IsWordChar("BUYER"[p - 1]) && IsWordChar("BUYER"[p]); }
      } else {
        assert !WordBoundary("BUYER", 3) by { assert IsWordChar("BUYER"[2]) && IsWordChar("BUYER"[3]); }
        assert !StartsAt("BUYER", 0, "SELL") && !StartsAt("BUYER", 0, "Buy") && !StartsAt("BUYER", 0, "Sell");
      }
    }
  }

  // ------------------------------------------------------------ chunking

  /** The pieces run together. */
  function Flat(parts: seq<string>): string
    decreases |parts|
  {
    if |parts| == 0 then "" else parts[0] + Flat(parts[1..])
  }

  lemma {:induction false} FlatSnoc(parts: seq<string>, x: string)
    ensures Flat(parts + [x]) == Flat(parts) + x
    decreases |parts|
  {
    if |parts| == 0 {
      assert parts + [x] == [x];
      assert Flat([x]) == x + Flat([]);
    } else {
      assert (parts + [x])[0] == parts[0];
      assert (parts + [x])[1..] == parts[1..] + [x];
      FlatSnoc(parts[1..], x);
    }
  }

  const NL: set<char> := {'\n'}

  /** Dropping the breaks from lines joined by breaks runs the lines
      together. */
  lemma {:induction false} WithoutJoin(lines: seq<string>)
    ensures Without(JoinWith(lines, "\n"), NL) == Without(Flat(lines), NL)
    decreases |lines|
  {
    if |lines| == 1 {
      assert Flat(lines) == lines[0] + Flat(lines[1..]);
      assert lines[0] + "" == lines[0];
    } else if |lines| > 1 {
      var rest := JoinWith(lines[1..], "\n");
      assert JoinWith(lines, "\n") == lines[0] + "\n" + rest;
      WithoutJoin(lines[1..]);
      WithoutLineThen(lines[0], rest, Flat(lines[1..]));
    }
  }

  /** A line, a break and a rest lose the break, breaks aside. */
  lemma {:induction false} WithoutLineThen(l: string, rest: string, flat: string)
    requires Without(rest, NL) == Without(flat, NL)
    ensures Without(l + "\n" + rest, NL) == Without(l + flat, NL)
  {
    WithoutConcat(l + "\n", rest, NL);
    WithoutConcat(l, "\n", NL);
    WithoutConcat(l, flat, NL);
    assert Without("\n", NL) == "";
  }

  /** The translator applied to each chunk. */
  function Translated(tr: string -> string, chunks: seq<string>): (r: seq<string>)
    ensures |r| == |chunks| && forall k | 0 <= k < |chunks| :: r[k] == tr(chunks[k])
  {
    seq(|chunks|, k requires 0 <= k < |chunks| => tr(chunks[k]))
  }

  /** A chunk the translator may be handed: non-empty, and within the
      limit unless it is a single line. */
  predicate GoodChunk(c: string) {
    |c| > 0 && (|c| <= 450 || '\n' !in c)
  }

  /** Adding the same text to two texts that agree without breaks keeps
      them agreeing. */
  lemma {:induction false} ExtendAgreeing(a: string, b: string, x: string)
    requires Without(a, NL) == Without(b, NL)
    ensures Without(a + x, NL) == Without(b + x, NL)
  {
    WithoutConcat(a, x, NL);
    WithoutConcat(b, x, NL);
  }

  /** A line break then a line adds just the line, breaks aside. */
  lemma {:induction false} ExtendByLine(f: string, cur: string, b: string, line: string)
    requires Without(f + cur, NL) == Without(b, NL)
    ensures Without(f + (cur + "\n" + line), NL) == Without(b + line, NL)
  {
    Regroup(f, cur, "\n", line);
    WithoutConcat(f + cur, "\n" + line, NL);
    WithoutBreakThen(line);
    WithoutConcat(b, line, NL);
  }

  lemma {:induction false} Regroup(a: string, b: string, c: string, d: string)
    ensures a + (b + c + d) == (a + b) + (c + d)
  {
  }

  /** A leading line break disappears once breaks are dropped. */
  lemma {:induction false} WithoutBreakThen(line: string)
    ensures Without("\n" + line, NL) == Without(line, NL)
  {
    WithoutConcat("\n", line, NL);
    assert Without("\n", NL) == "";
  }

  /** `for i in range(0, len(line), 400)`: the pieces of an over-long line,
      each translated. */
  method Pieces(tr: string -> string, line: string) returns (pieces: seq<string>, translated: seq<string>)
    ensures Flat(pieces) == line
    ensures forall k | 0 <= k < |pieces| :: 0 < |pieces[k]| <= 400
    ensures |translated| == |pieces| && forall k | 0 <= k < |pieces| :: translated[k] == tr(pieces[k])
  {
    pieces, translated := [], [];
    var j := 0;
    while j < |line|
      invariant 0 <= j <= |line|
      invariant forall k | 0 <= k < |pieces| :: 0 < |pieces[k]| <= 400
      invariant |translated| == |pieces| && forall k | 0 <= k < |pieces| :: translated[k] == tr(pieces[k])
      invariant Flat(pieces) == line[..j]
    {
      var e := if j + 400 < |line| then j + 400 else |line|;
      var piece := line[j..e];
      FlatSnoc(pieces, piece);
      assert line[..e] == line[..j] + piece;
      translated := translated + [tr(piece)];
      pieces := pieces + [piece];
      j := e;
    }
    assert line[..j] == line;
  }

  /** Chunks and their translations, extended by more of each. */
  lemma {:induction false} FlatConcat(a: seq<string>, b: seq<string>)
    ensures Flat(a + b) == Flat(a) + Flat(b)
    decreases |a|
  {
    if |a| == 0 {
      assert a + b == b;
    } else {
      assert (a + b)[1..] == a[1..] + b;
      FlatConcat(a[1..], b);
    }
  }

  /** One pass of the line loop: the line joins the pending chunk when
      both fit in 450 characters; otherwise the pending chunk is flushed
      and the line becomes the new one, or, with nothing pending, the line
      is sent in pieces. `seen` is the text of the lines so far. */
  method AddLine(tr: string -> string, chunks: seq<string>, translated: seq<string>, current: string, line: string, ghost seen: string)
    returns (chunks': seq<string>, translated': seq<string>, current': string)
    requires '\n' !in line
    requires current == "" || GoodChunk(current)
    requires forall k | 0 <= k < |chunks| :: GoodChunk(chunks[k])
    requires |translated| == |chunks| && forall k | 0 <= k < |chunks| :: translated[k] == tr(chunks[k])
    requires Without(Flat(chunks) + current, NL) == Without(seen, NL)
    ensures current' == "" || GoodChunk(current')
    ensures forall k | 0 <= k < |chunks'| :: GoodChunk(chunks'[k])
    ensures |translated'| == |chunks'| && forall k | 0 <= k < |chunks'| :: translated'[k] == tr(chunks'[k])
    ensures Without(Flat(chunks') + current', NL) == Without(seen + line, NL)
  {
    if |current| + |line| + 1 > 450 {
      if current != "" {
        ExtendAgreeing(Flat(chunks) + current, seen, line);
        FlatSnoc(chunks, current);
        translated' := translated + [tr(current)];
        chunks' := chunks + [current];
        current' := line;
      } else {
        var pieces, more := Pieces(tr, line);
        assert Flat(chunks) + current == Flat(chunks);
        ExtendAgreeing(Flat(chunks), seen, line);
        FlatConcat(chunks, pieces);
        translated' := translated + more;
        chunks' := chunks + pieces;
        current' := "";
        assert Flat(chunks') + current' == Flat(chunks');
      }
    } else if current != "" {
      ExtendByLine(Flat(chunks), current, seen, line);
      chunks', translated' := chunks, translated;
      current' := current + "\n" + line;
    } else {
      assert Flat(chunks) + current == Flat(chunks);
      ExtendAgreeing(Flat(chunks), seen, line);
      chunks', translated' := chunks, translated;
      current' := line;
    }
  }

  /** `custom_translate`, with `tr` standing for the translator: a short
      text goes in one call; a long one goes line by line, gathered into
      chunks, and a line too long for an empty chunk goes in pieces of 400.
      Returns the joined translation and the chunks, in the order they
      were translated. */
  method Translate(tr: string -> string, text: string) returns (out: string, chunks: seq<string>)
    ensures |text| <= 500 ==> chunks == [text]
    ensures out == JoinWith(Translated(tr, chunks), "\n")
    ensures |text| > 500 ==> forall k | 0 <= k < |chunks| :: GoodChunk(chunks[k])
    ensures |text| > 500 ==> Without(Flat(chunks), NL) == Without(text, NL)
  {
    if |text| <= 500 {
      assert Translated(tr, [text]) == [tr(text)];
      assert JoinWith([tr(text)], "\n") == tr(text);
      return tr(text), [text];
    }
    var lines := SplitOn(text, '\n');
    var translated;
    chunks, translated := ChunkLines(tr, lines);
    WithoutJoin(lines);
    JoinSplit(text, '\n');
    out := JoinWith(translated, "\n");
  }

  /** The loop of `translate_text` over the lines: good chunks, each
      translated, holding the lines' characters in order. */
  method ChunkLines(tr: string -> string, lines: seq<string>) returns (chunks: seq<string>, translated: seq<string>)
    requires forall k | 0 <= k < |lines| :: '\n' !in lines[k]
    ensures forall k | 0 <= k < |chunks| :: GoodChunk(chunks[k])
    ensures translated == Translated(tr, chunks)
    ensures Without(Flat(chunks), NL) == Without(Flat(lines), NL)
  {
    translated := [];
    chunks := [];
    var current := "";
    var i := 0;
    while i < |lines|
      invariant 0 <= i <= |lines|
      invariant current == "" || GoodChunk(current)
      invariant forall k | 0 <= k < |chunks| :: GoodChunk(chunks[k])
      invariant |translated| == |chunks| && forall k | 0 <= k < |chunks| :: translated[k] == tr(chunks[k])
      invariant Without(Flat(chunks) + current, NL) == Without(Flat(lines[..i]), NL)
    {
      assert lines[..i + 1] == lines[..i] + [lines[i]];
      FlatSnoc(lines[..i], lines[i]);
      chunks, translated, current := AddLine(tr, chunks, translated, current, lines[i], Flat(lines[..i]));
      i := i + 1;
    }
    if current != "" {
      FlatSnoc(chunks, current);
      translated := translated + [tr(current)];
      chunks := chunks + [current];
    } else {
      assert Flat(chunks) + current == Flat(chunks);
    }
    assert lines[..i] == lines;
    assert translated == Translated(tr, chunks);
  }
}

=== FILE: russian_forex.dfy ===
/** The Russian forex channel's classifier (`RussianForexClassifier`): pending
    orders on root messages; cancellations, TP and SL reports on replies, all
    on text cleaned line by line. */
module RussianForex {
  import opened Wrappers
  import opened Text
  import opened Numbers
  import opened Scan
  import opened Signals

  /** The groups of the entry pattern; its prices are `\d+\.\d+`, which
      `float()` always accepts. */
  datatype EntryGroups = EntryGroups(
    orderType: string, pair: string, timeframe: string,
    entry: Decimal, stopLoss: Decimal, takeProfit: Decimal)

  /** The multi-line entry pattern kept opaque. */
  datatype Patterns = Patterns(entry: string -> Option<EntryGroups>)

  // ------------------------------------------------------------ cleaning

  /** `' '.join(line.strip().split())`. */
  function CleanLine(l: string): string {
    Collapse(Strip(l))
  }

  /** A cleaned line is single-spaced with no space at either end. */
  lemma {:induction false} CleanLineShape(l: string)
    ensures SingleSpaced(CleanLine(l))
    ensures var r := CleanLine(l); |r| > 0 ==> !IsSpace(r[0]) && !IsSpace(r[|r| - 1])
  {
  }

  /** Each line cleaned on its own. */
  function CleanEach(ps: seq<string>): (ls: seq<string>)
    ensures |ls| == |ps|
  {
    seq(|ps|, k requires 0 <= k < |ps| => CleanLine(ps[k]))
  }

  /** The `k`-th cleaned line is the `k`-th line cleaned. */
  lemma {:induction false} CleanEachAt(ps: seq<string>, k: nat)
    requires k < |ps|
    ensures CleanEach(ps)[k] == CleanLine(ps[k])
  {
  }

  /** Lines that are already clean are left as they are. */
  lemma {:induction false} CleanEachFixed(ls: seq<string>)
    requires forall k | 0 <= k < |ls| :: CleanLine(ls[k]) == ls[k]
    ensures CleanEach(ls) == ls
  {
    forall k | 0 <= k < |ls| ensures CleanEach(ls)[k] == ls[k] {
      CleanEachAt(ls, k);
    }
  }

  /** Every cleaned line is single-spaced with no space at either end. */
  lemma {:induction false} CleanEachShape(ps: seq<string>)
    ensures forall k | 0 <= k < |ps| :: SingleSpaced(CleanEach(ps)[k])
    ensures forall k | 0 <= k < |ps| :: var l := CleanEach(ps)[k];
      |l| == 0 || (!IsSpace(l[0]) && !IsSpace(l[|l| - 1]))
  {
    forall k | 0 <= k < |ps|
      ensures SingleSpaced(CleanEach(ps)[k])
      ensures var l := CleanEach(ps)[k]; |l| == 0 || (!IsSpace(l[0]) && !IsSpace(l[|l| - 1]))
    {
      CleanEachAt(ps, k);
      CleanLineShape(ps[k]);
    }
  }

  /** The lines cleaned one by one and joined by line breaks. */
  function JoinClean(ps: seq<string>): (r: string)
    ensures '\r' !in r
  {
    var ls := CleanEach(ps);
    CleanEachShape(ps);
    forall k | 0 <= k < |ls| ensures '\r' !in ls[k] {
      SingleSpacedAvoids(ls[k], '\r');
    }
    JoinAvoids(ls, "\n", '\r');
    JoinWith(ls, "\n")
  }

  function CleanLines(s: string): (ls: seq<string>)
    ensures |ls| >= 1
  {
    CleanEach(SplitOn(Strip(s), '\n'))
  }

  /** `_clean_message`: strip the text, then strip and space-collapse each
      line, keeping the line breaks. */
  function CleanMessage(s: string): string {
    JoinClean(SplitOn(Strip(s), '\n'))
  }

  lemma {:induction false} CleanLineIdempotent(l: string)
    ensures CleanLine(CleanLine(l)) == CleanLine(l)
  {
    var c := Collapse(Strip(l));
    assert Strip(c) == c;
    CollapseIdempotent(Strip(l));
  }

  /** A line with a non-space character cleans to a non-empty line. */
  lemma {:induction false} CleanLineOfNonBlank(l: string, k: nat)
    requires k < |l| && !IsSpace(l[k])
    ensures |CleanLine(l)| > 0
  {
    StripOfNonBlank(l, k);
    CollapseOfNonBlank(Strip(l), 0);
  }

  /** Lines whose first line starts with a non-space join to a text that
      starts with a non-space. */
  lemma {:induction false} JoinCleanFirst(ps: seq<string>, w: string)
    requires |ps| > 0 && ps[0] == w && |w| > 0 && !IsSpace(w[0])
    ensures var r := JoinClean(ps); |r| > 0 && !IsSpace(r[0])
  {
    CleanedFirst(ps, w);
    JoinFirst(CleanEach(ps), "\n");
  }

  lemma {:induction false} CleanedFirst(ps: seq<string>, w: string)
    requires |ps| > 0 && ps[0] == w && |w| > 0 && !IsSpace(w[0])
    ensures var l := CleanEach(ps)[0]; |l| > 0 && !IsSpace(l[0])
  {
    CleanLineOfNonBlank(w, 0);
    CleanLineShape(w);
    CleanEachAt(ps, 0);
  }

  /** Lines whose last line ends in a non-space join to a text that ends
      in a non-space. */
  lemma {:induction false} JoinCleanLast(ps: seq<string>, w: string)
    requires |ps| > 0 && ps[|ps| - 1] == w && |w| > 0 && !IsSpace(w[|w| - 1])
    ensures var r := JoinClean(ps); |r| > 0 && !IsSpace(r[|r| - 1])
  {
    CleanedLast(ps, w);
    JoinLast(CleanEach(ps), "\n");
  }

  lemma {:induction false} CleanedLast(ps: seq<string>, w: string)
    requires |ps| > 0 && ps[|ps| - 1] == w && |w| > 0 && !IsSpace(w[|w| - 1])
    ensures var l := CleanEach(ps)[|ps| - 1]; |l| > 0 && !IsSpace(l[|l| - 1])
  {
    CleanLineOfNonBlank(w, |w| - 1);
    CleanLineShape(w);
    CleanEachAt(ps, |ps| - 1);
  }

  lemma {:induction false} FirstLine(t: string) returns (ps: seq<string>, w: string)
    requires |t| > 0 && !IsSpace(t[0])
    ensures ps == SplitOn(t, '\n') && |ps| > 0 && ps[0] == w
    ensures |w| > 0 && !IsSpace(w[0])
  {
    assert IsSpace('\n');
    SplitFirst(t, '\n');
    ps := SplitOn(t, '\n');
    w := ps[0];
  }

  lemma {:induction false} LastLine(t: string) returns (ps: seq<string>, w: string)
    requires |t| > 0 && !IsSpace(t[|t| - 1])
    ensures ps == SplitOn(t, '\n') && |ps| > 0 && ps[|ps| - 1] == w
    ensures |w| > 0 && !IsSpace(w[|w| - 1])
  {
    assert IsSpace('\n');
    SplitLast(t, '\n');
    ps := SplitOn(t, '\n');
    w := ps[|ps| - 1];
  }

  lemma {:induction false} CleanMessageOfBlank(s: string)
    requires |Strip(s)| == 0
    ensures CleanMessage(s) == ""
  {
    assert SplitOn(Strip(s), '\n') == [""];
    JoinCleanBlank();
  }

  lemma {:induction false} JoinCleanBlank()
    ensures JoinClean([""]) == ""
  {
    assert Words("") == [];
    assert CleanLine("") == "";
    CleanEachAt([""], 0);
    assert CleanEach([""]) == [""];
  }

  lemma {:induction false} CleanMessageFirst(s: string)
    requires |Strip(s)| > 0
    ensures |CleanMessage(s)| > 0 && !IsSpace(CleanMessage(s)[0])
  {
    var ps, w := FirstLine(Strip(s));
    JoinCleanFirst(ps, w);
  }

  lemma {:induction false} CleanMessageLast(s: string)
    requires |Strip(s)| > 0
    ensures var r := CleanMessage(s); |r| > 0 && !IsSpace(r[|r| - 1])
  {
    var ps, w := LastLine(Strip(s));
    JoinCleanLast(ps, w);
  }

  /** Neither end of a cleaned message is whitespace. */
  lemma {:induction false} CleanMessageEnds(s: string)
    ensures var r := CleanMessage(s); |r| == 0 || (!IsSpace(r[0]) && !IsSpace(r[|r| - 1]))
  {
    if |Strip(s)| > 0 {
      CleanMessageFirst(s);
      CleanMessageLast(s);
    } else {
      CleanMessageOfBlank(s);
    }
  }

  /** Re-splitting a cleaned message gives back its cleaned lines. */
  lemma {:induction false} CleanMessageSplits(s: string)
    ensures SplitOn(Strip(CleanMessage(s)), '\n') == CleanLines(s)
  {
    var ls := CleanLines(s);
    var c := JoinWith(ls, "\n");
    assert c == CleanMessage(s);
    CleanMessageEnds(s);
    assert Strip(c) == c;
    CleanEachShape(SplitOn(Strip(s), '\n'));
    forall k | 0 <= k < |ls| ensures '\n' !in ls[k] {
      SingleSpacedAvoids(ls[k], '\n');
    }
    assert "\n" == ['\n'];
    SplitJoin(ls, '\n');
  }

  /** Every cleaned line is already clean. */
  lemma {:induction false} CleanLinesFixed(s: string)
    ensures forall k | 0 <= k < |CleanLines(s)| :: CleanLine(CleanLines(s)[k]) == CleanLines(s)[k]
  {
    CleanEachFixes(SplitOn(Strip(s), '\n'));
  }

  lemma {:induction false} CleanEachFixes(ps: seq<string>)
    ensures forall k | 0 <= k < |ps| :: CleanLine(CleanEach(ps)[k]) == CleanEach(ps)[k]
  {
    forall k | 0 <= k < |ps| ensures CleanLine(CleanEach(ps)[k]) == CleanEach(ps)[k] {
      CleanEachAt(ps, k);
      CleanLineIdempotent(ps[k]);
    }
  }

  /** Cleaning is a normal form: a cleaned message cleans to itself. */
  lemma {:induction false} CleanMessageIdempotent(s: string)
    ensures CleanMessage(CleanMessage(s)) == CleanMessage(s)
  {
    CleanLinesOfClean(s);
  }

  /** A cleaned message splits back into the same cleaned lines. */
  lemma {:induction false} CleanLinesOfClean(s: string)
    ensures CleanLines(CleanMessage(s)) == CleanLines(s)
  {
    CleanMessageSplits(s);
    CleanLinesFixed(s);
    CleanEachFixed(CleanLines(s));
  }

  /** The text `_extract_entry` searches: the cleaned message with `\r\n`
      turned into `\n` and cleaned again. */
  function EntryText(t: string): string {
    CleanMessage(ReplaceAll(t, "\r\n", "\n"))
  }

  /** Since a cleaned message has no `\r` and cleaning is idempotent, the
      entry pattern sees exactly the message `process_message` cleaned. */
  lemma {:induction false} EntryTextIsCleaned(raw: string)
    ensures EntryText(CleanMessage(raw)) == CleanMessage(raw)
  {
    ReplaceAbsent(CleanMessage(raw), "\r\n", "\n");
    CleanMessageIdempotent(raw);
  }

  // ---------------------------------------------------------- predicates

  const Cross: string := "\U{274C}"
  const Check: string := "\U{2705}"
  const Fire: string := "\U{1F525}"

  /** `(Delete|Отмена)\s*❌` at `p`; both words are six characters long. */
  predicate CancelAt(s: string, p: nat) {
    (StartsAt(s, p, "Delete") || StartsAt(s, p, "Отмена")) &&
    var w := Span(s, p + 6, IsSpace);
    StartsAt(s, w, Cross)
  }

  /** `_is_cancel_message`. */
  predicate IsCancel(t: string) {
    exists p | 0 <= p < |t| :: CancelAt(t, p)
  }

  const Excluded: seq<string> := ["если пропустили уведомление", "в работе", "переведите в бу"]
  const TpIndicators: seq<string> := ["фикс", "take profit", "пункта", "пунктов", Check, Fire]
  const SlKeywords: seq<string> := ["SL", Cross, "пункта", "пунктов"]

  /** `_is_tp_message`. */
  predicate IsTp(t: string) {
    var l := Lower(t);
    && !ContainsAny(l, Excluded)
    && (ContainsAny(l, TpIndicators) || (Contains(l, "бу") && Contains(l, "пункт")))
    && !Contains(l, Cross)
    && !IsCancel(t)
  }

  /** `_is_sl_message`. */
  predicate IsSl(t: string) {
    var l := Lower(t);
    Contains(l, Cross) && ContainsAny(l, SlKeywords) && !IsCancel(t) && !IsTp(t)
  }

  /** Lower-casing never yields a capital S, so the "SL" keyword cannot
      occur in the lower-cased text. */
  lemma {:induction false} NoCapitalAfterLower(t: string)
    ensures !Contains(Lower(t), "SL")
  {
    var l := Lower(t);
    forall i | 0 <= i <= |l| - 2 ensures !StartsAt(l, i, "SL") {
      assert l[i..i + 2][0] == l[i];
    }
  }

  /** `❌` is not a letter, so lower-casing keeps it exactly where it was. */
  lemma {:induction false} CrossSurvivesLower(t: string)
    ensures Contains(Lower(t), Cross) <==> Contains(t, Cross)
  {
    var l := Lower(t);
    forall i | 0 <= i < |t| ensures (l[i] == '\U{274C}') <==> (t[i] == '\U{274C}') {
    }
    forall i | 0 <= i <= |t| - 1 ensures StartsAt(l, i, Cross) <==> StartsAt(t, i, Cross) {
      assert l[i..i + 1] == [l[i]] && t[i..i + 1] == [t[i]];
    }
  }

  /** The SL test reduces to "has ❌ and is no cancellation": ❌ is itself a
      keyword, and a TP report never has ❌. So TP and SL never overlap. */
  lemma {:induction false} SlIsCrossWithoutCancel(t: string)
    ensures IsSl(t) <==> Contains(t, Cross) && !IsCancel(t)
    ensures !(IsTp(t) && IsSl(t))
  {
    CrossSurvivesLower(t);
    assert SlKeywords[1] == Cross;
  }

  // ---------------------------------------------------------- extraction

  /** `_normalize_order_type`, applied to an upper-cased order type. */
  function NormalizeOrderType(u: string): (r: string)
    ensures u == "BUYSTOP" ==> r == "BUY_STOP"
    ensures u == "SELLSTOP" ==> r == "SELL_STOP"
    ensures u == "BUYLIMIT" ==> r == "BUY_LIMIT"
    ensures u == "SELLLIMIT" ==> r == "SELL_LIMIT"
    ensures u !in {"BUYSTOP", "SELLSTOP", "BUYLIMIT", "SELLLIMIT"} ==> r == u
    ensures StartsWith(r, "BUY") <==> StartsWith(u, "BUY")
  {
    if u == "BUYSTOP" then "BUY_STOP"
    else if u == "SELLSTOP" then "SELL_STOP"
    else if u == "BUYLIMIT" then "BUY_LIMIT"
    else if u == "SELLLIMIT" then "SELL_LIMIT"
    else u
  }

  /** `([+-]?\d+)\s*пункт`: the signed number of points, if any. */
  function Pips(t: string): (r: Slot<int>)
    ensures !r.Absent?
    ensures r.Null? <==> forall p | 0 <= p < |t| :: SignedIntBeforeAt(t, p, "пункт", false).None?
    ensures r.Present? ==> exists p | 0 <= p < |t| ::
      SignedIntBeforeAt(t, p, "пункт", false) == Some(r.value) && forall q | 0 <= q < p :: SignedIntBeforeAt(t, q, "пункт", false).None?
  {
    match SignedIntBefore(t, "пункт", false)
    case Some(v) => Present(v)
    case None => Null
  }

  function NewSignal(m: Msg, g: EntryGroups): (r: Signal)
    ensures r.side == Present(if StartsWith(Upper(g.orderType), "BUY") then "BUY" else "SELL")
    ensures r.orderType == Present(NormalizeOrderType(Upper(g.orderType)))
    ensures r.takeProfit == Present([g.takeProfit])
    ensures r.entry == Present(g.entry) && r.stopLoss == Present(g.stopLoss)
    ensures r.pair == Present(g.pair) && r.timeframe == Present(g.timeframe) && r.rawOrderType == Present(g.orderType)
    ensures r.source == m && r.action == Action.NewSignal && r.orderId == Present(OrderKey(m.chatId, m.msgId))
  {
    var u := Upper(g.orderType);
    Bare(m, Action.NewSignal).(
      pair := Present(g.pair), rawOrderType := Present(g.orderType), entry := Present(g.entry),
      stopLoss := Present(g.stopLoss), takeProfit := Present([g.takeProfit]), timeframe := Present(g.timeframe),
      orderType := Present(NormalizeOrderType(u)),
      side := Present(if StartsWith(u, "BUY") then "BUY" else "SELL"),
      orderId := Present(RootKey(m)))
  }

  /** `_extract_tp` merged into the reply result. */
  function TpReport(m: Msg, t: string): (r: Signal)
    requires m.reply.Some?
    ensures r.source == m && r.action == TpHit && r.orderId == Present(OrderKey(m.chatId, m.reply.value))
    ensures r.pips == Pips(t)
    ensures r.isPartial == Present(Contains(Lower(t), "фикс") || Contains(Lower(t), "часть"))
    ensures r.isBreakeven == Present(Contains(Lower(t), "бу") || Contains(Lower(t), "безубыток"))
  {
    var l := Lower(t);
    Bare(m, TpHit).(
      pips := Pips(t),
      isPartial := Present(Contains(l, "фикс") || Contains(l, "часть")),
      isBreakeven := Present(Contains(l, "бу") || Contains(l, "безубыток")),
      orderId := Present(ReplyKey(m)))
  }

  /** `process_message`. */
  function Classify(ps: Patterns, m: Msg): (r: Option<Signal>)
    ensures r.Some? ==> r.value.source == m
    ensures var t := CleanMessage(TextOrEmpty(m));
      && (r.Some? && r.value.action == Action.NewSignal <==> !IsReply(m) && ps.entry(t).Some?)
      && (r.Some? && r.value.action == Cancelled <==> IsReply(m) && IsCancel(t))
      && (r.Some? && r.value.action == TpHit <==> IsReply(m) && IsTp(t))
      && (r.Some? && r.value.action == SlHit <==> IsReply(m) && IsSl(t))
    ensures r.Some? ==> r.value.action in {Action.NewSignal, Cancelled, TpHit, SlHit}
    ensures r.Some? && r.value.action == Action.NewSignal ==> r.value.orderId == Present(OrderKey(m.chatId, m.msgId))
    ensures r.Some? && r.value.action != Action.NewSignal ==> r.value.orderId == Present(OrderKey(m.chatId, m.reply.value))
  {
    var t := CleanMessage(TextOrEmpty(m));
    EntryTextIsCleaned(TextOrEmpty(m));
    if !IsReply(m) then
      match ps.entry(EntryText(t))
      case Some(g) => Some(NewSignal(m, g))
      case None => None
    else if IsCancel(t) then Some(Bare(m, Cancelled).(orderId := Present(ReplyKey(m))))
    else if IsTp(t) then Some(TpReport(m, t))
    else if IsSl(t) then Some(Bare(m, SlHit).(pips := Pips(t), orderId := Present(ReplyKey(m))))
    else None
  }

  /** A pending order's side and normalised type agree: the side is BUY
      exactly when the type starts with BUY. Prices come straight from the
      matched groups, with the one take-profit as a one-element list. */
  lemma {:induction false} EntryFields(ps: Patterns, m: Msg)
    requires Classify(ps, m).Some? && Classify(ps, m).value.action == Action.NewSignal
    ensures var g := ps.entry(CleanMessage(TextOrEmpty(m))).value; var r := Classify(ps, m).value;
      && r.side.Present? && r.orderType.Present?
      && (r.side.value == "BUY" <==> StartsWith(r.orderType.value, "BUY"))
      && (r.side.value == "BUY" || r.side.value == "SELL")
      && r.takeProfit == Present([g.takeProfit])
      && r.entry == Present(g.entry) && r.stopLoss == Present(g.stopLoss)
      && r.pair == Present(g.pair) && r.timeframe == Present(g.timeframe)
  {
    var t := CleanMessage(TextOrEmpty(m));
    EntryTextIsCleaned(TextOrEmpty(m));
    var g := ps.entry(t).value;
    assert Classify(ps, m) == Some(NewSignal(m, g));
  }

  /** A TP report is partial iff the text mentions "фикс" or "часть", is
      at break-even iff it mentions "бу" or "безубыток" (both after
      lower-casing), and carries the leftmost signed point count. */
  lemma {:induction false} TpReportFields(ps: Patterns, m: Msg)
    requires Classify(ps, m).Some? && Classify(ps, m).value.action == TpHit
    ensures var t := CleanMessage(TextOrEmpty(m)); var r := Classify(ps, m).value;
      && r.isPartial == Present(Contains(Lower(t), "фикс") || Contains(Lower(t), "часть"))
      && r.isBreakeven == Present(Contains(Lower(t), "бу") || Contains(Lower(t), "безубыток"))
      && r.pips == Pips(t)
  {
    var t := CleanMessage(TextOrEmpty(m));
    assert Classify(ps, m) == Some(TpReport(m, t));
  }
}

=== FILE: sanchir_forex.dfy ===
/** The Sanchir forex channel's classifier (`SanchirForexClassifier`): a
    three-line entry on root messages, and keyword replies that cancel,
    close or move an order to break-even. It reads the text uncleaned. */
module SanchirForex {
  import opened Wrappers
  import opened Text
  import opened Numbers
  import opened Signals

  /** The groups of the entry pattern: pair, side and price. */
  datatype EntryGroups = EntryGroups(pair: string, side: string, price: Decimal)

  /** The entry pattern kept opaque. */
  datatype Patterns = Patterns(entry: string -> Option<EntryGroups>)

  /** `_extract_entry` and the result built from it: the order type is the
      side upper-cased (upper-cased again, to no effect), and BUY types buy. */
  function NewSignal(m: Msg, g: EntryGroups): (r: Signal)
    ensures r.orderType.Present? && r.side.Present?
    ensures r.side.value == "BUY" <==> StartsWith(r.orderType.value, "BUY")
    ensures r.orderType == r.rawOrderType && r.orderType.value == Upper(g.side)
    ensures r.stopLoss.Null? && r.takeProfit == Present([])
    ensures r.source == m && r.action == Action.NewSignal && r.orderId == Present(OrderKey(m.chatId, m.msgId))
    ensures r.pair == Present(Upper(g.pair)) && r.entry == Present(g.price)
  {
    var orderType := Upper(g.side);
    UpperIdempotent(g.side);
    Bare(m, Action.NewSignal).(
      pair := Present(Upper(g.pair)), rawOrderType := Present(orderType), entry := Present(g.price),
      stopLoss := Null, takeProfit := Present([]),
      orderType := Present(Upper(orderType)),
      side := Present(if StartsWith(Upper(orderType), "BUY") then "BUY" else "SELL"),
      orderId := Present(RootKey(m)))
  }

  /** `process_message`. */
  function Classify(ps: Patterns, m: Msg): (r: Option<Signal>)
    ensures r.Some? ==> r.value.source == m
    ensures var t := TextOrEmpty(m);
      && (r.Some? && r.value.action == Action.NewSignal <==> !IsReply(m) && ps.entry(t).Some?)
      && (r.Some? && r.value.action == Cancelled <==> IsReply(m) && ContainsLower(t, "cancel"))
      && (r.Some? && r.value.action == Closed <==> IsReply(m) && !ContainsLower(t, "cancel") && ContainsLower(t, "close"))
      && (r.Some? && r.value.action == Breakeven <==>
            IsReply(m) && !ContainsLower(t, "cancel") && !ContainsLower(t, "close") && ContainsLower(t, "breakeven"))
    ensures r.Some? ==> r.value.action in {Action.NewSignal, Cancelled, Closed, Breakeven}
    ensures r.Some? && r.value.action == Action.NewSignal ==> r.value.orderId == Present(OrderKey(m.chatId, m.msgId))
    ensures r.Some? && r.value.action != Action.NewSignal ==> r.value.orderId == Present(OrderKey(m.chatId, m.reply.value))
    ensures r.Some? && r.value.action == Action.NewSignal ==> r.value == NewSignal(m, ps.entry(TextOrEmpty(m)).value)
  {
    var t := TextOrEmpty(m);
    if !IsReply(m) then
      match ps.entry(t)
      case Some(g) => Some(NewSignal(m, g))
      case None => None
    else if ContainsLower(t, "cancel") then Some(Bare(m, Cancelled).(orderId := Present(ReplyKey(m))))
    else if ContainsLower(t, "close") then Some(Bare(m, Closed).(orderId := Present(ReplyKey(m))))
    else if ContainsLower(t, "breakeven") then Some(Bare(m, Breakeven).(orderId := Present(ReplyKey(m))))
    else None
  }

  /** "closed" contains "close": a reply reporting a close at break-even is
      a close, never a break-even. */
  lemma {:induction false} CloseShadowsBreakeven(ps: Patterns, m: Msg)
    requires IsReply(m) && ContainsLower(TextOrEmpty(m), "close")
    ensures Classify(ps, m).Some? && Classify(ps, m).value.action in {Cancelled, Closed}
  {
  }
}

=== FILE: scan.dfy ===
/** The small regular expressions of the classifiers, each written out as an
    exact test at one position, and the two ways Python applies them:
    `re.search` (the leftmost position that matches) and `re.findall` (the
    successive non-overlapping matches, left to right). */
module Scan {
  import opened Wrappers
  import opened Text
  import opened Numbers

  /** The first position in [i, n) at which `at` matches. */
  function FirstMatch<T>(n: nat, at: nat -> Option<T>, i: nat): (r: Option<nat>)
    requires i <= n
    ensures r.Some? ==> i <= r.value < n && at(r.value).Some?
    ensures r.Some? ==> forall q | i <= q < r.value :: at(q).None?
    ensures r.None? ==> forall q | i <= q < n :: at(q).None?
    decreases n - i
  {
    if i == n then None
    else if at(i).Some? then Some(i)
    else FirstMatch(n, at, i + 1)
  }

  /** `re.search`: the match found at the leftmost matching position. */
  function Search<T>(n: nat, at: nat -> Option<T>): (r: Option<T>)
    ensures r.None? <==> forall q | 0 <= q < n :: at(q).None?
    ensures r.Some? ==> exists p | 0 <= p < n :: at(p) == r && forall q | 0 <= q < p :: at(q).None?
  {
    match FirstMatch(n, at, 0)
    case Some(p) => at(p)
    case None => None
  }

  /** A match that ends at `end` and captured `value`. */
  datatype Hit<+T> = Hit(end: nat, value: T)

  /** Where `re.findall` looks next after a match at `p`: the match's end,
      or one further when the match was empty. */
  function Resume<T>(n: nat, at: nat -> Option<Hit<T>>, p: nat): (r: nat)
    requires p < n && at(p).Some?
    ensures p < r <= n
  {
    var h := at(p).value;
    if h.end > p && h.end <= n then h.end else p + 1
  }

  /** `re.findall` from position `i`: the value of the leftmost match, then the
      matches after its end. A match never ends before its start position, and
      an empty one moves the scan on by one character. */
  function FindAll<T>(n: nat, at: nat -> Option<Hit<T>>, i: nat): (r: seq<T>)
    requires i <= n
    ensures (forall q | i <= q < n :: at(q).None?) ==> r == []
    ensures (exists q | i <= q < n :: at(q).Some?) ==> |r| > 0
    decreases n - i
  {
    match FirstMatch(n, at, i)
    case None => []
    case Some(p) => [at(p).value.value] + FindAll(n, at, Resume(n, at, p))
  }

  /** No match starts in [a, b). */
  predicate NoMatchIn<T>(at: nat -> Option<Hit<T>>, a: nat, b: nat) {
    forall q | a <= q < b :: at(q).None?
  }

  predicate AllMatch<T>(n: nat, at: nat -> Option<Hit<T>>, ps: seq<nat>) {
    forall k | 0 <= k < |ps| :: ps[k] < n && at(ps[k]).Some?
  }

  /** Where the scan for the `k`-th match of `ps` starts. */
  function From<T>(n: nat, at: nat -> Option<Hit<T>>, i: nat, ps: seq<nat>, k: nat): nat
    requires k <= |ps| && AllMatch(n, at, ps)
  {
    if k == 0 then i else Resume(n, at, ps[k - 1])
  }

  /** `ps` are the start positions of the successive matches from `i`: each
      is the first match at or after the point the previous one resumed
      the scan, and nothing matches after the last. */
  predicate Chain<T>(n: nat, at: nat -> Option<Hit<T>>, i: nat, ps: seq<nat>) {
    && AllMatch(n, at, ps)
    && (forall k | 0 <= k < |ps| :: Linked(n, at, i, ps, k))
    && NoMatchIn(at, From(n, at, i, ps, |ps|), n)
  }

  /** The `k`-th match of `ps` is the leftmost one from where its scan
      starts. */
  predicate Linked<T>(n: nat, at: nat -> Option<Hit<T>>, i: nat, ps: seq<nat>, k: nat)
    requires k < |ps| && AllMatch(n, at, ps)
  {
    From(n, at, i, ps, k) <= ps[k] && NoMatchIn(at, From(n, at, i, ps, k), ps[k])
  }

  /** What `re.findall` returns: the captured values of the chain of
      successive leftmost, non-overlapping matches, in order. */
  lemma {:induction false} FindAllPositions<T>(n: nat, at: nat -> Option<Hit<T>>, i: nat) returns (ps: seq<nat>)
    requires i <= n
    ensures Chain(n, at, i, ps)
    ensures |FindAll(n, at, i)| == |ps|
    ensures forall k | 0 <= k < |ps| :: FindAll(n, at, i)[k] == at(ps[k]).value.value
    decreases n - i
  {
    match FirstMatch(n, at, i)
    case None =>
      ps := [];
    case Some(p) =>
      var next := Resume(n, at, p);
      var rest := FindAllPositions(n, at, next);
      ps := [p] + rest;
      ChainCons(n, at, i, p, rest);
      var r := FindAll(n, at, i);
      assert r == [at(p).value.value] + FindAll(n, at, next);
      forall k | 0 <= k < |ps| ensures r[k] == at(ps[k]).value.value {
        if k > 0 {
          assert ps[k] == rest[k - 1];
        }
      }
  }

  /** A first match at `p` in front of a chain from where it resumes makes a
      chain from `i`. */
  lemma {:induction false} ChainCons<T>(n: nat, at: nat -> Option<Hit<T>>, i: nat, p: nat, rest: seq<nat>)
    requires i <= p < n && at(p).Some? && NoMatchIn(at, i, p)
    requires Chain(n, at, Resume(n, at, p), rest)
    ensures Chain(n, at, i, [p] + rest)
  {
    AllMatchCons(n, at, p, rest);
    LinksCons(n, at, i, p, rest);
    FromCons(n, at, i, p, rest, |rest| + 1);
  }

  lemma {:induction false} LinksCons<T>(n: nat, at: nat -> Option<Hit<T>>, i: nat, p: nat, rest: seq<nat>)
    requires i <= p < n && at(p).Some? && NoMatchIn(at, i, p)
    requires Chain(n, at, Resume(n, at, p), rest)
    requires AllMatch(n, at, [p] + rest)
    ensures var ps := [p] + rest;
      forall k | 0 <= k < |ps| :: Linked(n, at, i, ps, k)
  {
    var ps := [p] + rest;
    forall k | 0 < k < |ps|
      ensures Linked(n, at, i, ps, k)
    {
      FromCons(n, at, i, p, rest, k);
      assert ps[k] == rest[k - 1];
      assert Linked(n, at, Resume(n, at, p), rest, k - 1);
    }
    assert Linked(n, at, i, ps, 0);
  }

  lemma {:induction false} AllMatchCons<T>(n: nat, at: nat -> Option<Hit<T>>, p: nat, rest: seq<nat>)
    requires p < n && at(p).Some? && AllMatch(n, at, rest)
    ensures AllMatch(n, at, [p] + rest)
  {
    var ps := [p] + rest;
    forall k | 0 < k < |ps| ensures ps[k] < n && at(ps[k]).Some? {
      assert ps[k] == rest[k - 1];
    }
  }

  lemma {:induction false} FromCons<T>(n: nat, at: nat -> Option<Hit<T>>, i: nat, p: nat, rest: seq<nat>, k: nat)
    requires p < n && at(p).Some? && AllMatch(n, at, rest) && AllMatch(n, at, [p] + rest)
    requires 0 < k <= |rest| + 1
    ensures From(n, at, i, [p] + rest, k) == From(n, at, Resume(n, at, p), rest, k - 1)
  {
    if k > 1 {
      assert ([p] + rest)[k - 1] == rest[k - 2];
    }
  }

  /** The value of a run of ASCII digits `s[i..j]`. */
  function NatAt(s: string, i: nat, j: nat): nat
    requires i <= j <= |s|
    requires forall k | i <= k < j :: IsDigit(s[k])
  {
    assert AllDigits(s[i..j]);
    DigitsToNat(s[i..j])
  }

  /** `\d+` at `i`: the end of the digit run and its value. */
  function DigitsAt(s: string, i: nat): (r: Option<Hit<nat>>)
    ensures r.Some? ==> i < r.value.end <= |s|
    ensures r.Some? <==> i < |s| && IsDigit(s[i])
  {
    if i >= |s| then None
    else
      var e := Span(s, i, IsDigit);
      if e == i then None else Some(Hit(e, NatAt(s, i, e)))
  }

  /** `\d+\.\d+` at `i`: the end of the number and the value `float()` gives
      it. Both digit runs are greedy, and backing off the first can only put
      the dot on a digit, so the match is exact. */
  function DecimalAt(s: string, i: nat): (r: Option<Hit<Decimal>>)
    ensures r.Some? ==> i < r.value.end <= |s| && IsDigit(s[i])
  {
    if i >= |s| then None
    else
      var e := Span(s, i, IsDigit);
      if e == i || e == |s| || s[e] != '.' then None
      else
        var f := Span(s, e + 1, IsDigit);
        if f == e + 1 then None
        else Some(Hit(f, Decimal(DigitsToNat(s[i..e]) * Pow10(f - e - 1) + DigitsToNat(s[e + 1..f]), f - e - 1)))
  }

  /** The value of a `\d+\.\d+` match is what `float()` makes of the text
      matched, which holds the dot. */
  lemma {:induction false} DecimalAtParses(s: string, i: nat)
    requires DecimalAt(s, i).Some?
    ensures var h := DecimalAt(s, i).value;
      ParseDecimal(s[i..h.end]) == Some(h.value) && '.' in s[i..h.end]
  {
    var e := DecimalAt(s, i).value.end;
    var d := Span(s, i, IsDigit);
    DecimalAtValue(s, i, d, e);
    SliceValue(s, i, d, e);
    assert s[i..e][d - i] == '.';
  }

  /** A digit run from `i` to a dot at `d`, followed by more digits up to
      `e`, is a `\d+\.\d+` match ending at `e`. */
  lemma {:induction false} DecimalAtFrom(s: string, i: nat, d: nat, e: nat)
    requires i < d < |s| && d == Span(s, i, IsDigit) && s[d] == '.' && e == Span(s, d + 1, IsDigit) && e > d + 1
    ensures DecimalAt(s, i).Some? && DecimalAt(s, i).value.end == e
  {
  }

  /** Where a `\d+\.\d+` match has its dot and its end. */
  lemma {:induction false} DecimalAtParts(s: string, i: nat)
    requires DecimalAt(s, i).Some?
    ensures var e := DecimalAt(s, i).value.end; var d := Span(s, i, IsDigit);
      i < d && d + 1 < e && s[d] == '.' && e == Span(s, d + 1, IsDigit)
  {
  }

  /** The text between two positions of a digit run is all digits. */
  lemma {:induction false} DigitRun(s: string, i: nat, j: nat)
    requires i <= j <= |s| && forall k | i <= k < j :: IsDigit(s[k])
    ensures AllDigits(s[i..j])
  {
    assert forall k | 0 <= k < j - i :: s[i..j][k] == s[i + k];
  }

  /** The value of a `\d+\.\d+` match: the integer digits shifted left by
      the number of fraction digits, plus the fraction digits. */
  lemma {:induction false} DecimalAtValue(s: string, i: nat, d: nat, e: nat)
    requires DecimalAt(s, i).Some? && e == DecimalAt(s, i).value.end && d == Span(s, i, IsDigit)
    ensures i < d && d + 1 < e && s[d] == '.' && AllDigits(s[i..d]) && AllDigits(s[d + 1..e])
    ensures DecimalAt(s, i).value.value == Decimal(DigitsToNat(s[i..d]) * Pow10(e - d - 1) + DigitsToNat(s[d + 1..e]), e - d - 1)
  {
    DecimalAtParts(s, i);
    DigitRun(s, i, d);
    DigitRun(s, d + 1, e);
  }

  lemma {:induction false} SliceValue(s: string, i: nat, d: nat, e: nat)
    requires i < d && d + 1 < e <= |s| && s[d] == '.' && AllDigits(s[i..d]) && AllDigits(s[d + 1..e])
    ensures ParseDecimal(s[i..e]) == Some(Decimal(DigitsToNat(s[i..d]) * Pow10(e - d - 1) + DigitsToNat(s[d + 1..e]), e - d - 1))
  {
    var x := s[i..e];
    assert x[..d - i] == s[i..d] && x[d - i + 1..] == s[d + 1..e] && x[d - i] == '.';
    ParseDecimalValue(x, d - i);
  }

  /** `[+-]?\d+` at `i` followed by optional whitespace and the literal
      `word` (compared ignoring case when `fold` is set), with the signed
      value `int()` gives the number. */
  function SignedIntBeforeAt(s: string, i: nat, word: string, fold: bool): (r: Option<int>)
  {
    if i >= |s| then None
    else
      var d := if s[i] == '+' || s[i] == '-' then i + 1 else i;
      var e := Span(s, d, IsDigit);
      var w := Span(s, e, IsSpace);
      if e == d then None
      else if !(if fold then StartsAtIgnoringCase(s, w, word) else StartsAt(s, w, word)) then None
      else if s[i] == '-' then Some(0 - NatAt(s, d, e))
      else Some(NatAt(s, d, e))
  }

  /** `re.search(r'([+-]?\d+)\s*word', s)`, the captured integer. */
  function SignedIntBefore(s: string, word: string, fold: bool): (r: Option<int>)
    ensures r.Some? ==> exists p | 0 <= p < |s| ::
      SignedIntBeforeAt(s, p, word, fold) == r && forall q | 0 <= q < p :: SignedIntBeforeAt(s, q, word, fold).None?
    ensures r.None? <==> forall p | 0 <= p < |s| :: SignedIntBeforeAt(s, p, word, fold).None?
  {
    var at := (p: nat) => SignedIntBeforeAt(s, p, word, fold);
    assert forall p: nat :: at(p) == SignedIntBeforeAt(s, p, word, fold);
    Search(|s|, at)
  }

  /** `p` occurs in `s` ignoring case: `re.search` of a literal with
      `re.IGNORECASE`. */
  predicate ContainsIgnoringCase(s: string, p: string) {
    exists i | 0 <= i <= |s| - |p| :: StartsAtIgnoringCase(s, i, p)
  }

  /** A literal found ignoring case contains, ignoring case, each of its own
      pieces at the same offset. */
  lemma {:induction false} PieceIgnoringCase(s: string, i: int, p: string, j: nat, q: string)
    requires StartsAtIgnoringCase(s, i, p)
    requires j + |q| <= |p| && p[j..j + |q|] == q
    ensures StartsAtIgnoringCase(s, i + j, q)
    ensures ContainsIgnoringCase(s, q)
  {
    forall k | 0 <= k < |q| ensures LowerChar(s[i + j + k]) == LowerChar(q[k]) {
      assert q[k] == p[j + k];
    }
  }

  predicate IsLowerLiteral(p: string) {
    forall k | 0 <= k < |p| :: LowerChar(p[k]) == p[k]
  }

  /** For a lower-case literal, matching it ignoring case is finding it in
      the lower-cased text. */
  lemma {:induction false} IgnoringCaseIsLower(s: string, p: string)
    requires IsLowerLiteral(p)
    ensures ContainsIgnoringCase(s, p) <==> ContainsLower(s, p)
  {
    var l := Lower(s);
    forall i | 0 <= i <= |s| - |p|
      ensures StartsAtIgnoringCase(s, i, p) <==> StartsAt(l, i, p)
    {
      if StartsAtIgnoringCase(s, i, p) {
        assert forall k | 0 <= k < |p| :: l[i..i + |p|][k] == p[k];
      }
      if StartsAt(l, i, p) {
        forall k | 0 <= k < |p| ensures LowerChar(s[i + k]) == LowerChar(p[k]) {
          assert l[i..i + |p|][k] == l[i + k];
        }
      }
    }
    if ContainsLower(s, p) {
      var i :| 0 <= i <= |l| - |p| && StartsAt(l, i, p);
      assert StartsAtIgnoringCase(s, i, p);
    }
  }

  /** `tag(\d+)` at `p` with the tag compared ignoring case, or
      `tag\s*(\d+)` when `gap` is set: the captured number. */
  function LabelledNumberAt(s: string, p: nat, tag: string, gap: bool): (r: Option<nat>)
    ensures r.Some? ==> StartsAtIgnoringCase(s, p, tag)
  {
    if !StartsAtIgnoringCase(s, p, tag) then None
    else
      var q := p + |tag|;
      match DigitsAt(s, if gap then Span(s, q, IsSpace) else q)
      case Some(h) => Some(h.value)
      case None => None
  }

  /** `re.search` of `tag(\d+)` (or `tag\s*(\d+)`) ignoring case: the
      number after the leftmost occurrence of the tag that has one. */
  function LabelledNumber(s: string, tag: string, gap: bool): (r: Option<nat>)
    ensures r.Some? ==> ContainsIgnoringCase(s, tag)
    ensures r.Some? ==> exists p | 0 <= p < |s| ::
      LabelledNumberAt(s, p, tag, gap) == r && forall q | 0 <= q < p :: LabelledNumberAt(s, q, tag, gap).None?
    ensures r.None? <==> forall p | 0 <= p < |s| :: LabelledNumberAt(s, p, tag, gap).None?
  {
    var at := (p: nat) => LabelledNumberAt(s, p, tag, gap);
    assert forall p: nat :: at(p) == LabelledNumberAt(s, p, tag, gap);
    Search(|s|, at)
  }

  /** Python's `\b` at index `k`: a word character on exactly one side. */
  predicate WordBoundary(s: string, k: int) {
    0 <= k <= |s| && (k > 0 && IsWordChar(s[k - 1])) != (k < |s| && IsWordChar(s[k]))
  }

  /** Some literal of `ps` starts at `i`, ignoring case. */
  predicate AnyAtIgnoringCase(s: string, i: int, ps: seq<string>) {
    exists k | 0 <= k < |ps| :: StartsAtIgnoringCase(s, i, ps[k])
  }
}

=== FILE: signals.dfy ===
/** The records that flow through the relay: the message record a classifier
    reads, the result dict it returns, and the exceptions it can raise. */
module Signals {
  import opened Wrappers
  import opened Numbers

  /** The `action` values of a result. IN_PROFIT_UPDATE is handled by the
      queue although no classifier produces it. */
  datatype Action = NewSignal | TpHit | SlHit | Cancelled | InProfitUpdate | Closed | Breakeven | Other

  /** One key of a Python dict: missing, mapped to `None`, or mapped to a
      value. */
  datatype Slot<+T> = Absent | Null | Present(value: T)
  {
    /** `d.get(key)`: `None` both for a missing key and for a `None` value. */
    function Get(): Option<T> {
      if Present? then Some(value) else None
    }
  }

  /** The message record handed to a classifier: `chat_id`, `msg_id`,
      `reply_msg_id` (`None` when missing or null) and `msg_text` (`None`
      when the key is missing). */
  datatype Msg = Msg(chatId: int, msgId: int, reply: Option<int>, text: Option<string>)

  /** `if reply_msg_id:` in Python: present and non-zero. */
  predicate IsReply(m: Msg) {
    m.reply.Some? && m.reply.value != 0
  }

  /** `message_data.get('msg_text', '')`. */
  function TextOrEmpty(m: Msg): string {
    m.text.GetOr("")
  }

  /** `f"{chat_id}_{msg_id}"`: the order a root message opens. */
  function RootKey(m: Msg): string {
    OrderKey(m.chatId, m.msgId)
  }

  /** `f"{chat_id}_{reply_msg_id}"`: the order a reply refers to. */
  function ReplyKey(m: Msg): string
    requires m.reply.Some?
  {
    OrderKey(m.chatId, m.reply.value)
  }

  /** A classifier's result dict, one slot per key it can carry. `source`
      stands for the keys of the input record copied into the result. */
  datatype Signal = Signal(
    source: Msg,
    action: Action,
    orderId: Slot<string>,
    pair: Slot<string>,
    side: Slot<string>,
    orderType: Slot<string>,
    rawOrderType: Slot<string>,
    entry: Slot<Decimal>,
    stopLoss: Slot<Decimal>,
    takeProfit: Slot<seq<Decimal>>,
    leverage: Slot<nat>,
    tpLevel: Slot<nat>,
    pips: Slot<int>,
    profitPercent: Slot<Decimal>,
    entryPrice: Slot<Decimal>,
    exitPrice: Slot<Decimal>,
    outcome: Slot<string>,
    isProfit: Slot<bool>,
    isPartial: Slot<bool>,
    isBreakeven: Slot<bool>,
    timeframe: Slot<string>,
    message: Slot<string>)

  /** A result holding only the copied input keys and the action. */
  function Bare(m: Msg, action: Action): Signal {
    Signal(m, action, Absent, Absent, Absent, Absent, Absent, Absent, Absent, Absent, Absent,
           Absent, Absent, Absent, Absent, Absent, Absent, Absent, Absent, Absent, Absent, Absent)
  }

  /** No key of the result is mapped to `None`. */
  predicate NoNulls(r: Signal) {
    && !r.orderId.Null? && !r.pair.Null? && !r.side.Null? && !r.orderType.Null?
    && !r.rawOrderType.Null? && !r.entry.Null? && !r.stopLoss.Null? && !r.takeProfit.Null?
    && !r.leverage.Null? && !r.tpLevel.Null? && !r.pips.Null? && !r.profitPercent.Null?
    && !r.entryPrice.Null? && !r.exitPrice.Null? && !r.outcome.Null? && !r.isProfit.Null?
    && !r.isPartial.Null? && !r.isBreakeven.Null? && !r.timeframe.Null? && !r.message.Null?
  }

  /** The exceptions the modelled code can raise. */
  datatype Fault =
    | KeyError(key: string)
    | ValueError(text: string)
    | TypeError(what: string)
}

=== FILE: text.dfy ===
/** Character classes and the string operations the classifiers build on:
    Python's `str.strip()`, `str.split()`, `' '.join(...)`, `str.split(sep)`,
    `str.replace(pat, rep)`, `str.lower()`/`str.upper()` and `in`. */
module Text {

  /** Python's `str.isspace()`, which is also what `\s` matches in a `str`
      pattern and what `strip()` and `split()` remove. U+200B is not in it. */
  predicate IsSpace(c: char) {
    || ('\t' <= c <= '\r')
    || ('\U{1C}' <= c <= '\U{1F}')
    || c == ' '
    || c == '\U{85}'
    || c == '\U{A0}'
    || c == '\U{1680}'
    || ('\U{2000}' <= c <= '\U{200A}')
    || c == '\U{2028}'
    || c == '\U{2029}'
    || c == '\U{202F}'
    || c == '\U{205F}'
    || c == '\U{3000}'
  }

  predicate NotSpace(c: char) { !IsSpace(c) }

  predicate IsDigit(c: char) { '0' <= c <= '9' }

  /** What `[\d.]` matches. */
  predicate DigitOrDot(c: char) { IsDigit(c) || c == '.' }

  predicate IsAsciiUpper(c: char) { 'A' <= c <= 'Z' }

  predicate IsAsciiLower(c: char) { 'a' <= c <= 'z' }

  /** What `\w` matches, restricted to ASCII letters, digits, `_` and the
      Cyrillic block. */
  predicate IsWordChar(c: char) {
    IsAsciiUpper(c) || IsAsciiLower(c) || IsDigit(c) || c == '_' || ('\U{400}' <= c <= '\U{4FF}')
  }

  /** `str.lower()` on one character, for ASCII and basic Cyrillic letters. */
  function LowerChar(c: char): char {
    if IsAsciiUpper(c) then (c as int + 32) as char
    else if '\U{410}' <= c <= '\U{42F}' then (c as int + 32) as char
    else if '\U{400}' <= c <= '\U{40F}' then (c as int + 80) as char
    else c
  }

  /** `str.upper()` on one character, for ASCII and basic Cyrillic letters. */
  function UpperChar(c: char): char {
    if IsAsciiLower(c) then (c as int - 32) as char
    else if '\U{430}' <= c <= '\U{44F}' then (c as int - 32) as char
    else if '\U{450}' <= c <= '\U{45F}' then (c as int - 80) as char
    else c
  }

  function Lower(s: string): string {
    seq(|s|, k requires 0 <= k < |s| => LowerChar(s[k]))
  }

  function Upper(s: string): string {
    seq(|s|, k requires 0 <= k < |s| => UpperChar(s[k]))
  }

  /** `str.upper()` twice is `str.upper()` once. */
  lemma {:induction false} UpperIdempotent(s: string)
    ensures Upper(Upper(s)) == Upper(s)
  {
  }

  /** The literal `p` occurs in `s` at index `i`. */
  predicate StartsAt(s: string, i: int, p: string) {
    0 <= i && i + |p| <= |s| && s[i..i + |p|] == p
  }

  /** The literal `p` occurs at index `i` ignoring ASCII/Cyrillic case
      (`re.IGNORECASE` on a literal). */
  predicate StartsAtIgnoringCase(s: string, i: int, p: string) {
    0 <= i && i + |p| <= |s| && forall k | 0 <= k < |p| :: LowerChar(s[i + k]) == LowerChar(p[k])
  }

  /** Python's `p in s`. */
  predicate Contains(s: string, p: string) {
    exists i | 0 <= i <= |s| - |p| :: StartsAt(s, i, p)
  }

  /** Python's `p in s.lower()` for a lower-case literal `p`. */
  predicate ContainsLower(s: string, p: string) {
    Contains(Lower(s), p)
  }

  /** Python's `p in s.upper()` for an upper-case literal `p`. */
  predicate ContainsUpper(s: string, p: string) {
    Contains(Upper(s), p)
  }

  /** An occurrence at a known index is an occurrence. */
  lemma {:induction false} ContainsAt(s: string, i: int, p: string)
    requires StartsAt(s, i, p)
    ensures Contains(s, p)
  {
  }

  /** Lower-casing maps an occurrence of `p` to one of `p` lower-cased. */
  lemma {:induction false} LowerStartsAt(s: string, i: int, p: string)
    requires StartsAt(s, i, p)
    ensures StartsAt(Lower(s), i, Lower(p))
  {
    var l := Lower(s);
    forall k | 0 <= k < |p| ensures l[i..i + |p|][k] == Lower(p)[k] {
      assert s[i..i + |p|][k] == p[k];
    }
  }

  predicate ContainsAny(s: string, ps: seq<string>) {
    exists k | 0 <= k < |ps| :: Contains(s, ps[k])
  }

  /** Python's `s.startswith(p)`. */
  predicate StartsWith(s: string, p: string) {
    |p| <= |s| && s[..|p|] == p
  }

  /** The end of the run of characters satisfying `p` that starts at `i`. */
  function Span(s: string, i: nat, p: char -> bool): (j: nat)
    requires i <= |s|
    ensures i <= j <= |s|
    ensures forall k | i <= k < j :: p(s[k])
    ensures j == |s| || !p(s[j])
    decreases |s| - i
  {
    if i == |s| || !p(s[i]) then i else Span(s, i + 1, p)
  }

  /** Python's `s.lstrip()`: what it drops is whitespace, and what it keeps
      starts with a non-whitespace character. */
  function TrimLeft(s: string): (r: string)
    ensures |r| <= |s| && r == s[|s| - |r|..]
    ensures Blank(s[..|s| - |r|])
    ensures |r| == 0 || !IsSpace(r[0])
    decreases |s|
  {
    if |s| > 0 && IsSpace(s[0]) then
      var r := TrimLeft(s[1..]);
      assert s[..|s| - |r|][1..] == s[1..][..|s| - 1 - |r|];
      r
    else s
  }

  /** Python's `s.rstrip()`: what it drops is whitespace, and what it keeps
      ends with a non-whitespace character. */
  function TrimRight(s: string): (r: string)
    ensures |r| <= |s| && r == s[..|r|]
    ensures Blank(s[|r|..])
    ensures |r| == 0 || !IsSpace(r[|r| - 1])
    decreases |s|
  {
    if |s| > 0 && IsSpace(s[|s| - 1]) then
      var init := s[..|s| - 1];
      var r := TrimRight(init);
      assert s[|r|..] == init[|r|..] + [s[|s| - 1]];
      BlankSnoc(init[|r|..], s[|s| - 1]);
      r
    else s
  }

  /** Python's `s.strip()`: the slice of the text between the first and the
      last non-whitespace character, with only whitespace outside it;
      `StripUnique` says that no other slice is. */
  function Strip(s: string): (r: string)
    ensures |r| <= |s|
    ensures |r| == 0 || (!IsSpace(r[0]) && !IsSpace(r[|r| - 1]))
    ensures |s| == 0 || (!IsSpace(s[0]) && !IsSpace(s[|s| - 1])) ==> r == s
    ensures exists a: nat, b: nat | a <= b <= |s| :: r == s[a..b] && Blank(s[..a]) && Blank(s[b..])
  {
    var l := TrimLeft(s);
    var r := TrimRight(l);
    var a := |s| - |l|;
    var b := a + |r|;
    SliceOfSlice(s, a, |r|);
    BlankEq(l[|r|..], s[b..]);
    r
  }

  /** `strip()` keeps the slice of the text that starts where `lstrip()`
      starts, and drops only whitespace around it. */
  lemma {:induction false} StripSlice(s: string)
    ensures var a := |s| - |TrimLeft(s)|; var b := a + |Strip(s)|;
      b <= |s| && Strip(s) == s[a..b] && Blank(s[..a]) && Blank(s[b..])
  {
    var l := TrimLeft(s);
    var r := TrimRight(l);
    var a := |s| - |l|;
    var b := a + |r|;
    SliceOfSlice(s, a, |r|);
    BlankEq(l[|r|..], s[b..]);
  }

  /** The bounds of `strip()` in the text, named. */
  lemma {:induction false} StripBounds(s: string) returns (a: nat, b: nat)
    ensures a <= b <= |s| && Strip(s) == s[a..b] && Blank(s[..a]) && Blank(s[b..])
  {
    var l := TrimLeft(s);
    var r := TrimRight(l);
    a := |s| - |l|;
    b := a + |r|;
    SliceOfSlice(s, a, |r|);
    BlankEq(l[|r|..], s[b..]);
  }

  lemma {:induction false} BlankEq(x: string, y: string)
    requires Blank(x) && x == y
    ensures Blank(y)
  {
  }

  /** Slicing a suffix is slicing the whole. */
  lemma {:induction false} SliceOfSlice<T>(s: seq<T>, a: nat, i: nat)
    requires a + i <= |s|
    ensures s[a..][..i] == s[a..a + i] && s[a..][i..] == s[a + i..]
  {
  }

  lemma {:induction false} BlankSnoc(b: string, c: char)
    requires Blank(b) && IsSpace(c)
    ensures Blank(b + [c])
    decreases |b|
  {
    if |b| > 0 {
      BlankSnoc(b[1..], c);
      assert (b + [c])[1..] == b[1..] + [c];
    }
  }

  /** Every character is whitespace. */
  predicate Blank(s: string)
    decreases |s|
  {
    |s| == 0 || (IsSpace(s[0]) && Blank(s[1..]))
  }

  lemma {:induction false} BlankAt(s: string, k: nat)
    requires Blank(s) && k < |s|
    ensures IsSpace(s[k])
    decreases k
  {
    if k > 0 {
      BlankAt(s[1..], k - 1);
    }
  }

  lemma {:induction false} BlankIff(s: string)
    ensures Blank(s) <==> forall k | 0 <= k < |s| :: IsSpace(s[k])
    decreases |s|
  {
    if |s| > 0 {
      BlankIff(s[1..]);
      assert forall k | 1 <= k < |s| :: s[k] == s[1..][k - 1];
    }
  }

  /** Python's `s.split()`: the maximal runs of non-whitespace characters. */
  function Words(s: string): (ws: seq<string>)
    ensures forall k | 0 <= k < |ws| :: |ws[k]| > 0 && forall c | c in ws[k] :: !IsSpace(c)
    decreases |s|
  {
    if |s| == 0 then []
    else if IsSpace(s[0]) then Words(s[1..])
    else
      var j := Span(s, 0, NotSpace);
      [s[..j]] + Words(s[j..])
  }

  /** Python's `sep.join(parts)`. */
  function JoinWith(parts: seq<string>, sep: string): string
    decreases |parts|
  {
    if |parts| == 0 then ""
    else if |parts| == 1 then parts[0]
    else parts[0] + sep + JoinWith(parts[1..], sep)
  }

  /** Every whitespace character is an ordinary space with a non-space
      character on both sides: no leading, trailing or doubled space. */
  predicate SingleSpaced(r: string) {
    forall k | 0 <= k < |r| && IsSpace(r[k]) :: r[k] == ' ' && 0 < k < |r| - 1 && r[k - 1] != ' ' && r[k + 1] != ' '
  }

  predicate Spaceless(w: string) {
    forall c | c in w :: !IsSpace(c)
  }

  lemma {:induction false} JoinWordsSingleSpaced(ws: seq<string>)
    requires forall k | 0 <= k < |ws| :: |ws[k]| > 0 && Spaceless(ws[k])
    ensures SingleSpaced(JoinWith(ws, " "))
    ensures |ws| > 0 ==> |JoinWith(ws, " ")| > 0 && JoinWith(ws, " ")[0] == ws[0][0]
    decreases |ws|
  {
    if |ws| == 0 {
    } else if |ws| == 1 {
      assert ws[0] in ws;
      forall k | 0 <= k < |ws[0]| ensures !IsSpace(ws[0][k]) {
        assert ws[0][k] in ws[0];
      }
    } else {
      var w := ws[0];
      var j := JoinWith(ws[1..], " ");
      JoinWordsSingleSpaced(ws[1..]);
      assert ws[1..][0] == ws[1];
      var r := w + " " + j;
      assert JoinWith(ws, " ") == r;
      forall k | 0 <= k < |r| && IsSpace(r[k])
        ensures r[k] == ' ' && 0 < k < |r| - 1 && r[k - 1] != ' ' && r[k + 1] != ' '
      {
        if k < |w| {
          assert false;
        } else if k == |w| {
          assert r[k - 1] == w[|w| - 1] && w[|w| - 1] in w;
          assert r[k + 1] == j[0] == ws[1][0] && ws[1][0] in ws[1];
        } else {
          assert r[k] == j[k - |w| - 1];
          if k - |w| - 1 == 0 {
            assert false;
          } else {
            assert r[k - 1] == j[k - |w| - 2];
          }
        }
      }
      assert w[0] in w;
    }
  }

  lemma {:induction false} WordsOfJoin(ws: seq<string>)
    requires forall k | 0 <= k < |ws| :: |ws[k]| > 0 && Spaceless(ws[k])
    ensures Words(JoinWith(ws, " ")) == ws
    decreases |ws|
  {
    if |ws| == 0 {
    } else {
      var w := ws[0];
      assert Spaceless(w);
      var rest := if |ws| == 1 then "" else " " + JoinWith(ws[1..], " ");
      var s := w + rest;
      assert JoinWith(ws, " ") == s;
      var j := Span(s, 0, NotSpace);
      assert w[0] in w;
      assert s[0] == w[0];
      forall k | 0 <= k < |w| ensures NotSpace(s[k]) {
        assert s[k] == w[k] && w[k] in w;
      }
      if |ws| == 1 {
        assert s == w;
        assert j == |w|;
        assert s[j..] == [];
      } else {
        assert s[|w|] == ' ';
        assert j == |w|;
        assert s[..j] == w;
        var t := JoinWith(ws[1..], " ");
        assert s[j..] == " " + t;
        assert (" " + t)[1..] == t;
        assert Words(" " + t) == Words(t);
        WordsOfJoin(ws[1..]);
      }
    }
  }

  /** Python's `' '.join(s.split())`: the same words, joined by single
      spaces. */
  function Collapse(s: string): (r: string)
    ensures SingleSpaced(r)
    ensures |r| > 0 ==> !IsSpace(r[0]) && !IsSpace(r[|r| - 1])
  {
    var ws := Words(s);
    JoinWordsSingleSpaced(ws);
    JoinWith(ws, " ")
  }

  /** Collapsing keeps the words. */
  lemma {:induction false} WordsOfCollapse(s: string)
    ensures Words(Collapse(s)) == Words(s)
  {
    WordsOfJoin(Words(s));
  }

  /** Words joined by single spaces are already collapsed. */
  lemma {:induction false} CollapseOfJoin(ws: seq<string>)
    requires forall k | 0 <= k < |ws| :: |ws[k]| > 0 && Spaceless(ws[k])
    ensures Collapse(JoinWith(ws, " ")) == JoinWith(ws, " ")
  {
    WordsOfJoin(ws);
  }

  /** A single-spaced text with no space at either end is the join of its
      own words. */
  lemma {:induction false} JoinOfWords(s: string)
    requires SingleSpaced(s) && (|s| == 0 || (!IsSpace(s[0]) && !IsSpace(s[|s| - 1])))
    ensures JoinWith(Words(s), " ") == s
    decreases |s|
  {
    if |s| > 0 {
      var j := Span(s, 0, NotSpace);
      if j == |s| {
        WordsOfWord(s);
      } else {
        var t := WordsAfterFirst(s, j);
        JoinOfWords(t);
        WordsOfNonBlank(t, 0);
        JoinInFront(s[..j], Words(t));
      }
    }
  }

  /** A text without whitespace is one word. */
  lemma {:induction false} WordsOfWord(s: string)
    requires |s| > 0 && !IsSpace(s[0]) && Span(s, 0, NotSpace) == |s|
    ensures Words(s) == [s]
  {
    assert Words(s) == [s[..|s|]] + Words(s[|s|..]);
    assert s[|s|..] == [] && s[..|s|] == s;
    assert Words([]) == [];
  }

  /** In a single-spaced text the first word is followed by one space and
      the rest, which is again single-spaced with no space at either end. */
  lemma {:induction false} WordsAfterFirst(s: string, j: nat) returns (t: string)
    requires SingleSpaced(s) && |s| > 0 && !IsSpace(s[0]) && !IsSpace(s[|s| - 1])
    requires j == Span(s, 0, NotSpace) && j < |s|
    ensures j + 1 < |s| && s[j] == ' ' && t == s[j + 1..] && s == s[..j] + " " + t
    ensures Words(s) == [s[..j]] + Words(t)
    ensures SingleSpaced(t) && !IsSpace(t[0]) && !IsSpace(t[|t| - 1])
  {
    assert s[j] == ' ' && j + 1 < |s|;
    t := s[j + 1..];
    WordsAfterSpace(s, j);
    SingleSpacedAfter(s, j);
  }

  lemma {:induction false} WordsAfterSpace(s: string, j: nat)
    requires |s| > 0 && !IsSpace(s[0])
    requires j == Span(s, 0, NotSpace) && j + 1 < |s| && s[j] == ' '
    ensures s == s[..j] + " " + s[j + 1..]
    ensures Words(s) == [s[..j]] + Words(s[j + 1..])
  {
    assert Words(s) == [s[..j]] + Words(s[j..]);
    assert s[j..][0] == s[j] && s[j..][1..] == s[j + 1..];
  }

  lemma {:induction false} SingleSpacedAfter(s: string, j: nat)
    requires j + 1 < |s| && s[j] == ' '
    requires SingleSpaced(s) && !IsSpace(s[|s| - 1])
    ensures var t := s[j + 1..]; SingleSpaced(t) && !IsSpace(t[0]) && !IsSpace(t[|t| - 1])
  {
    var t := s[j + 1..];
    forall k | 0 <= k < |t| && IsSpace(t[k])
      ensures t[k] == ' ' && 0 < k < |t| - 1 && t[k - 1] != ' ' && t[k + 1] != ' '
    {
      assert t[k] == s[j + 1 + k];
    }
  }

  /** Joining a word in front of a non-empty list puts one separator
      between them. */
  lemma {:induction false} JoinInFront(w: string, ws: seq<string>)
    requires |ws| > 0
    ensures JoinWith([w] + ws, " ") == w + " " + JoinWith(ws, " ")
  {
    assert ([w] + ws)[1..] == ws;
  }

  /** Collapsing leaves an already collapsed text unchanged. */
  lemma {:induction false} CollapseOfSingleSpaced(s: string)
    requires SingleSpaced(s) && (|s| == 0 || (!IsSpace(s[0]) && !IsSpace(s[|s| - 1])))
    ensures Collapse(s) == s
  {
    JoinOfWords(s);
  }

  /** Collapsing is a normal form: collapsing twice is collapsing once. */
  lemma {:induction false} CollapseIdempotent(s: string)
    ensures Collapse(Collapse(s)) == Collapse(s)
  {
    WordsOfCollapse(s);
  }

  /** The test "is not `c`", shared by every use so that it is one term. */
  function NotChar(c: char): char -> bool {
    x => x != c
  }

  /** Python's `s.split(c)`: the pieces between occurrences of `c`, always at
      least one. */
  function SplitOn(s: string, c: char): (parts: seq<string>)
    ensures |parts| >= 1
    ensures forall k | 0 <= k < |parts| :: c !in parts[k]
    decreases |s|
  {
    var j := Span(s, 0, NotChar(c));
    if j == |s| then [s] else [s[..j]] + SplitOn(s[j + 1..], c)
  }

  /** Splitting on `c` and joining with `c` gives back the original text. */
  lemma {:induction false} JoinSplit(s: string, c: char)
    ensures JoinWith(SplitOn(s, c), [c]) == s
    decreases |s|
  {
    var j := Span(s, 0, NotChar(c));
    if j < |s| {
      JoinSplit(s[j + 1..], c);
      assert s == s[..j] + [c] + s[j + 1..];
    }
  }

  /** Joining pieces that do not contain `c` with `c` and splitting on `c`
      gives back the pieces. */
  lemma {:induction false} SplitJoin(parts: seq<string>, c: char)
    requires |parts| >= 1
    requires forall k | 0 <= k < |parts| :: c !in parts[k]
    ensures SplitOn(JoinWith(parts, [c]), c) == parts
    decreases |parts|
  {
    var p := parts[0];
    if |parts| == 1 {
      SplitOfPiece(p, c);
    } else {
      var t := JoinWith(parts[1..], [c]);
      assert JoinWith(parts, [c]) == p + [c] + t;
      SplitAfterPiece(p, t, c);
      SplitJoin(parts[1..], c);
    }
  }

  /** A text without `c` splits into itself. */
  lemma {:induction false} SplitOfPiece(p: string, c: char)
    requires c !in p
    ensures SplitOn(p, c) == [p]
  {
    forall k | 0 <= k < |p| ensures p[k] != c {
      assert p[k] in p;
    }
  }

  /** A piece without `c` followed by `c` splits off as the first part. */
  lemma {:induction false} SplitAfterPiece(p: string, t: string, c: char)
    requires c !in p
    ensures SplitOn(p + [c] + t, c) == [p] + SplitOn(t, c)
  {
    var s := p + [c] + t;
    forall k | 0 <= k < |p| ensures s[k] != c {
      assert s[k] == p[k] && p[k] in p;
    }
    assert s[|p|] == c;
    var j := Span(s, 0, NotChar(c));
    assert j == |p|;
    assert s[..j] == p;
    assert s[j + 1..] == t;
  }

  /** Python's `s.replace(pat, rep)`: left-to-right, non-overlapping. */
  function ReplaceAll(s: string, pat: string, rep: string): string
    requires |pat| > 0
    decreases |s|
  {
    if |s| < |pat| then s
    else if s[..|pat|] == pat then rep + ReplaceAll(s[|pat|..], pat, rep)
    else [s[0]] + ReplaceAll(s[1..], pat, rep)
  }

  /** Replacing a literal whose first character never occurs changes
      nothing. */
  lemma {:induction false} ReplaceAbsent(s: string, pat: string, rep: string)
    requires |pat| > 0 && pat[0] !in s
    ensures ReplaceAll(s, pat, rep) == s
    decreases |s|
  {
    if |s| >= |pat| {
      assert s[0] in s;
      assert s[..|pat|][0] == s[0];
      assert forall x | x in s[1..] :: x in s;
      ReplaceAbsent(s[1..], pat, rep);
    }
  }

  /** The characters of `s` that are not in `cs`, in order (a chain of
      `s.replace(x, '')` over single characters). */
  function Without(s: string, cs: set<char>): string
    decreases |s|
  {
    if |s| == 0 then ""
    else if s[0] in cs then Without(s[1..], cs)
    else [s[0]] + Without(s[1..], cs)
  }

  /** Deleting characters distributes over concatenation. */
  lemma {:induction false} WithoutConcat(a: string, b: string, cs: set<char>)
    ensures Without(a + b, cs) == Without(a, cs) + Without(b, cs)
    decreases |a|
  {
    if |a| == 0 {
      assert a + b == b;
    } else {
      assert (a + b)[0] == a[0];
      assert (a + b)[1..] == a[1..] + b;
      WithoutConcat(a[1..], b, cs);
    }
  }

  /** Deleting characters that do not occur changes nothing. */
  lemma {:induction false} WithoutAbsent(s: string, cs: set<char>)
    requires forall k | 0 <= k < |s| :: s[k] !in cs
    ensures Without(s, cs) == s
    decreases |s|
  {
    if |s| > 0 {
      WithoutAbsent(s[1..], cs);
    }
  }

  /** Deleting `cs` keeps exactly the other characters. */
  lemma {:induction false} WithoutKeeps(s: string, cs: set<char>)
    ensures forall c | c in Without(s, cs) :: c !in cs && c in s
    ensures forall c | c in s && c !in cs :: c in Without(s, cs)
    decreases |s|
  {
    if |s| > 0 {
      WithoutKeeps(s[1..], cs);
      assert forall c | c in s :: c == s[0] || c in s[1..];
    }
  }

  /** No-break space, zero-width space and narrow no-break space, which the
      crypto normalisers turn into ordinary spaces. */
  const OddSpaces: set<char> := {'\U{A0}', '\U{200B}', '\U{202F}'}

  /** `re.sub(r'[\xa0\u200b\u202f]', ' ', s)`. */
  function Respace(s: string): (r: string)
    ensures |r| == |s|
    ensures forall k | 0 <= k < |s| :: r[k] == (if s[k] in OddSpaces then ' ' else s[k])
    ensures forall c | c in r :: c !in OddSpaces
  {
    seq(|s|, k requires 0 <= k < |s| => if s[k] in OddSpaces then ' ' else s[k])
  }

  /** Python's `re.sub(r'\s+', ' ', s)`: every maximal whitespace run becomes
      one space. */
  function Squash(s: string): (r: string)
    ensures |r| == 0 <==> |s| == 0
    ensures |s| > 0 && !IsSpace(s[0]) ==> r[0] == s[0]
    ensures forall k | 0 <= k < |r| && IsSpace(r[k]) :: r[k] == ' ' && (k + 1 < |r| ==> !IsSpace(r[k + 1]))
    ensures forall c | c in r :: c == ' ' || (c in s && !IsSpace(c))
    decreases |s|
  {
    if |s| == 0 then ""
    else if IsSpace(s[0]) then
      var j := Span(s, 0, IsSpace);
      " " + Squash(s[j..])
    else [s[0]] + Squash(s[1..])
  }

  /** The crypto channels' space normaliser: `strip()`, then the odd spaces
      become spaces, then every whitespace run becomes one space. The words
      are those of the text once the odd spaces are spaces, and they are
      separated by single spaces. */
  function NormalizeSpaces(s: string): (r: string)
    ensures forall c | c in r :: c !in OddSpaces
    ensures forall k | 0 <= k < |r| && IsSpace(r[k]) :: r[k] == ' ' && (k + 1 < |r| ==> r[k + 1] != ' ')
    ensures Keep(r, NotSpace) == Keep(s, Ink)
    ensures Words(r) == Words(Respace(s))
  {
    var a := Respace(Strip(s));
    SquashedOdd(a);
    SquashedKeep(s);
    SquashedWords(s);
    Squash(a)
  }

  /** Squashing adds no odd space to a respaced text. */
  lemma {:induction false} SquashedOdd(a: string)
    requires forall c | c in a :: c !in OddSpaces
    ensures forall c | c in Squash(a) :: c !in OddSpaces
  {
    var b := Squash(a);
    forall c | c in b ensures c !in OddSpaces {
      if c != ' ' {
        var k :| 0 <= k < |a| && a[k] == c;
      }
    }
  }

  /** The visible characters survive the three steps of the normaliser. */
  lemma {:induction false} SquashedKeep(s: string)
    ensures Keep(Squash(Respace(Strip(s))), NotSpace) == Keep(s, Ink)
  {
    var a := Respace(Strip(s));
    assert Visible(Ink) && Visible(NotSpace);
    StripKeeps(s, Ink);
    RespaceKeeps(Strip(s));
    SquashKeeps(a, NotSpace);
  }

  /** The words survive the three steps of the normaliser. */
  lemma {:induction false} SquashedWords(s: string)
    ensures Words(Squash(Respace(Strip(s)))) == Words(Respace(s))
  {
    WordsOfSquash(Respace(Strip(s)));
    WordsOfRespacedStrip(s);
  }

  // ------------------------------------------------- what survives

  /** The characters of `s` that satisfy `p`, in order. */
  function Keep(s: string, p: char -> bool): (r: string)
    ensures forall c | c in r :: p(c) && c in s
    decreases |s|
  {
    if |s| == 0 then ""
    else if p(s[0]) then [s[0]] + Keep(s[1..], p)
    else Keep(s[1..], p)
  }

  /** The visible characters: neither whitespace nor one of the odd spaces
      (U+200B is the one odd space that is not whitespace). */
  predicate Ink(c: char) { NotSpace(c) && c !in OddSpaces }

  lemma {:induction false} KeepConcat(a: string, b: string, p: char -> bool)
    ensures Keep(a + b, p) == Keep(a, p) + Keep(b, p)
    decreases |a|
  {
    if |a| > 0 {
      assert (a + b)[0] == a[0] && (a + b)[1..] == a[1..] + b;
      KeepConcat(a[1..], b, p);
    } else {
      assert a + b == b;
    }
  }

  /** `p` keeps no whitespace. */
  predicate Visible(p: char -> bool) {
    forall c :: p(c) ==> NotSpace(c)
  }

  /** A visible filter keeps nothing of a whitespace run. */
  lemma {:induction false} KeepNone(s: string, p: char -> bool)
    requires Visible(p)
    requires forall k | 0 <= k < |s| :: IsSpace(s[k])
    ensures Keep(s, p) == ""
    decreases |s|
  {
    if |s| > 0 {
      KeepNone(s[1..], p);
    }
  }

  /** Two texts that agree on which positions are kept, and on the kept
      characters, keep the same text. */
  lemma {:induction false} KeepPointwise(x: string, y: string, p: char -> bool, q: char -> bool)
    requires |x| == |y|
    requires forall k | 0 <= k < |x| :: (p(x[k]) <==> q(y[k])) && (p(x[k]) ==> x[k] == y[k])
    ensures Keep(x, p) == Keep(y, q)
    decreases |x|
  {
    if |x| > 0 {
      KeepPointwise(x[1..], y[1..], p, q);
    }
  }

  /** Keeping by `p` and then by `q` keeps by `pq`, their conjunction. */
  lemma {:induction false} KeepKeep(s: string, p: char -> bool, q: char -> bool, pq: char -> bool)
    requires forall k | 0 <= k < |s| :: pq(s[k]) == (p(s[k]) && q(s[k]))
    ensures Keep(Keep(s, p), q) == Keep(s, pq)
    decreases |s|
  {
    if |s| > 0 {
      KeepKeep(s[1..], p, q, pq);
      if p(s[0]) {
        assert ([s[0]] + Keep(s[1..], p))[1..] == Keep(s[1..], p);
      }
    }
  }

  /** Deleting the characters of `cs` keeps those outside it. */
  lemma {:induction false} WithoutIsKeep(s: string, cs: set<char>, q: char -> bool)
    requires forall k | 0 <= k < |s| :: q(s[k]) == (s[k] !in cs)
    ensures Without(s, cs) == Keep(s, q)
    decreases |s|
  {
    if |s| > 0 {
      WithoutIsKeep(s[1..], cs, q);
    }
  }

  /** `strip()` removes only whitespace, so whatever `p` keeps survives. */
  lemma {:induction false} StripKeeps(s: string, p: char -> bool)
    requires Visible(p)
    ensures Keep(Strip(s), p) == Keep(s, p)
  {
    var l := TrimLeft(s);
    TrimLeftKeeps(s, p);
    TrimRightKeeps(l, p);
  }

  lemma {:induction false} TrimLeftKeeps(s: string, p: char -> bool)
    requires Visible(p)
    ensures Keep(TrimLeft(s), p) == Keep(s, p)
  {
    var l := TrimLeft(s);
    var b := s[..|s| - |l|];
    assert s == b + l;
    KeepBlank(b, p);
    KeepConcat(b, l, p);
  }

  lemma {:induction false} TrimRightKeeps(s: string, p: char -> bool)
    requires Visible(p)
    ensures Keep(TrimRight(s), p) == Keep(s, p)
  {
    var r := TrimRight(s);
    var b := s[|r|..];
    assert s == r + b;
    KeepBlank(b, p);
    KeepConcat(r, b, p);
  }

  /** A visible filter keeps nothing of whitespace. */
  lemma {:induction false} KeepBlank(b: string, p: char -> bool)
    requires Visible(p) && Blank(b)
    ensures Keep(b, p) == ""
    decreases |b|
  {
    if |b| > 0 {
      KeepBlank(b[1..], p);
    }
  }

  /** Turning the odd spaces into spaces leaves the visible characters. */
  lemma {:induction false} RespaceKeeps(s: string)
    ensures Keep(Respace(s), NotSpace) == Keep(s, Ink)
  {
    KeepPointwise(Respace(s), s, NotSpace, Ink);
  }

  /** Squashing whitespace runs removes only whitespace. */
  lemma {:induction false} SquashKeeps(s: string, p: char -> bool)
    requires Visible(p)
    ensures Keep(Squash(s), p) == Keep(s, p)
    decreases |s|
  {
    if |s| > 0 {
      if IsSpace(s[0]) {
        var j := Span(s, 0, IsSpace);
        var t := s[j..];
        assert s == s[..j] + t;
        KeepConcat(s[..j], t, p);
        KeepNone(s[..j], p);
        SquashKeeps(t, p);
        var x := Squash(t);
        assert (" " + x)[1..] == x;
      } else {
        SquashKeeps(s[1..], p);
        var x := Squash(s[1..]);
        assert ([s[0]] + x)[1..] == x;
      }
    }
  }

  // ------------------------------------------------- facts about the pieces

  /** A text with a non-space character has at least one word. */
  lemma {:induction false} WordsOfNonBlank(s: string, k: nat)
    requires k < |s| && !IsSpace(s[k])
    ensures |Words(s)| > 0
    decreases |s|
  {
    if IsSpace(s[0]) {
      WordsOfNonBlank(s[1..], k - 1);
    }
  }

  /** Stripping keeps every non-space character, so a text with one stays
      non-empty. */
  lemma {:induction false} StripOfNonBlank(s: string, k: nat)
    requires k < |s| && !IsSpace(s[k])
    ensures |Strip(s)| > 0
  {
    var x, y := StripBounds(s);
    if k < x {
      SpaceBefore(s, x, k);
      assert false;
    }
    if y <= k {
      SpaceFrom(s, y, k);
      assert false;
    }
  }

  /** A collapsed text with a non-space character is non-empty, so both its
      ends are non-space. */
  lemma {:induction false} CollapseOfNonBlank(s: string, k: nat)
    requires k < |s| && !IsSpace(s[k])
    ensures |Collapse(s)| > 0
  {
    WordsOfNonBlank(s, k);
    assert Words("") == [];
  }

  /** A single-spaced text holds no whitespace other than ' '. */
  lemma {:induction false} SingleSpacedAvoids(r: string, c: char)
    requires SingleSpaced(r) && IsSpace(c) && c != ' '
    ensures c !in r
  {
    forall k | 0 <= k < |r| ensures r[k] != c {
    }
  }

  /** A literal one of whose characters is missing from `s` is not in `s`. */
  lemma {:induction false} AbsentChar(s: string, p: string, k: nat)
    requires k < |p| && p[k] !in s
    ensures !Contains(s, p)
  {
    forall i | 0 <= i <= |s| - |p| ensures !StartsAt(s, i, p) {
      assert s[i + k] in s;
    }
  }

  lemma {:induction false} JoinFirst(parts: seq<string>, sep: string)
    requires |parts| > 0 && |parts[0]| > 0
    ensures |JoinWith(parts, sep)| > 0 && JoinWith(parts, sep)[0] == parts[0][0]
  {
  }

  lemma {:induction false} JoinLast(parts: seq<string>, sep: string)
    requires |parts| > 0 && |parts[|parts| - 1]| > 0
    ensures var j := JoinWith(parts, sep); var w := parts[|parts| - 1];
      |j| > 0 && j[|j| - 1] == w[|w| - 1]
    decreases |parts|
  {
    if |parts| > 1 {
      JoinLast(parts[1..], sep);
      assert parts[1..][|parts| - 2] == parts[|parts| - 1];
    }
  }

  /** A character in no part and not in the separator is not in the join. */
  lemma {:induction false} JoinAvoids(parts: seq<string>, sep: string, c: char)
    requires forall k | 0 <= k < |parts| :: c !in parts[k]
    requires c !in sep
    ensures c !in JoinWith(parts, sep)
    decreases |parts|
  {
    if |parts| > 1 {
      JoinAvoids(parts[1..], sep, c);
    }
  }

  lemma {:induction false} SplitFirst(s: string, c: char)
    requires |s| > 0 && s[0] != c
    ensures |SplitOn(s, c)[0]| > 0 && SplitOn(s, c)[0][0] == s[0]
  {
  }

  lemma {:induction false} SplitLast(s: string, c: char)
    requires |s| > 0 && s[|s| - 1] != c
    ensures var ps := SplitOn(s, c); var w := ps[|ps| - 1];
      |w| > 0 && w[|w| - 1] == s[|s| - 1]
    decreases |s|
  {
    var j := Span(s, 0, NotChar(c));
    if j < |s| {
      var t := s[j + 1..];
      assert |t| > 0 && t[|t| - 1] == s[|s| - 1];
      SplitLast(t, c);
      SplitStep(s, c, j);
      LastOfCons(s[..j], SplitOn(t, c));
    }
  }

  /** Splitting past the first occurrence of `c`. */
  lemma {:induction false} SplitStep(s: string, c: char, j: nat)
    requires j == Span(s, 0, NotChar(c)) && j < |s|
    ensures SplitOn(s, c) == [s[..j]] + SplitOn(s[j + 1..], c)
  {
  }

  lemma {:induction false} LastOfCons<T>(x: T, rest: seq<T>)
    requires |rest| > 0
    ensures ([x] + rest)[|rest|] == rest[|rest| - 1]
  {
  }

  /** A trailing whitespace character does not end a run early. */
  lemma {:induction false} SpanOfTrailingSpace(s: string, i: nat, c: char)
    requires i <= |s| && IsSpace(c)
    ensures Span(s + [c], i, NotSpace) == Span(s, i, NotSpace)
    decreases |s| - i
  {
    if i < |s| && NotSpace(s[i]) {
      assert (s + [c])[i] == s[i];
      SpanOfTrailingSpace(s, i + 1, c);
    }
  }

  /** A trailing whitespace character adds no word. */
  lemma {:induction false} WordsOfTrailingSpace(s: string, c: char)
    requires IsSpace(c)
    ensures Words(s + [c]) == Words(s)
    decreases |s|
  {
    var t := s + [c];
    if |s| == 0 {
      assert Words(t) == Words(t[1..]) && t[1..] == [];
    } else if IsSpace(s[0]) {
      assert t[1..] == s[1..] + [c];
      WordsOfTrailingSpace(s[1..], c);
    } else {
      var j := Span(s, 0, NotSpace);
      SpanOfTrailingSpace(s, 0, c);
      assert t[..j] == s[..j] && t[j..] == s[j..] + [c];
      WordsOfTrailingSpace(s[j..], c);
    }
  }

  /** Python's `split()` ignores the ends, so stripping first changes
      nothing. */
  lemma {:induction false} WordsOfStrip(s: string)
    ensures Words(Strip(s)) == Words(s)
  {
    WordsOfTrimLeft(s);
    WordsOfTrimRight(TrimLeft(s));
  }

  lemma {:induction false} WordsOfTrimLeft(s: string)
    ensures Words(TrimLeft(s)) == Words(s)
    decreases |s|
  {
    if |s| > 0 && IsSpace(s[0]) {
      WordsOfTrimLeft(s[1..]);
    }
  }

  lemma {:induction false} WordsOfTrimRight(s: string)
    ensures Words(TrimRight(s)) == Words(s)
    decreases |s|
  {
    if |s| > 0 && IsSpace(s[|s| - 1]) {
      var init := s[..|s| - 1];
      assert s == init + [s[|s| - 1]];
      WordsOfTrailingSpace(init, s[|s| - 1]);
      WordsOfTrimRight(init);
    }
  }

  /** `' '.join(s.strip().split())` is `' '.join(s.split())`. */
  lemma {:induction false} CollapseOfStrip(s: string)
    ensures Collapse(Strip(s)) == Collapse(s)
  {
    WordsOfStrip(s);
  }

  // ------------------------------------------------- words of the normalisers

  /** Without a zero-width space, which `strip()` keeps but the normaliser
      turns into a space, normalising is `' '.join(s.split())` of the
      respaced text. */
  lemma {:induction false} NormalizeSpacesIsCollapse(s: string)
    requires '\U{200B}' !in s
    ensures NormalizeSpaces(s) == Collapse(Respace(s))
  {
    var a := Respace(Strip(s));
    RespacedStripEnds(s);
    if |a| > 0 {
      SquashLast(a);
    }
    SquashSingleSpaced(a);
    JoinOfWords(Squash(a));
  }

  /** Without a zero-width space, the stripped and respaced text has no
      whitespace at its ends. */
  lemma {:induction false} RespacedStripEnds(s: string)
    requires '\U{200B}' !in s
    ensures var a := Respace(Strip(s)); |a| == 0 || (!IsSpace(a[0]) && !IsSpace(a[|a| - 1]))
  {
    var t := Strip(s);
    var a := Respace(t);
    if |t| > 0 {
      StripEndsIn(s);
      InkNotOdd(t[0]);
      InkNotOdd(t[|t| - 1]);
      assert a[0] == t[0] && a[|a| - 1] == t[|t| - 1];
    }
  }

  /** A non-whitespace character other than the zero-width space is not
      turned into a space. */
  lemma {:induction false} InkNotOdd(c: char)
    requires !IsSpace(c) && c != '\U{200B}'
    ensures c !in OddSpaces
  {
  }

  /** The end characters of `strip()` come from the text. */
  lemma {:induction false} StripEndsIn(s: string)
    ensures var t := Strip(s); |t| == 0 || (t[0] in s && t[|t| - 1] in s)
  {
    var t := Strip(s);
    if |t| > 0 {
      var x, y := StripBounds(s);
      SliceEnds(s, x, y);
    }
  }

  /** A text ending in a non-space character squashes to one ending in the
      same character. */
  lemma {:induction false} SquashLast(s: string)
    requires |s| > 0 && !IsSpace(s[|s| - 1])
    ensures |Squash(s)| > 0 && Squash(s)[|Squash(s)| - 1] == s[|s| - 1]
    decreases |s|
  {
    if IsSpace(s[0]) {
      var j := Span(s, 0, IsSpace);
      assert j < |s|;
      SquashLast(s[j..]);
      SquashSpaceLast(s, j);
    } else if |s| > 1 {
      SquashLast(s[1..]);
      SquashInkLast(s);
    }
  }

  /** The step of `SquashLast` at a leading whitespace run. */
  lemma {:induction false} SquashSpaceLast(s: string, j: nat)
    requires |s| > 0 && IsSpace(s[0]) && j == Span(s, 0, IsSpace) && j < |s|
    requires |Squash(s[j..])| > 0 && Squash(s[j..])[|Squash(s[j..])| - 1] == s[|s| - 1]
    ensures |Squash(s)| > 0 && Squash(s)[|Squash(s)| - 1] == s[|s| - 1]
  {
    LastOfConcat(" ", Squash(s[j..]));
  }

  /** The step of `SquashLast` at a leading non-space character. */
  lemma {:induction false} SquashInkLast(s: string)
    requires |s| > 1 && !IsSpace(s[0])
    requires |Squash(s[1..])| > 0 && Squash(s[1..])[|Squash(s[1..])| - 1] == s[|s| - 1]
    ensures |Squash(s)| > 0 && Squash(s)[|Squash(s)| - 1] == s[|s| - 1]
  {
    LastOfConcat([s[0]], Squash(s[1..]));
  }

  /** The last element of a concatenation with a non-empty tail. */
  lemma {:induction false} LastOfConcat<T>(p: seq<T>, t: seq<T>)
    requires |t| > 0
    ensures |p + t| > 0 && (p + t)[|p + t| - 1] == t[|t| - 1]
  {
  }

  /** Squashing a text with non-space ends leaves single spaces between
      non-space ends. */
  lemma {:induction false} SquashSingleSpaced(a: string)
    requires |a| == 0 || (!IsSpace(a[0]) && !IsSpace(a[|a| - 1]))
    requires |a| == 0 || Squash(a)[|Squash(a)| - 1] == a[|a| - 1]
    ensures var q := Squash(a); SingleSpaced(q) && (|q| == 0 || (!IsSpace(q[0]) && !IsSpace(q[|q| - 1])))
  {
    var q := Squash(a);
    forall k | 0 <= k < |q| && IsSpace(q[k])
      ensures q[k] == ' ' && 0 < k < |q| - 1 && q[k - 1] != ' ' && q[k + 1] != ' '
    {
    }
  }

  /** The words after stripping and respacing are those after respacing
      alone. */
  lemma {:induction false} WordsOfRespacedStrip(s: string)
    ensures Words(Respace(Strip(s))) == Words(Respace(s))
  {
    var p, q := StripFrame(s);
    WordsOfRespacedFrame(p, Strip(s), q);
  }

  /** The text is `strip()` with whitespace before and after it. */
  lemma {:induction false} StripFrame(s: string) returns (p: string, q: string)
    ensures Blank(p) && Blank(q) && s == p + Strip(s) + q
  {
    var x, y := StripBounds(s);
    SliceSplit(s, x, y);
    p, q := s[..x], s[y..];
  }

  /** A text is its prefix, a middle slice and its suffix. */
  lemma {:induction false} SliceSplit<T>(s: seq<T>, x: nat, y: nat)
    requires x <= y <= |s|
    ensures s == s[..x] + s[x..y] + s[y..]
  {
  }

  /** Whitespace around a text adds no word once respaced. */
  lemma {:induction false} WordsOfRespacedFrame(p: string, m: string, q: string)
    requires Blank(p) && Blank(q)
    ensures Words(Respace(p + m + q)) == Words(Respace(m))
  {
    RespaceConcat(p + m, q);
    RespaceConcat(p, m);
    RespaceBlank(p);
    RespaceBlank(q);
    var x, y, z := Respace(p), Respace(m), Respace(q);
    assert Respace(p + m + q) == x + (y + z);
    WordsOfLeadingBlank(x, y + z);
    WordsOfTrailingBlank(y, z);
  }

  /** Squashing whitespace runs keeps the words. */
  lemma {:induction false} WordsOfSquash(s: string)
    ensures Words(Squash(s)) == Words(s)
    decreases |s|
  {
    if |s| > 0 {
      WordsOfSquash(s[1..]);
      if IsSpace(s[0]) {
        WordsOfSquashSpace(s);
      } else {
        WordsOfSquashInk(s);
      }
    }
  }

  /** The step of `WordsOfSquash` at a leading whitespace character. */
  lemma {:induction false} WordsOfSquashSpace(s: string)
    requires |s| > 0 && IsSpace(s[0])
    requires Words(Squash(s[1..])) == Words(s[1..])
    ensures Words(Squash(s)) == Words(s)
  {
    var y := Squash(s[1..]);
    SquashSpaceStep(s);
    assert (" " + y)[1..] == y;
  }

  /** The step of `WordsOfSquash` at a leading non-space character. */
  lemma {:induction false} WordsOfSquashInk(s: string)
    requires |s| > 0 && !IsSpace(s[0])
    requires Words(Squash(s[1..])) == Words(s[1..])
    ensures Words(Squash(s)) == Words(s)
  {
    var t := s[1..];
    assert s == [s[0]] + t;
    WordsCons(s[0], t);
    WordsCons(s[0], Squash(t));
  }

  /** A whitespace character followed by more whitespace squashes away;
      one followed by anything else becomes a single space. */
  lemma {:induction false} SquashSpaceStep(s: string)
    requires |s| > 0 && IsSpace(s[0])
    ensures |s| > 1 && IsSpace(s[1]) ==> Squash(s) == Squash(s[1..])
    ensures |s| == 1 || !IsSpace(s[1]) ==> Squash(s) == " " + Squash(s[1..])
  {
    var j := Span(s, 0, IsSpace);
    if |s| > 1 && IsSpace(s[1]) {
      var t := s[1..];
      SpanFrom(s, 1, IsSpace);
      assert t[Span(t, 0, IsSpace)..] == s[j..];
    } else {
      assert j == 1;
    }
  }

  /** A scan from `i` over a text is the scan from `i - 1` over its tail,
      shifted by one. */
  lemma {:induction false} SpanFrom(s: string, i: nat, p: char -> bool)
    requires 1 <= i <= |s|
    ensures Span(s, i, p) == 1 + Span(s[1..], i - 1, p)
    decreases |s| - i
  {
    if i < |s| {
      assert s[1..][i - 1] == s[i];
      if p(s[i]) {
        SpanFrom(s, i + 1, p);
      }
    }
  }

  /** A non-space character put in front of a text joins its first word,
      or is a word of its own when the text is empty or starts with
      whitespace. */
  lemma {:induction false} WordsCons(c: char, t: string)
    requires !IsSpace(c)
    ensures |t| == 0 || IsSpace(t[0]) ==> Words([c] + t) == [[c]] + Words(t)
    ensures |t| > 0 && !IsSpace(t[0]) ==>
      |Words(t)| > 0 && Words([c] + t) == [[c] + Words(t)[0]] + Words(t)[1..]
  {
    var x := [c] + t;
    assert x[0] == c && x[1..] == t;
    SpanFrom(x, 1, NotSpace);
    var j := Span(t, 0, NotSpace);
    assert x[..j + 1] == [c] + t[..j];
    assert x[j + 1..] == t[j..];
  }

  /** Leading whitespace adds no word. */
  lemma {:induction false} WordsOfLeadingBlank(b: string, t: string)
    requires Blank(b)
    ensures Words(b + t) == Words(t)
    decreases |b|
  {
    if |b| > 0 {
      assert IsSpace(b[0]) && Blank(b[1..]);
      assert (b + t)[0] == b[0] && (b + t)[1..] == b[1..] + t;
      WordsOfLeadingBlank(b[1..], t);
    } else {
      assert b + t == t;
    }
  }

  /** Trailing whitespace adds no word. */
  lemma {:induction false} WordsOfTrailingBlank(s: string, b: string)
    requires Blank(b)
    ensures Words(s + b) == Words(s)
    decreases |b|
  {
    if |b| > 0 {
      assert IsSpace(b[0]) && Blank(b[1..]);
      assert s + b == (s + [b[0]]) + b[1..];
      WordsOfTrailingBlank(s + [b[0]], b[1..]);
      WordsOfTrailingSpace(s, b[0]);
    } else {
      assert s + b == s;
    }
  }

  /** Turning the odd spaces into spaces commutes with concatenation. */
  lemma {:induction false} RespaceConcat(a: string, b: string)
    ensures Respace(a + b) == Respace(a) + Respace(b)
  {
    var l, r := Respace(a + b), Respace(a) + Respace(b);
    forall k | 0 <= k < |l| ensures l[k] == r[k] {
      if k < |a| {
        assert (a + b)[k] == a[k];
      } else {
        assert (a + b)[k] == b[k - |a|];
      }
    }
  }

  /** Whitespace stays whitespace when the odd spaces become spaces. */
  lemma {:induction false} RespaceBlank(s: string)
    requires Blank(s)
    ensures Blank(Respace(s))
  {
    BlankIff(s);
    BlankIff(Respace(s));
  }

  /** `s[a..b]` has only whitespace outside it and none at its ends. */
  predicate Framed(s: string, a: nat, b: nat) {
    a <= b <= |s| && Blank(s[..a]) && Blank(s[b..])
    && (a == b || (!IsSpace(s[a]) && !IsSpace(s[b - 1])))
  }

  /** `strip()` is the one slice with only whitespace outside it and no
      whitespace at its ends. */
  lemma {:induction false} StripUnique(s: string, a: nat, b: nat)
    requires a <= b <= |s| && Blank(s[..a]) && Blank(s[b..])
    requires a == b || (!IsSpace(s[a]) && !IsSpace(s[b - 1]))
    ensures Strip(s) == s[a..b]
  {
    var x, y := StripFramed(s);
    FramedUnique(s, a, b, x, y);
  }

  /** The bounds of `strip()` frame it. */
  lemma {:induction false} StripFramed(s: string) returns (x: nat, y: nat)
    ensures Framed(s, x, y) && Strip(s) == s[x..y]
  {
    x, y := StripBounds(s);
    if x < y {
      SliceEnds(s, x, y);
    }
  }

  /** Two framings of one text pick out the same slice. */
  lemma {:induction false} FramedUnique(s: string, a: nat, b: nat, x: nat, y: nat)
    requires Framed(s, a, b) && Framed(s, x, y)
    ensures s[a..b] == s[x..y]
  {
    if a < b {
      if a < x {
        SpaceBefore(s, x, a);
        assert false;
      }
      if y <= b - 1 {
        SpaceFrom(s, y, b - 1);
        assert false;
      }
    }
    if x < y {
      if x < a {
        SpaceBefore(s, a, x);
        assert false;
      }
      if b < y {
        SpaceFrom(s, b, y - 1);
        assert false;
      }
    }
  }

  /** Inside a blank prefix every character is whitespace. */
  lemma {:induction false} SpaceBefore(s: string, a: nat, k: nat)
    requires k < a <= |s| && Blank(s[..a])
    ensures IsSpace(s[k])
  {
    BlankAt(s[..a], k);
  }

  /** Inside a blank suffix every character is whitespace. */
  lemma {:induction false} SpaceFrom(s: string, b: nat, k: nat)
    requires b <= k < |s| && Blank(s[b..])
    ensures IsSpace(s[k])
  {
    BlankAt(s[b..], k - b);
  }

  /** The ends of a non-empty slice are characters of the whole. */
  lemma {:induction false} SliceEnds<T>(s: seq<T>, x: nat, y: nat)
    requires x < y <= |s|
    ensures s[x..y][0] == s[x] && s[x..y][y - x - 1] == s[y - 1]
    ensures s[x] in s && s[y - 1] in s
  {
  }
}

=== FILE: vip_crypto.dfy ===
/** The VIP crypto channel's classifier (`VipCryptoClassifier`): a TP-hit
    pattern, then an entry pattern, else OTHER, on space-normalised text, with
    `None`-valued keys dropped from the result. */
module VipCrypto {
  import opened Wrappers
  import opened Text
  import opened Numbers
  import opened Scan
  import opened Signals

  /** The groups of the TP-hit pattern: pair, target number, profit percent. */
  datatype TpHitGroups = TpHitGroups(pair: string, level: nat, profit: nat)

  /** The groups of the entry pattern, as captured text. */
  datatype EntryGroups = EntryGroups(side: string, pair: string, marginInfo: string, entry: string, targets: string)

  /** The two multi-line patterns kept opaque (`re.search` of each). */
  datatype Patterns = Patterns(
    tpHit: string -> Option<TpHitGroups>,
    entry: string -> Option<EntryGroups>)

  /** `_normalize_text`. */
  function Normalize(s: string): (r: string)
    ensures forall c | c in r :: c !in OddSpaces
    ensures forall k | 0 <= k < |r| && IsSpace(r[k]) :: r[k] == ' ' && (k + 1 < |r| ==> r[k + 1] != ' ')
    ensures Keep(r, NotSpace) == Keep(s, Ink)
    ensures Words(r) == Words(Respace(s))
  {
    NormalizeSpaces(s)
  }

  /** `strip()` runs before the odd spaces are replaced, so a zero-width space
      (which `strip()` keeps) at the front turns into a leading space. */
  lemma {:induction false} LeadingZeroWidthSpace()
    ensures Normalize("\U{200B}A") == " A"
  {
    var s := "\U{200B}A";
    assert !IsSpace(s[0]) && !IsSpace(s[1]);
    assert Strip(s) == s;
    assert Respace(s) == " A";
    var t := " A";
    assert Span(t, 1, IsSpace) == 1;
    assert Span(t, 0, IsSpace) == 1;
    assert t[1..] == "A" && "A"[1..] == "";
    assert Squash("A") == "A";
  }

  /** `\((\d+)X\)` at `p`, ignoring case. */
  function LeverageAt(s: string, p: nat): (r: Option<nat>)
    ensures r.Some? ==> p < |s| && s[p] == '('
  {
    if p >= |s| || s[p] != '(' then None
    else
      match DigitsAt(s, p + 1)
      case None => None
      case Some(h) =>
        if h.end + 1 < |s| && (s[h.end] == 'x' || s[h.end] == 'X') && s[h.end + 1] == ')' then Some(h.value)
        else None
  }

  /** The leverage of a margin description such as "Cross (75X)", else 1. */
  function Leverage(marginInfo: string): (r: nat)
    ensures '(' !in marginInfo ==> r == 1
  {
    var at := (p: nat) => LeverageAt(marginInfo, p);
    assert forall p: nat :: at(p) == LeverageAt(marginInfo, p);
    var found := Search(|marginInfo|, at);
    if found.Some? then
      assert '(' in marginInfo by {
        var p :| 0 <= p < |marginInfo| && at(p) == found;
      }
      found.value
    else 1
  }

  /** `\d+\)\s*([\d.]+)` at `p`: the end of the match and `float()` of the
      capture, `None` where `float()` raises. */
  function TargetAt(s: string, p: nat): (r: Option<Hit<Option<Decimal>>>)
    ensures r.Some? ==> p < r.value.end <= |s|
    ensures r.Some? ==> ')' in s
  {
    if p >= |s| || !IsDigit(s[p]) then None
    else
      var e := Span(s, p, IsDigit);
      if e == |s| || s[e] != ')' then None
      else
        var b := Span(s, e + 1, IsSpace);
        var f := Span(s, b, DigitOrDot);
        if f == b then None
        else
          Some(Hit(f, ParseDecimal(s[b..f])))
  }

  /** The values held by the `Some`s of `xs`, in order. */
  function Somes<T>(xs: seq<Option<T>>): (r: seq<T>)
    ensures |r| <= |xs|
    decreases |xs|
  {
    if |xs| == 0 then []
    else if xs[0].Some? then [xs[0].value] + Somes(xs[1..])
    else Somes(xs[1..])
  }

  lemma {:induction false} SomesMembers<T>(xs: seq<Option<T>>, x: T)
    ensures x in Somes(xs) <==> Some(x) in xs
    decreases |xs|
  {
    if |xs| > 0 {
      SomesMembers(xs[1..], x);
      assert xs == [xs[0]] + xs[1..];
    }
  }

  /** `_extract_targets`: the prices of the `n) price` items in order, items
      whose capture `float()` rejects being skipped. */
  function Targets(s: string): (r: seq<Decimal>)
    ensures ')' !in s ==> r == []
  {
    Somes(TargetMatches(s))
  }

  /** `re.findall` of the target pattern: one entry per item, `None` for an
      item `float()` rejects. */
  function TargetMatches(s: string): (r: seq<Option<Decimal>>)
    ensures ')' !in s ==> r == []
  {
    assert forall p: nat :: TargetsIn(s)(p) == TargetAt(s, p);
    FindAll(|s|, TargetsIn(s), 0)
  }

  /** The item pattern tried at every position of `s`. */
  function TargetsIn(s: string): nat -> Option<Hit<Option<Decimal>>> {
    (p: nat) => TargetAt(s, p)
  }

  /** A target is exactly a value `float()` accepted. */
  lemma {:induction false} TargetsAreParsed(s: string, d: Decimal)
    ensures d in Targets(s) <==> Some(d) in TargetMatches(s)
  {
    SomesMembers(TargetMatches(s), d);
  }

  /** Every item `float()` rejects is skipped without disturbing the
      others: the targets are those of the matches with that item removed,
      in the same order. */
  lemma {:induction false} UnparsableItemSkipped(s: string, k: nat)
    requires k < |TargetMatches(s)| && TargetMatches(s)[k].None?
    ensures var ms := TargetMatches(s);
      Targets(s) == Somes(ms[..k]) + Somes(ms[k + 1..])
  {
    SomesSkipsNone(TargetMatches(s), k);
  }

  lemma {:induction false} SomesSkipsNone<T>(xs: seq<Option<T>>, k: nat)
    requires k < |xs| && xs[k].None?
    ensures Somes(xs) == Somes(xs[..k]) + Somes(xs[k + 1..])
  {
    assert xs == xs[..k] + [xs[k]] + xs[k + 1..];
    SomesConcat(xs[..k] + [xs[k]], xs[k + 1..]);
    SomesConcat(xs[..k], [xs[k]]);
    assert Somes([xs[k]]) == [];
  }

  lemma {:induction false} SomesConcat<T>(xs: seq<Option<T>>, ys: seq<Option<T>>)
    ensures Somes(xs + ys) == Somes(xs) + Somes(ys)
    decreases |xs|
  {
    if |xs| == 0 {
      assert xs + ys == ys;
    } else {
      assert (xs + ys)[0] == xs[0];
      assert (xs + ys)[1..] == xs[1..] + ys;
      SomesConcat(xs[1..], ys);
    }
  }

  /** An item whose capture is only a dot is skipped and the next one kept. */
  lemma {:induction false} UnparsableTargetSkipped()
    ensures TargetMatches("1) . 2) 3") == [None, Some(Decimal(3, 0))]
    ensures Targets("1) . 2) 3") == [Decimal(3, 0)]
  {
    DotSampleMatches();
    assert Somes([None, Some(Decimal(3, 0))]) == [Decimal(3, 0)] by {
      assert [None, Some(Decimal(3, 0))][1..] == [Some(Decimal(3, 0))];
    }
  }

  lemma {:induction false} DotSampleMatches()
    ensures TargetMatches("1) . 2) 3") == [None, Some(Decimal(3, 0))]
  {
    DotSampleHead();
    DotSampleTail();
  }

  /** The dot item is the first match and yields `None`. */
  lemma {:induction false} DotSampleHead()
    ensures FindAll(9, TargetsIn("1) . 2) 3"), 0) == [None] + FindAll(9, TargetsIn("1) . 2) 3"), 4)
  {
    var at := TargetsIn("1) . 2) 3");
    DotItem();
    assert FirstMatch(9, at, 0) == Some(0);
  }

  /** After the dot item, the only match left is the digit item. */
  lemma {:induction false} DotSampleTail()
    ensures FindAll(9, TargetsIn("1) . 2) 3"), 4) == [Some(Decimal(3, 0))]
  {
    var at := TargetsIn("1) . 2) 3");
    DigitItem();
    assert at(4).None?;
    assert FirstMatch(9, at, 4) == Some(5);
    assert FindAll(9, at, 9) == [];
  }

  lemma {:induction false} DotItem()
    ensures TargetAt("1) . 2) 3", 0) == Some(Hit(4, None))
  {
    var s := "1) . 2) 3";
    assert Span(s, 1, IsDigit) == 1;
    assert Span(s, 0, IsDigit) == 1;
    assert Span(s, 3, IsSpace) == 3;
    assert Span(s, 2, IsSpace) == 3;
    assert Span(s, 4, DigitOrDot) == 4;
    assert Span(s, 3, DigitOrDot) == 4;
    assert s[3..4] == ".";
    assert !DecimalText(".");
  }

  lemma {:induction false} DigitItem()
    ensures TargetAt("1) . 2) 3", 5) == Some(Hit(9, Some(Decimal(3, 0))))
  {
    var s := "1) . 2) 3";
    assert Span(s, 6, IsDigit) == 6;
    assert Span(s, 5, IsDigit) == 6;
    assert Span(s, 8, IsSpace) == 8;
    assert Span(s, 7, IsSpace) == 8;
    assert Span(s, 9, DigitOrDot) == 9;
    assert Span(s, 8, DigitOrDot) == 9;
    assert s[8..9] == "3" == NatToString(3);
    ParseDecimalOfNat(3);
  }

  /** The detection chain of `process_message`. */
  function ActionOf(ps: Patterns, t: string): (a: Action)
    ensures a == TpHit <==> ps.tpHit(t).Some?
    ensures a == NewSignal <==> ps.tpHit(t).None? && ps.entry(t).Some?
    ensures a == Other <==> ps.tpHit(t).None? && ps.entry(t).None?
  {
    if ps.tpHit(t).Some? then TpHit else if ps.entry(t).Some? then NewSignal else Other
  }

  /** `_generate_order_id`: only a TP hit follows the reply. */
  function OrderIdFor(m: Msg, a: Action): Slot<string> {
    if a == Other then Absent
    else if a == TpHit && IsReply(m) then Present(ReplyKey(m))
    else Present(RootKey(m))
  }

  /** `"BUY" if side.upper() == "LONG" else "SELL"`. */
  function SideOf(side: string): (r: string)
    ensures r == "BUY" <==> Upper(side) == "LONG"
    ensures r in {"BUY", "SELL"}
  {
    if Upper(side) == "LONG" then "BUY" else "SELL"
  }

  /** `_extract_new_signal_data`: `float()` of the entry may raise. */
  function EntryData(g: EntryGroups, base: Signal): (r: Result<Signal, Fault>)
    ensures r.Failure? <==> !DecimalText(g.entry)
    ensures r.Success? ==> r.value.source == base.source && r.value.action == base.action
    ensures r.Success? ==> r.value.orderId == base.orderId && r.value.orderType == base.orderType
    ensures r.Success? ==> r.value.pair == Present(g.pair) && r.value.side == Present(SideOf(g.side))
    ensures r.Success? ==> r.value.entry == Present(ParseDecimal(g.entry).value)
    ensures r.Success? ==> r.value.leverage == Present(Leverage(g.marginInfo))
    ensures r.Success? ==> (r.value.takeProfit == if Targets(g.targets) == [] then base.takeProfit else Present(Targets(g.targets)))
    ensures r.Success? && NoNulls(base) ==> NoNulls(r.value)
  {
    match ParseDecimal(g.entry)
    case None => Failure(ValueError(g.entry))
    case Some(e) =>
      var tps := Targets(g.targets);
      Success(base.(pair := Present(g.pair), side := Present(SideOf(g.side)), entry := Present(e),
                    leverage := Present(Leverage(g.marginInfo)),
                    takeProfit := if tps == [] then base.takeProfit else Present(tps)))
  }

  /** `process_message`. A missing `msg_text` raises KeyError. */
  function Classify(ps: Patterns, m: Msg): (r: Result<Signal, Fault>)
    ensures m.text.None? ==> r == Failure(KeyError("msg_text"))
    ensures r.Success? ==> r.value.source == m && r.value.orderType == Present("LIMIT")
    ensures r.Success? ==> r.value.action == ActionOf(ps, Normalize(m.text.value))
    ensures r.Success? ==> r.value.orderId == OrderIdFor(m, r.value.action)
    ensures r.Success? ==> NoNulls(r.value)
    ensures m.text.Some? ==>
      var t := Normalize(m.text.value);
      (r.Failure? <==> ActionOf(ps, t) == NewSignal && !DecimalText(ps.entry(t).value.entry))
    ensures m.text.Some? && r.Failure? ==>
      var t := Normalize(m.text.value);
      r.error == ValueError(ps.entry(t).value.entry)
  {
    if m.text.None? then Failure(KeyError("msg_text"))
    else
      var t := Normalize(m.text.value);
      var a := ActionOf(ps, t);
      var base := Bare(m, a).(orderType := Present("LIMIT"), orderId := OrderIdFor(m, a));
      match a
      case TpHit =>
        var h := ps.tpHit(t).value;
        Success(base.(pair := Present(h.pair), tpLevel := Present(h.level), profitPercent := Present(Decimal(h.profit, 0))))
      case NewSignal => EntryData(ps.entry(t).value, base)
      case _ => Success(base)
  }

  /** A TP hit that replies to a signal is keyed by that signal; a new signal
      is keyed by itself even when it is a reply. */
  lemma {:induction false} OrderIdRules(ps: Patterns, m: Msg)
    requires Classify(ps, m).Success?
    ensures var r := Classify(ps, m).value;
      && (r.action == Other <==> r.orderId.Absent?)
      && (r.action == TpHit && IsReply(m) ==> r.orderId == Present(OrderKey(m.chatId, m.reply.value)))
      && (r.action == TpHit && !IsReply(m) ==> r.orderId == Present(OrderKey(m.chatId, m.msgId)))
      && (r.action == NewSignal ==> r.orderId == Present(OrderKey(m.chatId, m.msgId)))
  {
  }

  /** A TP hit carries the hit pattern's pair, target number and profit; a new
      signal its pair, a BUY/SELL side, the entry price, a leverage (1 by
      default) and, only when some target parsed, the parsed targets. */
  lemma {:induction false} ExtractedFields(ps: Patterns, m: Msg)
    requires Classify(ps, m).Success? && m.text.Some?
    ensures var t := Normalize(m.text.value); var r := Classify(ps, m).value;
      && (r.action == TpHit ==>
            var h := ps.tpHit(t).value;
            r.pair == Present(h.pair) && r.tpLevel == Present(h.level) && r.profitPercent == Present(Decimal(h.profit, 0)))
      && (r.action == NewSignal ==>
            var g := ps.entry(t).value;
            && r.pair == Present(g.pair)
            && r.side.Present? && (r.side.value == "BUY" <==> Upper(g.side) == "LONG")
            && r.entry == Present(ParseDecimal(g.entry).value)
            && r.leverage == Present(Leverage(g.marginInfo))
            && (r.takeProfit.Present? <==> Targets(g.targets) != [])
            && (r.takeProfit.Present? ==> r.takeProfit.value == Targets(g.targets))
            && r.tpLevel.Absent?)
  {
  }
}

=== FILE: wolf_crypto.dfy ===
/** The Wolf crypto channel's classifier (`WolfCryptoClassifier`): one
    keyword-precedence chain over the normalised text, applied to roots and
    replies alike, with `None`-valued keys dropped from the result. */
module WolfCrypto {
  import opened Wrappers
  import opened Text
  import opened Numbers
  import opened Scan
  import opened Signals

  /** The three regular expressions kept opaque: the entry-price search (run
      on the lower-cased text), the stop-loss search, and the take-profit
      `findall`, which yields one tuple of groups per match. */
  datatype Patterns = Patterns(
    entry: string -> Option<string>,
    stopLoss: string -> Option<string>,
    takeProfits: string -> seq<seq<string>>)

  // ---------------------------------------------------------------- text

  /** The money bag, no-entry sign, check mark and blue diamond. */
  const Decorations: set<char> := {'\U{1F4B0}', '\U{1F6AB}', '\U{2705}', '\U{1F539}'}

  /** `_normalize_text`: strip, turn the odd spaces into spaces, squash
      whitespace runs, then delete the four decorations. */
  function Normalize(s: string): (r: string)
    ensures forall c | c in r :: c !in OddSpaces && c !in Decorations
    ensures forall c | c in r && IsSpace(c) :: c == ' '
    ensures Keep(r, NotSpace) == Keep(s, Shown)
    ensures r == Without(NormalizeSpaces(s), Decorations)
  {
    var x := NormalizeSpaces(s);
    WithoutKeeps(x, Decorations);
    WithoutIsKeep(x, Decorations, Plain);
    KeepKeep(x, Plain, NotSpace, PlainInk);
    KeepKeep(x, NotSpace, Plain, PlainInk);
    KeepKeep(s, Ink, Plain, Shown);
    Without(x, Decorations)
  }

  predicate Plain(c: char) { c !in Decorations }

  predicate PlainInk(c: char) { NotSpace(c) && Plain(c) }

  /** What normalising keeps: the visible characters other than the
      decorations. */
  predicate Shown(c: char) { Ink(c) && Plain(c) }

  /** Deleting the decorations after squashing can leave a space at the
      front, so normalising twice differs from normalising once. */
  lemma {:induction false} NormalizeNotIdempotent()
    ensures Normalize("\U{2705} A") == " A"
    ensures Normalize(" A") == "A"
  {
    NormalizeCheckA();
    NormalizeSpaceA();
  }

  lemma {:induction false} NormalizeCheckA()
    ensures Normalize("\U{2705} A") == " A"
  {
    SpacesCheckA();
    WithoutCheckA();
  }

  lemma {:induction false} SpacesCheckA()
    ensures NormalizeSpaces("\U{2705} A") == "\U{2705} A"
  {
    StripCheckA();
    RespaceCheckA();
    SquashCheckA();
  }

  lemma {:induction false} NormalizeSpaceA()
    ensures Normalize(" A") == "A"
  {
    SpacesSpaceA();
    WithoutPlainA();
  }

  lemma {:induction false} SpacesSpaceA()
    ensures NormalizeSpaces(" A") == "A"
  {
    StripSpaceA();
    PlainA();
  }

  lemma {:induction false} PlainA()
    ensures Respace("A") == "A" && Squash("A") == "A"
  {
    assert "A"[1..] == "";
  }

  lemma {:induction false} WithoutPlainA()
    ensures Without("A", Decorations) == "A"
  {
    assert "A"[1..] == "";
  }

  lemma {:induction false} StripCheckA()
    ensures Strip("\U{2705} A") == "\U{2705} A"
  {
    var s := "\U{2705} A";
    assert !IsSpace(s[0]) && !IsSpace(s[2]);
  }

  lemma {:induction false} RespaceCheckA()
    ensures Respace("\U{2705} A") == "\U{2705} A"
  {
  }

  lemma {:induction false} SquashCheckA()
    ensures Squash("\U{2705} A") == "\U{2705} A"
  {
    var s := "\U{2705} A";
    var t := " A";
    var u := "A";
    assert !IsSpace(u[0]) && u[1..] == "";
    assert Squash(u) == u;
    assert Span(t, 1, IsSpace) == 1;
    assert Span(t, 0, IsSpace) == 1;
    assert t[1..] == u;
    assert Squash(t) == t;
    assert !IsSpace(s[0]) && s[1..] == t;
  }

  lemma {:induction false} WithoutCheckA()
    ensures Without("\U{2705} A", Decorations) == " A"
  {
    var s := "\U{2705} A";
    assert s[1..] == " A";
    WithoutPlainA();
    assert Without(" A", Decorations) == " A" by {
      assert " A"[1..] == "A";
    }
  }

  lemma {:induction false} StripSpaceA()
    ensures Strip(" A") == "A"
  {
    TrimLeftSpaceA();
    TrimRightA();
  }

  lemma {:induction false} TrimLeftSpaceA()
    ensures TrimLeft(" A") == "A"
  {
    var t := " A";
    assert IsSpace(t[0]) && t[1..] == "A";
    TrimLeftA();
  }

  lemma {:induction false} TrimLeftA()
    ensures TrimLeft("A") == "A"
  {
    assert !IsSpace("A"[0]);
  }

  lemma {:induction false} TrimRightA()
    ensures TrimRight("A") == "A"
  {
    assert !IsSpace("A"[0]);
  }

  // ---------------------------------------------------------- predicates

  const TpWords: seq<string> := ["hit", "reached", "completed"]
  const SlWords: seq<string> := ["hit", "reached", "triggered"]
  const SignalWords: seq<string> := ["entry", "enter", "buy", "sell", "long", "short"]

  predicate IsCheck(c: char) { c == '\U{2705}' }

  /** `✅+\s*[A-Z]{2,10}/USDT\s*TP\d` at `p`. */
  predicate CheckedTpAt(s: string, p: nat) {
    p < |s| && IsCheck(s[p]) &&
    var a := Span(s, p, IsCheck);
    var b := Span(s, a, IsSpace);
    var u := Span(s, b, IsAsciiUpper);
    2 <= u - b <= 10 && StartsAt(s, u, "/USDT") &&
    var c := Span(s, u + 5, IsSpace);
    StartsAt(s, c, "TP") && c + 2 < |s| && IsDigit(s[c + 2])
  }

  /** `BTC/USDT TP\d`, ignoring case, at `p`. */
  predicate BtcTpAt(s: string, p: nat) {
    StartsAtIgnoringCase(s, p, "btc/usdt tp") && p + 11 < |s| && IsDigit(s[p + 11])
  }

  /** `_is_tp_hit`. */
  predicate IsTpHit(t: string) {
    var l := Lower(t);
    || (Contains(l, "tp") && ContainsAny(l, TpWords))
    || (Contains(l, "take profit") && ContainsAny(l, TpWords))
    || (exists p | 0 <= p < |t| :: CheckedTpAt(t, p))
    || (exists p | 0 <= p < |t| :: BtcTpAt(t, p))
  }

  /** `_is_sl_hit`. */
  predicate IsSlHit(t: string) {
    var l := Lower(t);
    || (Contains(l, "sl") && ContainsAny(l, SlWords))
    || (Contains(l, "stop loss") && ContainsAny(l, SlWords))
    || ContainsIgnoringCase(t, "btc hit stop loss")
  }

  /** `#\w+/USDT\s+Manually\s+Cancelled` at `p`. */
  predicate ManualCancelAt(s: string, p: nat) {
    p < |s| && s[p] == '#' &&
    var w := Span(s, p + 1, IsWordChar);
    w > p + 1 && StartsAt(s, w, "/USDT") &&
    var a := Span(s, w + 5, IsSpace);
    a > w + 5 && StartsAt(s, a, "Manually") &&
    var b := Span(s, a + 8, IsSpace);
    b > a + 8 && StartsAt(s, b, "Cancelled")
  }

  /** `_is_cancelled`. */
  predicate IsCancelled(t: string) {
    Contains(Lower(t), "cancelled") || exists p | 0 <= p < |t| :: ManualCancelAt(t, p)
  }

  /** `\b([A-Z]{2,10}/USDT)\b` at `p`: a run of two to ten capitals starting
      a word and followed by `/USDT` and a word end. */
  function PairAt(s: string, p: nat): (r: Option<string>)
    ensures r.Some? ==> |r.value| >= 7 && r.value[|r.value| - 5..] == "/USDT"
    ensures r.Some? ==> forall k | 0 <= k < |r.value| - 5 :: IsAsciiUpper(r.value[k])
  {
    if p >= |s| || !IsAsciiUpper(s[p]) || !WordBoundary(s, p) then None
    else
      var u := Span(s, p, IsAsciiUpper);
      if 2 <= u - p <= 10 && StartsAt(s, u, "/USDT") && WordBoundary(s, u + 5) then
        assert s[p..u + 5][u - p..] == s[u..u + 5];
        Some(s[p..u + 5])
      else None
  }

  /** A pair as `PairAt` captures it: at least two letters, then `/USDT`. */
  predicate UsdtPair(p: string) {
    |p| >= 7 && p[|p| - 5..] == "/USDT"
  }

  /** `re.search` of the pair pattern: the leftmost pair, if any. */
  function PairOf(t: string): (r: Option<string>)
    ensures r.Some? ==> UsdtPair(r.value)
    ensures r.None? <==> forall p | 0 <= p < |t| :: PairAt(t, p).None?
    ensures r.Some? ==> exists p | 0 <= p < |t| :: PairAt(t, p) == r && forall q | 0 <= q < p :: PairAt(t, q).None?
  {
    var at := (p: nat) => PairAt(t, p);
    assert forall p: nat :: at(p) == PairAt(t, p);
    Search(|t|, at)
  }

  /** `_is_new_signal`: a `XXX/USDT` pair and either a side keyword or both a
      take-profit and a stop-loss keyword. */
  predicate IsNewSignal(t: string) {
    var l := Lower(t);
    && PairOf(t).Some?
    && (|| ContainsAny(l, SignalWords)
        || ((Contains(l, "tp") || Contains(l, "take profit")) && (Contains(l, "sl") || Contains(l, "stop loss"))))
  }

  /** The detection chain of `process_message`. */
  function ActionOf(t: string): (a: Action)
    ensures a == TpHit <==> IsTpHit(t)
    ensures a == SlHit <==> !IsTpHit(t) && IsSlHit(t)
    ensures a == Cancelled <==> !IsTpHit(t) && !IsSlHit(t) && IsCancelled(t)
    ensures a == NewSignal <==> !IsTpHit(t) && !IsSlHit(t) && !IsCancelled(t) && IsNewSignal(t)
    ensures a == Other <==> !IsTpHit(t) && !IsSlHit(t) && !IsCancelled(t) && !IsNewSignal(t)
  {
    if IsTpHit(t) then TpHit
    else if IsSlHit(t) then SlHit
    else if IsCancelled(t) then Cancelled
    else if IsNewSignal(t) then NewSignal
    else Other
  }

  // ---------------------------------------------------------- extraction

  /** `_generate_order_id`, with its `None` already dropped. */
  function OrderIdFor(m: Msg, a: Action): Slot<string> {
    if a == Other then Absent
    else if (a == TpHit || a == SlHit) && IsReply(m) then Present(ReplyKey(m))
    else Present(RootKey(m))
  }

  /** `float(x.replace(',', ''))`. */
  function Price(x: string): (r: Result<Decimal, Fault>)
    ensures r.Success? <==> DecimalText(Without(x, {','}))
    ensures r.Failure? ==> r.error == ValueError(x)
  {
    match ParseDecimal(Without(x, {','}))
    case Some(d) => Success(d)
    case None => Failure(ValueError(x))
  }

  /** Commas are ignored: a price reads the same with a comma taken out. */
  lemma {:induction false} PriceSkipsComma(a: string, b: string)
    ensures Price(a + "," + b).Success? <==> Price(a + b).Success?
    ensures Price(a + b).Success? ==> Price(a + "," + b).value == Price(a + b).value
  {
    var c: set<char> := {','};
    WithoutConcat(a + ",", b, c);
    WithoutConcat(a, ",", c);
    WithoutConcat(a, b, c);
    assert ","[1..] == "";
    assert Without(",", c) == "";
    assert Without(a + "," + b, c) == Without(a + b, c);
  }

  /** Every decimal is the price of its own text. */
  lemma {:induction false} PriceOfShown(d: Decimal)
    ensures Price(ShowDecimal(d)) == Success(d)
  {
    DecimalRoundTrip(d);
    ShownCharacters(d);
    WithoutAbsent(ShowDecimal(d), {','});
  }

  /** The non-empty groups of the `findall` tuples, in order: the `tp` of
      `for match in tps for tp in match if tp`. */
  function Captures(tuples: seq<seq<string>>): (cs: seq<string>)
    ensures forall k | 0 <= k < |cs| :: cs[k] != ""
    decreases |tuples|
  {
    if |tuples| == 0 then [] else NonEmpty(tuples[0]) + Captures(tuples[1..])
  }

  function NonEmpty(groups: seq<string>): (cs: seq<string>)
    ensures forall k | 0 <= k < |cs| :: cs[k] != ""
    decreases |groups|
  {
    if |groups| == 0 then []
    else if groups[0] == "" then NonEmpty(groups[1..])
    else [groups[0]] + NonEmpty(groups[1..])
  }

  /** `[float(x.replace(',', '')) for x in xs]`: every capture parsed, in
      order, or the error of the first one `float()` rejects. */
  function PriceList(xs: seq<string>): (r: Result<seq<Decimal>, Fault>)
    ensures r.Success? <==> forall k | 0 <= k < |xs| :: Price(xs[k]).Success?
    ensures r.Success? ==> |r.value| == |xs| && forall k | 0 <= k < |xs| :: Success(r.value[k]) == Price(xs[k])
    ensures r.Failure? ==> exists k | 0 <= k < |xs| ::
      Price(xs[k]) == Failure(r.error) && forall j | 0 <= j < k :: Price(xs[j]).Success?
  {
    MapAll(xs, Price)
  }

  /** `f` applied to each item in turn, stopping at the first failure. */
  function MapAll<T>(xs: seq<string>, f: string -> Result<T, Fault>): (r: Result<seq<T>, Fault>)
    ensures r.Success? <==> forall k | 0 <= k < |xs| :: f(xs[k]).Success?
    ensures r.Success? ==> |r.value| == |xs| && forall k | 0 <= k < |xs| :: Success(r.value[k]) == f(xs[k])
    ensures r.Failure? ==> exists k | 0 <= k < |xs| ::
      f(xs[k]) == Failure(r.error) && forall j | 0 <= j < k :: f(xs[j]).Success?
    decreases |xs|
  {
    if |xs| == 0 then Success([])
    else
      match f(xs[0])
      case Failure(e) => Failure(e)
      case Success(d) =>
        var rest := MapAll(xs[1..], f);
        assert forall k | 1 <= k < |xs| :: xs[k] == xs[1..][k - 1];
        if rest.Failure? then
          var k :| 0 <= k < |xs| - 1 && f(xs[1..][k]) == Failure(rest.error) && forall j | 0 <= j < k :: f(xs[1..][j]).Success?;
          assert f(xs[k + 1]) == Failure(rest.error);
          Failure(rest.error)
        else
          Success([d] + rest.value)
  }

  /** The take-profit prices of the `findall` tuples. */
  function Prices(tuples: seq<seq<string>>): Result<seq<Decimal>, Fault> {
    PriceList(Captures(tuples))
  }

  /** `'buy'`/`'long'` give BUY, else `'sell'`/`'short'` give SELL, else the
      string "None". */
  function SideOf(l: string): string {
    if Contains(l, "buy") || Contains(l, "long") then "BUY"
    else if Contains(l, "sell") || Contains(l, "short") then "SELL"
    else "None"
  }

  /** `[: ]*\s*(\d+)x` at `q`, ignoring the case of the `x`. */
  function LeverageTail(s: string, q: nat): Option<nat> {
    if q > |s| then None
    else
      var a := Span(s, q, c => c == ':' || c == ' ');
      var b := Span(s, a, IsSpace);
      var e := Span(s, b, IsDigit);
      if e > b && e < |s| && (s[e] == 'x' || s[e] == 'X') then Some(NatAt(s, b, e)) else None
  }

  /** `(?:leverage|lev|〽️leverage)[: ]*\s*(\d+)x` at `p`, ignoring case,
      the labels tried in that order. */
  function LeverageAt(s: string, p: nat): (r: Option<nat>)
    ensures r.Some? ==> ContainsIgnoringCase(s, "lev")
  {
    var viaLong := LeverageVia(s, p, "leverage", 0);
    var viaShort := LeverageVia(s, p, "lev", 0);
    var viaMark := LeverageVia(s, p, "\U{303D}\U{FE0F}leverage", 2);
    if viaLong.Some? then viaLong
    else if viaShort.Some? then viaShort
    else viaMark
  }

  /** The leverage after `word` at `p`, where `word` holds "lev" at `at`. */
  function LeverageVia(s: string, p: nat, word: string, at: nat): (r: Option<nat>)
    requires at + 3 <= |word| && word[at..at + 3] == "lev"
    ensures r.Some? ==> ContainsIgnoringCase(s, "lev")
  {
    if StartsAtIgnoringCase(s, p, word) then
      PieceIgnoringCase(s, p, word, at, "lev");
      LeverageTail(s, p + |word|)
    else None
  }

  /** The leverage of a new signal: the first labelled `NNx`, else 1. */
  function Leverage(t: string): (r: nat)
    ensures !ContainsIgnoringCase(t, "lev") ==> r == 1
  {
    var at := (p: nat) => LeverageAt(t, p);
    assert forall p: nat :: at(p) == LeverageAt(t, p);
    Search(|t|, at).GetOr(1)
  }

  /** `TP\s?(\d+)` at `p`, ignoring case. */
  function TpNumberAt(s: string, p: nat): Option<nat> {
    if !StartsAtIgnoringCase(s, p, "tp") then None
    else
      var q := p + 2;
      var d := if q < |s| && IsSpace(s[q]) then DigitsAt(s, q + 1) else DigitsAt(s, q);
      if d.Some? then Some(d.value.value) else None
  }

  /** `Take Profit\s(\d+)` at `p`, ignoring case. */
  function TakeProfitNumberAt(s: string, p: nat): Option<nat> {
    if !StartsAtIgnoringCase(s, p, "take profit") || p + 11 >= |s| || !IsSpace(s[p + 11]) then None
    else
      var d := DigitsAt(s, p + 12);
      if d.Some? then Some(d.value.value) else None
  }

  const Ordinals: seq<(string, nat)> :=
    [("first", 1), ("1st", 1), ("second", 2), ("2nd", 2), ("third", 3), ("3rd", 3)]

  /** `(first|1st|second|2nd|third|3rd)\s(?:take profit|tp)` at `p` with
      ordinal `k`, ignoring case. */
  predicate OrdinalMatch(s: string, p: nat, k: nat)
    requires k < |Ordinals|
  {
    var w := Ordinals[k].0;
    var q := p + |w|;
    && StartsAtIgnoringCase(s, p, w) && q < |s| && IsSpace(s[q])
    && (StartsAtIgnoringCase(s, q + 1, "take profit") || StartsAtIgnoringCase(s, q + 1, "tp"))
  }

  function OrdinalFrom(s: string, p: nat, k: nat): Option<nat>
    requires k <= |Ordinals|
    decreases |Ordinals| - k
  {
    if k == |Ordinals| then None
    else if OrdinalMatch(s, p, k) then Some(Ordinals[k].1)
    else OrdinalFrom(s, p, k + 1)
  }

  function OrdinalAt(s: string, p: nat): Option<nat> {
    OrdinalFrom(s, p, 0)
  }

  /** The TP level of an outcome: `TPn`, else `Take Profit n`, else an
      ordinal word; there is no default. */
  function TpLevel(t: string): (r: Option<nat>)
    ensures !ContainsIgnoringCase(t, "tp") && !ContainsIgnoringCase(t, "take profit") ==> r.None?
  {
    var byNumber := (p: nat) => TpNumberAt(t, p);
    var byWords := (p: nat) => TakeProfitNumberAt(t, p);
    var byOrdinal := (p: nat) => OrdinalAt(t, p);
    assert forall p: nat :: byNumber(p) == TpNumberAt(t, p);
    assert forall p: nat :: byWords(p) == TakeProfitNumberAt(t, p);
    assert forall p: nat :: byOrdinal(p) == OrdinalAt(t, p);
    var n := Search(|t|, byNumber);
    var w := Search(|t|, byWords);
    var o := Search(|t|, byOrdinal);
    if n.Some? then n
    else if w.Some? then w
    else if o.Some? then
      assert !ContainsIgnoringCase(t, "tp") && !ContainsIgnoringCase(t, "take profit") ==> false by {
        var p :| 0 <= p < |t| && byOrdinal(p) == o;
        OrdinalNeedsLabel(t, p, 0);
      }
      o
    else None
  }

  lemma {:induction false} OrdinalNeedsLabel(s: string, p: nat, k: nat)
    requires k <= |Ordinals|
    requires OrdinalFrom(s, p, k).Some?
    ensures ContainsIgnoringCase(s, "tp") || ContainsIgnoringCase(s, "take profit")
    decreases |Ordinals| - k
  {
    if OrdinalMatch(s, p, k) {
      var q := p + |Ordinals[k].0| + 1;
      if StartsAtIgnoringCase(s, q, "take profit") {
        assert 0 <= q <= |s| - |"take profit"|;
      } else {
        assert 0 <= q <= |s| - |"tp"|;
      }
    } else {
      OrdinalNeedsLabel(s, p, k + 1);
    }
  }

  /** `Profit(?: Made)?:\s*([\d.]+)%` at `p`, ignoring case. */
  function ProfitLabelAt(s: string, p: nat): Option<string> {
    if !StartsAtIgnoringCase(s, p, "profit") then None
    else
      var c := if StartsAtIgnoringCase(s, p + 6, " made") then p + 11 else p + 6;
      if c >= |s| || s[c] != ':' then None
      else
        var b := Span(s, c + 1, IsSpace);
        var e := Span(s, b, DigitOrDot);
        if e > b && e < |s| && s[e] == '%' then Some(s[b..e]) else None
  }

  /** `([\d.]+)%\s*profit` at `p`, ignoring case. */
  function PercentProfitAt(s: string, p: nat): Option<string> {
    if p >= |s| then None
    else
      var e := Span(s, p, DigitOrDot);
      if e == p || e >= |s| || s[e] != '%' then None
      else
        var w := Span(s, e + 1, IsSpace);
        if StartsAtIgnoringCase(s, w, "profit") then Some(s[p..e]) else None
  }

  /** The captured profit percentage, from the first pattern, else the
      second. */
  function ProfitText(t: string): (r: Option<string>)
    ensures (exists p | 0 <= p < |t| :: ProfitLabelAt(t, p).Some?) ==>
      exists p | 0 <= p < |t| :: ProfitLabelAt(t, p) == r && forall q | 0 <= q < p :: ProfitLabelAt(t, q).None?
    ensures (forall p | 0 <= p < |t| :: ProfitLabelAt(t, p).None?) ==>
      && (r.None? <==> forall p | 0 <= p < |t| :: PercentProfitAt(t, p).None?)
      && (r.Some? ==> exists p | 0 <= p < |t| :: PercentProfitAt(t, p) == r && forall q | 0 <= q < p :: PercentProfitAt(t, q).None?)
  {
    var labelledAt := (p: nat) => ProfitLabelAt(t, p);
    var percentAt := (p: nat) => PercentProfitAt(t, p);
    assert forall p: nat :: labelledAt(p) == ProfitLabelAt(t, p);
    assert forall p: nat :: percentAt(p) == PercentProfitAt(t, p);
    var labelled := Search(|t|, labelledAt);
    if labelled.Some? then labelled else Search(|t|, percentAt)
  }

  /** `#(\w+)/USDT` at `p`: the pair of a cancellation. */
  function HashPairAt(s: string, p: nat): (r: Option<string>)
    ensures r.Some? ==> |r.value| > 5 && r.value[|r.value| - 5..] == "/USDT"
  {
    if p >= |s| || s[p] != '#' then None
    else
      var w := Span(s, p + 1, IsWordChar);
      if w > p + 1 && StartsAt(s, w, "/USDT") then Some(s[p + 1..w] + "/USDT") else None
  }

  /** An optional captured price: absent when the pattern did not match,
      `float()` of the capture otherwise. */
  function OptionalPrice(x: Option<string>): (r: Result<Slot<Decimal>, Fault>)
    ensures r.Success? ==> !r.value.Null?
    ensures x.None? ==> r == Success(Absent)
    ensures x.Some? ==> (r.Success? <==> DecimalText(Without(x.value, {','})))
  {
    match x
    case None => Success(Absent)
    case Some(v) =>
      match Price(v)
      case Success(d) => Success(Present(d))
      case Failure(e) => Failure(e)
  }

  /** The `take_profit` key: absent when `findall` found nothing, else the
      prices of the captures in order. */
  function TakeProfitSlot(tuples: seq<seq<string>>): (r: Result<Slot<seq<Decimal>>, Fault>)
    ensures r.Success? ==> !r.value.Null?
    ensures r.Success? <==> forall k | 0 <= k < |Captures(tuples)| :: Price(Captures(tuples)[k]).Success?
    ensures r.Success? ==> (r.value.Absent? <==> tuples == [])
    ensures r.Success? && r.value.Present? ==> var cs := Captures(tuples);
      |r.value.value| == |cs| && forall k | 0 <= k < |cs| :: Success(r.value.value[k]) == Price(cs[k])
    ensures r.Failure? ==> exists k | 0 <= k < |Captures(tuples)| :: Price(Captures(tuples)[k]) == Failure(r.error)
  {
    match Prices(tuples)
    case Failure(e) => Failure(e)
    case Success(tps) => Success(if tuples == [] then Absent else Present(tps))
  }

  /** `_extract_new_signal_data`, merged into the base result: the entry,
      stop loss and take profits are read in that order, and the first price
      `float()` rejects raises. */
  function NewSignalData(ps: Patterns, t: string, base: Signal): (r: Result<Signal, Fault>)
    requires PairOf(t).Some?
    ensures r.Success? ==> r.value.pair == Present(PairOf(t).value)
    ensures r.Success? ==> r.value.side == Present(SideOf(Lower(t))) && r.value.leverage == Present(Leverage(t))
    ensures var entry, sl, tp := OptionalPrice(ps.entry(Lower(t))), OptionalPrice(ps.stopLoss(t)), TakeProfitSlot(ps.takeProfits(t));
      && (r.Success? <==> entry.Success? && sl.Success? && tp.Success?)
      && (r.Success? ==> r.value.entry == entry.value && r.value.stopLoss == sl.value && r.value.takeProfit == tp.value)
      && (r.Failure? ==> r.error == (if entry.Failure? then entry.error else if sl.Failure? then sl.error else tp.error))
    ensures r.Success? ==> r.value.source == base.source && r.value.action == base.action && r.value.orderId == base.orderId && r.value.orderType == base.orderType
    ensures r.Success? && NoNulls(base) ==> NoNulls(r.value)
  {
    var entry := OptionalPrice(ps.entry(Lower(t)));
    var sl := OptionalPrice(ps.stopLoss(t));
    var tp := TakeProfitSlot(ps.takeProfits(t));
    if entry.Failure? then Failure(entry.error)
    else if sl.Failure? then Failure(sl.error)
    else if tp.Failure? then Failure(tp.error)
    else
      Success(base.(pair := Present(PairOf(t).value), side := Present(SideOf(Lower(t))), entry := entry.value,
                    stopLoss := sl.value, takeProfit := tp.value, leverage := Present(Leverage(t))))
  }

  /** `_extract_outcome_data`, merged into the base result. */
  function OutcomeData(t: string, base: Signal): (r: Result<Signal, Fault>)
    ensures r.Success? ==> r.value.tpLevel == (if TpLevel(t).Some? then Present(TpLevel(t).value) else base.tpLevel)
    ensures r.Success? ==> r.value.source == base.source && r.value.action == base.action && r.value.orderId == base.orderId && r.value.orderType == base.orderType
    ensures r.Success? ==> r.value.pair == (if PairOf(t).Some? then Present(PairOf(t).value) else base.pair)
    ensures r.Failure? <==> ProfitText(t).Some? && !DecimalText(ProfitText(t).value)
    ensures r.Failure? ==> r.error == ValueError(ProfitText(t).value)
    ensures var x := ProfitText(t);
      r.Success? ==> r.value.profitPercent == (if x.Some? then Present(ParseDecimal(x.value).value) else base.profitPercent)
    ensures r.Success? && NoNulls(base) ==> NoNulls(r.value)
  {
    var pair := if PairOf(t).Some? then Present(PairOf(t).value) else base.pair;
    var level := if TpLevel(t).Some? then Present(TpLevel(t).value) else base.tpLevel;
    match ProfitText(t)
    case None => Success(base.(pair := pair, tpLevel := level))
    case Some(x) =>
      match ParseDecimal(x)
      case None => Failure(ValueError(x))
      case Some(d) => Success(base.(pair := pair, tpLevel := level, profitPercent := Present(d)))
  }

  /** `process_message`. A missing `msg_text` raises KeyError. */
  function Classify(ps: Patterns, m: Msg): (r: Result<Signal, Fault>)
    ensures m.text.None? ==> r == Failure(KeyError("msg_text"))
    ensures r.Success? ==> r.value.source == m && r.value.orderType == Present("LIMIT")
    ensures r.Success? ==> r.value.action == ActionOf(Normalize(m.text.value))
    ensures r.Success? ==> r.value.orderId == OrderIdFor(m, r.value.action)
    ensures r.Success? ==> NoNulls(r.value)
  {
    if m.text.None? then Failure(KeyError("msg_text"))
    else ClassifyText(ps, m, Normalize(m.text.value))
  }

  /** With text present, `process_message` fails only where a field builder
      raises: a new signal is `_extract_new_signal_data` and a TP or SL hit
      `_extract_outcome_data` of the base result, and every other action
      succeeds. */
  lemma {:induction false} ClassifyByAction(ps: Patterns, m: Msg)
    requires m.text.Some?
    ensures var t := Normalize(m.text.value); var r := Classify(ps, m);
      && (ActionOf(t) == NewSignal ==> PairOf(t).Some? && r == NewSignalData(ps, t, BaseOf(m, t)))
      && (ActionOf(t) in {TpHit, SlHit} ==> r == OutcomeData(t, BaseOf(m, t)))
      && (ActionOf(t) !in {NewSignal, TpHit, SlHit} ==> r.Success?)
  {
    var t := Normalize(m.text.value);
    assert Classify(ps, m) == ClassifyText(ps, m, t);
  }

  /** `process_message` from the normalised text `t` on. */
  function ClassifyText(ps: Patterns, m: Msg, t: string): (r: Result<Signal, Fault>)
    ensures r.Success? ==> r.value.source == m && r.value.orderType == Present("LIMIT")
    ensures r.Success? ==> r.value.action == ActionOf(t) && r.value.orderId == OrderIdFor(m, r.value.action)
    ensures r.Success? ==> NoNulls(r.value)
    ensures ActionOf(t) == NewSignal ==> PairOf(t).Some? && r == NewSignalData(ps, t, BaseOf(m, t))
    ensures ActionOf(t) in {TpHit, SlHit} ==> r == OutcomeData(t, BaseOf(m, t))
    ensures ActionOf(t) == Cancelled ==> r.Success?
    ensures ActionOf(t) !in {NewSignal, TpHit, SlHit, Cancelled} ==> r == Success(BaseOf(m, t))
  {
    Complete(ps, t, BaseOf(m, t))
  }

  /** The result before any action adds its fields: the message, the action,
      `order_type` `LIMIT` and the order id. */
  function BaseOf(m: Msg, t: string): (r: Signal)
    ensures r.source == m && r.action == ActionOf(t) && NoNulls(r)
    ensures r.orderType == Present("LIMIT") && r.orderId == OrderIdFor(m, ActionOf(t))
    ensures r.pair.Absent? && r.entry.Absent? && r.takeProfit.Absent? && r.profitPercent.Absent?
  {
    var a := ActionOf(t);
    Bare(m, a).(orderType := Present("LIMIT"), orderId := OrderIdFor(m, a))
  }

  /** The fields each action adds to the base result. */
  function Complete(ps: Patterns, t: string, base: Signal): (r: Result<Signal, Fault>)
    requires NoNulls(base) && base.action == ActionOf(t)
    ensures r.Success? ==> r.value.source == base.source && r.value.action == base.action
    ensures r.Success? ==> r.value.orderId == base.orderId && r.value.orderType == base.orderType
    ensures r.Success? ==> NoNulls(r.value)
    ensures base.action == NewSignal ==> PairOf(t).Some? && r == NewSignalData(ps, t, base)
    ensures base.action in {TpHit, SlHit} ==> r == OutcomeData(t, base)
    ensures base.action == Cancelled ==> r.Success?
    ensures base.action !in {NewSignal, TpHit, SlHit, Cancelled} ==> r == Success(base)
  {
    match base.action
    case NewSignal => NewSignalData(ps, t, base)
    case TpHit => OutcomeData(t, base)
    case SlHit => OutcomeData(t, base)
    case Cancelled =>
      var hp := Search(|t|, (p: nat) => HashPairAt(t, p));
      Success(if hp.Some? then base.(pair := Present(hp.value)) else base)
    case _ => Success(base)
  }


  // ------------------------------------------------------------ lemmas

  /** The `✅`-based take-profit pattern is tested on normalised text, from
      which every `✅` has been deleted, so it never fires. */
  lemma {:induction false} CheckedTpNeverFires(s: string)
    ensures forall p | 0 <= p < |Normalize(s)| :: !CheckedTpAt(Normalize(s), p)
  {
    var t := Normalize(s);
    forall p | 0 <= p < |t| ensures !CheckedTpAt(t, p) {
      assert t[p] in t;
    }
  }

  /** The manual-cancel pattern contains "Cancelled", so the plain keyword
      test already covers it. */
  lemma {:induction false} ManualCancelSubsumed(t: string, p: nat)
    requires ManualCancelAt(t, p)
    ensures Contains(Lower(t), "cancelled")
  {
    var w := Span(t, p + 1, IsWordChar);
    var a := Span(t, w + 5, IsSpace);
    var b := Span(t, a + 8, IsSpace);
    assert StartsAt(t, b, "Cancelled");
    LowerCancelled();
    LowerContains(t, b, "Cancelled", "cancelled");
  }

  lemma {:induction false} LowerCancelled()
    ensures Lower("Cancelled") == "cancelled"
  {
  }

  lemma {:induction false} LowerContains(s: string, i: nat, p: string, q: string)
    requires StartsAt(s, i, p) && Lower(p) == q
    ensures Contains(Lower(s), q)
  {
    LowerStartsAt(s, i, p);
    ContainsAt(Lower(s), i, q);
  }

  /** The action depends on the text only: replying or not never changes it. */
  lemma {:induction false} ActionIgnoresReply(ps: Patterns, m: Msg, reply: Option<int>)
    requires Classify(ps, m).Success? && Classify(ps, m.(reply := reply)).Success?
    ensures Classify(ps, m).value.action == Classify(ps, m.(reply := reply)).value.action
  {
  }

  /** A reply that reports a TP or SL hit is keyed by the message it replies
      to; every other action, cancellations included, by the message itself;
      OTHER carries no key. */
  lemma {:induction false} OrderIdRules(ps: Patterns, m: Msg)
    requires Classify(ps, m).Success?
    ensures var r := Classify(ps, m).value;
      && (r.action == Other <==> r.orderId.Absent?)
      && ((r.action == TpHit || r.action == SlHit) && IsReply(m) ==> r.orderId == Present(OrderKey(m.chatId, m.reply.value)))
      && (r.action == Cancelled ==> r.orderId == Present(OrderKey(m.chatId, m.msgId)))
      && (r.action == NewSignal ==> r.orderId == Present(OrderKey(m.chatId, m.msgId)))
  {
    OrderIdCases(m, Classify(ps, m).value);
  }

  /** The cases of `_generate_order_id` for a result keyed by it. */
  lemma {:induction false} OrderIdCases(m: Msg, r: Signal)
    requires r.orderId == OrderIdFor(m, r.action)
    ensures r.action == Other <==> r.orderId.Absent?
    ensures (r.action == TpHit || r.action == SlHit) && IsReply(m) ==> r.orderId == Present(OrderKey(m.chatId, m.reply.value))
    ensures r.action == Cancelled ==> r.orderId == Present(OrderKey(m.chatId, m.msgId))
    ensures r.action == NewSignal ==> r.orderId == Present(OrderKey(m.chatId, m.msgId))
    ensures r.orderId.Present? ==> r.orderId.value == RootKey(m) || (m.reply.Some? && r.orderId.value == ReplyKey(m))
  {
  }

  /** A new signal always names a `XXX/USDT` pair, and its side is BUY, SELL
      or the string "None". */
  lemma {:induction false} NewSignalShape(ps: Patterns, m: Msg)
    requires Classify(ps, m).Success? && Classify(ps, m).value.action == NewSignal
    ensures Classify(ps, m).value.pair.Present? && UsdtPair(Classify(ps, m).value.pair.value)
    ensures Classify(ps, m).value.side.Present? && Classify(ps, m).value.side.value in {"BUY", "SELL", "None"}
    ensures Classify(ps, m).value.leverage.Present?
  {
    var t := Normalize(m.text.value);
    assert ActionOf(t) == NewSignal;
  }

  /** Without a leverage label the leverage is 1. */
  lemma {:induction false} DefaultLeverage(ps: Patterns, m: Msg)
    requires Classify(ps, m).Success? && Classify(ps, m).value.action == NewSignal
    requires !ContainsIgnoringCase(Normalize(m.text.value), "lev")
    ensures Classify(ps, m).value.leverage == Present(1)
  {
  }

  /** An outcome without any TP label gets no `tp_level` key at all. */
  lemma {:induction false} NoTpLevelDefault(ps: Patterns, m: Msg)
    requires Classify(ps, m).Success?
    requires Classify(ps, m).value.action in {TpHit, SlHit}
    requires var t := Normalize(m.text.value); !ContainsIgnoringCase(t, "tp") && !ContainsIgnoringCase(t, "take profit")
    ensures Classify(ps, m).value.tpLevel.Absent?
  {
    var t := Normalize(m.text.value);
    var a := ActionOf(t);
    var base := Bare(m, a).(orderType := Present("LIMIT"), orderId := OrderIdFor(m, a));
    assert Classify(ps, m) == OutcomeData(t, base);
    assert TpLevel(t).None?;
  }

  /** A take-profit capture `float()` rejects makes the whole message fail
      with its ValueError, provided the entry and stop loss parse: the list
      is built before anything is returned. */
  lemma {:induction false} UnparsableTakeProfitRaises(ps: Patterns, m: Msg, k: nat)
    requires m.text.Some?
    requires var t := Normalize(m.text.value); ActionOf(t) == NewSignal
    requires var t := Normalize(m.text.value);
      OptionalPrice(ps.entry(Lower(t))).Success? && OptionalPrice(ps.stopLoss(t)).Success?
    requires var cs := Captures(ps.takeProfits(Normalize(m.text.value))); k < |cs| && Price(cs[k]).Failure?
    ensures Classify(ps, m).Failure? && Classify(ps, m).error.ValueError?
  {
    var t := Normalize(m.text.value);
    var cs := Captures(ps.takeProfits(t));
    assert !(forall j | 0 <= j < |cs| :: Price(cs[j]).Success?);
  }

  /** `float(".")` raises, so a lone "." take profit fails. */
  lemma {:induction false} DotRaises()
    ensures TakeProfitSlot([["."]]) == Failure(ValueError("."))
  {
    assert Without(".", {','}) == ".";
    assert !DecimalText(".");
    assert Price(".") == Failure(ValueError("."));
    assert [["."]][1..] == [];
    assert ["."][1..] == [];
    assert Captures([["."]]) == ["."];
  }
}

=== FILE: wolf_forex.dfy ===
/** The Wolf forex channel's classifier (`WolfForexClassifier`): entries with
    their take-profit list on root messages, TP and SL hits on replies. */
module WolfForex {
  import opened Wrappers
  import opened Text
  import opened Numbers
  import opened Scan
  import opened Signals

  /** The groups of the entry pattern; its prices are `\d+\.\d+`. */
  datatype EntryGroups = EntryGroups(pair: string, side: string, entry: Decimal, stopLoss: Decimal)

  /** The entry pattern kept opaque. */
  datatype Patterns = Patterns(entry: string -> Option<EntryGroups>)

  const MoneyTp: string := "\U{1F4B0}TP"

  // -------------------------------------------------------- take profits

  /** `(?:💰TP|TP|Take Profit)` at `p`, case-sensitive: where the label
      ends. At most one of the three can start at a given index. */
  function LabelEnd(s: string, p: nat): (r: Option<nat>)
    ensures r.Some? ==> p < r.value <= |s| && (s[r.value - 1] == 'P' || s[r.value - 1] == 't')
  {
    if StartsAt(s, p, MoneyTp) then
      assert s[p..p + 3][2] == 'P';
      Some(p + 3)
    else if StartsAt(s, p, "TP") then
      assert s[p..p + 2][1] == 'P';
      Some(p + 2)
    else if StartsAt(s, p, "Take Profit") then
      assert s[p..p + 11][10] == 't';
      Some(p + 11)
    else None
  }

  /** Where the price of `\s*\d*\s*(\d+\.\d+)` after a label ending at `q`
      starts, as Python's backtracking matcher finds it. The greedy runs
      come first: spaces to `a`, digits to `d`, spaces to `c`. With a gap
      after the digits the price must start at `c`. Without one the matcher
      gives back the last digit of the run and tries the price there, so a
      bare price loses all but its last integer digit. */
  function PriceStartAsWritten(s: string, q: nat): (r: Option<nat>)
    requires q <= |s|
    ensures r.Some? ==> q <= r.value <= |s|
  {
    var a := Span(s, q, IsSpace);
    var d := Span(s, a, IsDigit);
    var c := Span(s, d, IsSpace);
    if c > d then Some(c)
    else if d > a then Some(d - 1)
    else None
  }

  /** The evident intent: the optional level number is skipped only when a
      gap separates it from the price; otherwise the price is the whole run
      right after the label. */
  function PriceStart(s: string, q: nat): (r: nat)
    requires q <= |s|
    ensures q <= r <= |s|
    ensures r == q || IsSpace(s[r - 1])
  {
    var a := Span(s, q, IsSpace);
    var d := Span(s, a, IsDigit);
    var c := Span(s, d, IsSpace);
    if c > d && DecimalAt(s, c).Some? then c else a
  }

  /** One match of the take-profit pattern at `p`, as written or with the
      intended price start. */
  function TpPriceAt(s: string, p: nat, fixed: bool): (r: Option<Hit<Decimal>>)
    ensures r.Some? ==> p < r.value.end <= |s|
  {
    match LabelEnd(s, p)
    case None => None
    case Some(q) =>
      var start := if fixed then Some(PriceStart(s, q)) else PriceStartAsWritten(s, q);
      match start
      case None => None
      case Some(i) => DecimalAt(s, i)
  }

  /** `re.findall` of the take-profit pattern over the message. */
  function TakeProfits(s: string, fixed: bool): (r: seq<Decimal>)
    ensures (forall p | 0 <= p < |s| :: TpPriceAt(s, p, fixed).None?) ==> r == []
  {
    var at := (p: nat) => TpPriceAt(s, p, fixed);
    assert forall p: nat :: at(p) == TpPriceAt(s, p, fixed);
    FindAll(|s|, at, 0)
  }

  /** The intended match never starts inside a digit run: the price it
      reads is a whole number of the text, not the tail of one. */
  lemma {:induction false} PriceIsWholeRun(s: string, p: nat)
    requires LabelEnd(s, p).Some?
    ensures var q := LabelEnd(s, p).value; var i := PriceStart(s, q);
      0 < i && !IsDigit(s[i - 1])
  {
    var q := LabelEnd(s, p).value;
    var i := PriceStart(s, q);
    if i == q {
      assert s[i - 1] == 'P' || s[i - 1] == 't';
    } else {
      SpaceIsNoDigit(s[i - 1]);
    }
  }

  lemma {:induction false} SpaceIsNoDigit(c: char)
    requires IsSpace(c)
    ensures !IsDigit(c)
  {
  }

  /** The two readings differ only at a label whose digits run straight
      into the price: with a gap after the digits, or no digits at all,
      they find the same match. */
  lemma {:induction false} FixOnlyTouchesBarePrices(s: string, p: nat)
    requires LabelEnd(s, p).Some?
    requires var q := LabelEnd(s, p).value; var a := Span(s, q, IsSpace); var d := Span(s, a, IsDigit);
      d == a || Span(s, d, IsSpace) > d
    ensures TpPriceAt(s, p, true) == TpPriceAt(s, p, false)
  {
    var q := LabelEnd(s, p).value;
    var a := Span(s, q, IsSpace);
    var d := Span(s, a, IsDigit);
    var c := Span(s, d, IsSpace);
    if c > d && DecimalAt(s, c).None? {
      assert d < |s| && s[d] != '.';
      assert DecimalAt(s, a).None?;
    }
  }

  /** At a label ending at `q`, followed (after the spaces up to `a`) by a
      price whose integer part `s[a..d]` has two or more digits, the
      program's pattern reads the price from the last integer digit on,
      where the intended reading takes the whole number; both matches end
      at the same place. */
  lemma {:induction false} AsWrittenCutsPrice(s: string, p: nat, q: nat, a: nat, d: nat)
    requires LabelEnd(s, p) == Some(q) && a == Span(s, q, IsSpace) && d == Span(s, a, IsDigit)
    requires d >= a + 2 && DecimalAt(s, a).Some?
    ensures DecimalAt(s, d - 1).Some? && DecimalAt(s, d - 1).value.end == DecimalAt(s, a).value.end
    ensures TpPriceAt(s, p, false) == DecimalAt(s, d - 1)
    ensures TpPriceAt(s, p, true) == DecimalAt(s, a)
  {
    AsWrittenStart(s, p, q, a, d);
    FixedStart(s, p, q, a, d);
    LastDigitPrice(s, a, d);
  }

  lemma {:induction false} AsWrittenStart(s: string, p: nat, q: nat, a: nat, d: nat)
    requires LabelEnd(s, p) == Some(q) && a == Span(s, q, IsSpace) && d == Span(s, a, IsDigit)
    requires d >= a + 2 && DecimalAt(s, a).Some?
    ensures TpPriceAt(s, p, false) == DecimalAt(s, d - 1)
  {
    BothStarts(s, q, a, d);
    TpPriceFrom(s, p, q, false, d - 1);
  }

  lemma {:induction false} FixedStart(s: string, p: nat, q: nat, a: nat, d: nat)
    requires LabelEnd(s, p) == Some(q) && a == Span(s, q, IsSpace) && d == Span(s, a, IsDigit)
    requires d >= a + 2 && DecimalAt(s, a).Some?
    ensures TpPriceAt(s, p, true) == DecimalAt(s, a)
  {
    BothStarts(s, q, a, d);
    TpPriceFrom(s, p, q, true, a);
  }

  lemma {:induction false} TpPriceFrom(s: string, p: nat, q: nat, fixed: bool, i: nat)
    requires LabelEnd(s, p) == Some(q)
    requires (if fixed then Some(PriceStart(s, q)) else PriceStartAsWritten(s, q)) == Some(i)
    ensures TpPriceAt(s, p, fixed) == DecimalAt(s, i)
  {
  }

  lemma {:induction false} BothStarts(s: string, q: nat, a: nat, d: nat)
    requires q <= |s| && a == Span(s, q, IsSpace) && d == Span(s, a, IsDigit)
    requires d >= a + 2 && DecimalAt(s, a).Some?
    ensures PriceStartAsWritten(s, q) == Some(d - 1) && PriceStart(s, q) == a
  {
    assert s[d] == '.';
    assert Span(s, d, IsSpace) == d;
  }

  /** A price read from the last digit of its integer part on ends where
      the whole price does. */
  lemma {:induction false} LastDigitPrice(s: string, a: nat, d: nat)
    requires DecimalAt(s, a).Some? && a <= |s| && d == Span(s, a, IsDigit) && d > a
    ensures DecimalAt(s, d - 1).Some? && DecimalAt(s, d - 1).value.end == DecimalAt(s, a).value.end
  {
    DecimalAtParts(s, a);
    SpanStops(s, d - 1, d);
    DecimalAtFrom(s, d - 1, d, DecimalAt(s, a).value.end);
  }

  /** The price the program reads there is smaller than the real one when
      the integer part does not start with a zero. */
  lemma {:induction false} AsWrittenLosesDigits(s: string, p: nat, q: nat, a: nat, d: nat)
    requires LabelEnd(s, p) == Some(q) && a == Span(s, q, IsSpace) && d == Span(s, a, IsDigit)
    requires d >= a + 2 && DecimalAt(s, a).Some? && s[a] != '0'
    ensures TpPriceAt(s, p, false).Some? && TpPriceAt(s, p, true).Some?
    ensures var w, f := TpPriceAt(s, p, false).value.value, TpPriceAt(s, p, true).value.value;
      w.scale == f.scale && w.units < f.units
  {
    AsWrittenCutsPrice(s, p, q, a, d);
    TailPriceSmaller(s, a, d);
  }

  lemma {:induction false} TailPriceSmaller(s: string, a: nat, d: nat)
    requires a <= |s| && d == Span(s, a, IsDigit) && d >= a + 2 && DecimalAt(s, a).Some? && s[a] != '0'
    requires DecimalAt(s, d - 1).Some? && DecimalAt(s, d - 1).value.end == DecimalAt(s, a).value.end
    ensures var w, f := DecimalAt(s, d - 1).value.value, DecimalAt(s, a).value.value;
      w.scale == f.scale && w.units < f.units
  {
    var e := DecimalAt(s, a).value.end;
    DecimalAtValue(s, a, d, e);
    SpanStops(s, d - 1, d);
    DecimalAtValue(s, d - 1, d, e);
    var i := s[a..d];
    LeadingDigitsCount(i);
    assert i[d - a - 1..] == s[d - 1..d];
    ShiftMonotone(DigitsToNat(s[d - 1..d]), DigitsToNat(i), Pow10(e - d - 1), DigitsToNat(s[d + 1..e]));
  }

  lemma {:induction false} ShiftMonotone(x: nat, y: nat, p: nat, t: nat)
    requires x < y && p >= 1
    ensures x * p + t < y * p + t
  {
  }

  /** A digit run of two or more digits that does not start with a zero is
      worth more than its last digit. */
  lemma {:induction false} LeadingDigitsCount(x: string)
    requires |x| >= 2 && AllDigits(x) && x[0] != '0'
    ensures DigitsToNat(x) > DigitsToNat(x[|x| - 1..])
  {
    var init := x[..|x| - 1];
    NonZeroLead(init);
    assert x[|x| - 1..][..0] == "";
  }

  lemma {:induction false} NonZeroLead(y: string)
    requires |y| >= 1 && AllDigits(y) && y[0] != '0'
    ensures DigitsToNat(y) >= 1
    decreases |y|
  {
    if |y| > 1 {
      NonZeroLead(y[..|y| - 1]);
    } else {
      assert y[..0] == "";
    }
  }

  const BareTp: string := "TP 3107.50"

  lemma {:induction false} BareTpSpans()
    ensures Span(BareTp, 2, IsSpace) == 3
    ensures Span(BareTp, 3, IsDigit) == 7
    ensures Span(BareTp, 7, IsSpace) == 7
    ensures Span(BareTp, 8, IsDigit) == 10
    ensures Span(BareTp, 7, IsDigit) == 7
  {
    assert Span(BareTp, 10, IsDigit) == 10;
    assert Span(BareTp, 9, IsDigit) == 10;
    assert Span(BareTp, 8, IsDigit) == 10;
    assert Span(BareTp, 6, IsDigit) == 7;
    assert Span(BareTp, 5, IsDigit) == 7;
    assert Span(BareTp, 4, IsDigit) == 7;
    assert Span(BareTp, 3, IsSpace) == 3;
  }

  lemma {:induction false} BareTpValues()
    ensures ParseDecimal(BareTp[6..10]) == Some(Decimal(750, 2))
    ensures ParseDecimal(BareTp[3..10]) == Some(Decimal(310750, 2))
  {
    assert BareTp[6..10] == "7.50";
    assert BareTp[3..10] == "3107.50";
    SevenFifty();
    WholePrice();
  }

  /** The two `\d+\.\d+` matches of the sample that the readings start
      at, with their values. */
  lemma {:induction false} BareTpMatches()
    ensures DecimalAt(BareTp, 6) == Some(Hit(10, Decimal(750, 2)))
    ensures DecimalAt(BareTp, 3) == Some(Hit(10, Decimal(310750, 2)))
  {
    BareTpSpans();
    BareTpValues();
    assert Span(BareTp, 6, IsDigit) == 7;
    assert Span(BareTp, 8, IsDigit) == 10;
    DecimalAtFrom(BareTp, 6, 7, 10);
    DecimalAtFrom(BareTp, 3, 7, 10);
    DecimalAtParses(BareTp, 6);
    DecimalAtParses(BareTp, 3);
  }

  lemma {:induction false} SevenFifty()
    ensures ParseDecimal("7.50") == Some(Decimal(750, 2))
  {
    assert Span("7.50", 0, IsDigit) == 1 by {
      assert Span("7.50", 1, IsDigit) == 1;
    }
    assert Span("7.50", 2, IsDigit) == 4;
    assert "7.50"[..1] + "7.50"[2..] == "750";
    assert DigitsToNat("750") == 750 by {
      assert "750"[..2] == "75" && "75"[..1] == "7" && "7"[..0] == "";
    }
  }

  lemma {:induction false} WholePrice()
    ensures ParseDecimal("3107.50") == Some(Decimal(310750, 2))
  {
    assert Span("3107.50", 0, IsDigit) == 4 by {
      assert Span("3107.50", 4, IsDigit) == 4;
    }
    assert Span("3107.50", 5, IsDigit) == 7;
    assert "3107.50"[..4] + "3107.50"[5..] == "310750";
    assert DigitsToNat("310750") == 310750 by {
      assert "310750"[..5] == "31075" && "31075"[..4] == "3107" && "3107"[..3] == "310";
      assert "310"[..2] == "31" && "31"[..1] == "3" && "3"[..0] == "";
    }
  }

  /** "TP 3107.50" as written yields the take-profit 7.50; the intended
      reading yields 3107.50. */
  lemma {:induction false} AsWrittenCutsBarePrice()
    ensures TpPriceAt(BareTp, 0, false) == Some(Hit(10, Decimal(750, 2)))
    ensures TpPriceAt(BareTp, 0, true) == Some(Hit(10, Decimal(310750, 2)))
  {
    BareTpSpans();
    BareTpMatches();
    assert StartsAt(BareTp, 0, "TP");
    assert !StartsAt(BareTp, 0, MoneyTp);
    assert LabelEnd(BareTp, 0) == Some(2);
    assert PriceStartAsWritten(BareTp, 2) == Some(6);
    assert PriceStart(BareTp, 2) == 3;
  }

  /** Over the whole message: the take-profit list of "TP 3107.50" is [7.50]
      as written and [3107.50] as intended. */
  lemma {:induction false} AsWrittenTakeProfits()
    ensures TakeProfits(BareTp, false) == [Decimal(750, 2)]
    ensures TakeProfits(BareTp, true) == [Decimal(310750, 2)]
  {
    AsWrittenCutsBarePrice();
    var w := (p: nat) => TpPriceAt(BareTp, p, false);
    var f := (p: nat) => TpPriceAt(BareTp, p, true);
    assert FindAll(10, w, 10) == [] && FindAll(10, f, 10) == [];
    assert FindAll(10, w, 0) == [Decimal(750, 2)] + FindAll(10, w, 10);
    assert FindAll(10, f, 0) == [Decimal(310750, 2)] + FindAll(10, f, 10);
  }

  // ---------------------------------------------------------------- hits

  const TpKeywords: seq<string> := ["TP", "Take Profit", "Profit Taken", "\U{2705}", "\U{1F49A}"]
  const SlKeywords: seq<string> := ["SL", "Stop Loss", "\U{2716}", "\U{274C}", "stopped out"]

  /** `(?:TP|Take Profit)\s*(\d+)` at `p`, ignoring case. */
  function LevelAt(s: string, p: nat): (r: Option<nat>)
    ensures r.Some? ==> StartsAtIgnoringCase(s, p, "tp") || StartsAtIgnoringCase(s, p, "take profit")
  {
    match LabelledNumberAt(s, p, "tp", true)
    case Some(n) => Some(n)
    case None => LabelledNumberAt(s, p, "take profit", true)
  }

  /** The TP level: the leftmost labelled number, 1 when there is none. */
  function Level(s: string): (r: nat)
    ensures (forall p | 0 <= p < |s| :: LevelAt(s, p).None?) ==> r == 1
    ensures r != 1 ==> exists p | 0 <= p < |s| :: LevelAt(s, p) == Some(r)
    ensures (exists p | 0 <= p < |s| :: LevelAt(s, p).Some?) ==>
      exists p | 0 <= p < |s| :: LevelAt(s, p) == Some(r) && forall q | 0 <= q < p :: LevelAt(s, q).None?
  {
    var at := (p: nat) => LevelAt(s, p);
    assert forall p: nat :: at(p) == LevelAt(s, p);
    Search(|s|, at).GetOr(1)
  }

  /** Some text from `i` on is a number with a dot, starting with a digit,
      that `float()` reads as `v`. */
  predicate DottedNumberAt(s: string, i: nat, v: Decimal) {
    exists e | i < e <= |s| :: ParseDecimal(s[i..e]) == Some(v) && IsDigit(s[i]) && '.' in s[i..e]
  }

  /** `@\s*(\d+\.\d+)` at `p`. */
  function ExitPriceAt(s: string, p: nat): (r: Option<Decimal>)
    ensures r.Some? ==> p < |s| && s[p] == '@'
    ensures r.Some? ==> DottedNumberAt(s, Span(s, p + 1, IsSpace), r.value)
  {
    if p < |s| && s[p] == '@' then
      match DecimalAt(s, Span(s, p + 1, IsSpace))
      case Some(h) =>
        DecimalAtText(s, Span(s, p + 1, IsSpace), h.value);
        Some(h.value)
      case None => None
    else None
  }

  /** A `\d+\.\d+` match is a dotted number worth its value. */
  lemma {:induction false} DecimalAtText(s: string, i: nat, v: Decimal)
    requires DecimalAt(s, i).Some? && v == DecimalAt(s, i).value.value
    ensures DottedNumberAt(s, i, v)
  {
    DecimalAtParses(s, i);
    var e := DecimalAt(s, i).value.end;
    assert ParseDecimal(s[i..e]) == Some(v);
  }

  /** The exit price of a hit: the price after the leftmost `@` that has
      one, or `None`. */
  function ExitPrice(s: string): (r: Slot<Decimal>)
    ensures !r.Absent?
    ensures r.Null? <==> forall p | 0 <= p < |s| :: ExitPriceAt(s, p).None?
    ensures r.Present? ==> exists p | 0 <= p < |s| ::
      ExitPriceAt(s, p) == Some(r.value) && forall q | 0 <= q < p :: ExitPriceAt(s, q).None?
  {
    var at := (p: nat) => ExitPriceAt(s, p);
    assert forall p: nat :: at(p) == ExitPriceAt(s, p);
    match Search(|s|, at)
    case Some(v) => Present(v)
    case None => Null
  }

  /** `process_message`; `fixed` selects the intended take-profit reading,
      and the program as written is `fixed == false`. */
  function Classify(ps: Patterns, m: Msg, fixed: bool): (r: Option<Signal>)
    ensures r.Some? ==> r.value.source == m
    ensures var t := Collapse(TextOrEmpty(m));
      && (r.Some? && r.value.action == Action.NewSignal <==> !IsReply(m) && ps.entry(t).Some?)
      && (r.Some? && r.value.action == TpHit <==> IsReply(m) && ContainsAny(t, TpKeywords))
      && (r.Some? && r.value.action == SlHit <==> IsReply(m) && !ContainsAny(t, TpKeywords) && ContainsAny(t, SlKeywords))
    ensures r.Some? ==> r.value.action in {Action.NewSignal, TpHit, SlHit}
    ensures r.Some? && r.value.action == Action.NewSignal ==>
      r.value.orderId == Present(OrderKey(m.chatId, m.msgId)) && r.value.orderType == Present("MARKET") &&
      r.value.takeProfit == Present(TakeProfits(Collapse(TextOrEmpty(m)), fixed))
    ensures var t := Collapse(TextOrEmpty(m)); r.Some? && r.value.action == Action.NewSignal ==>
      var g := ps.entry(t).value;
      r.value.pair == Present(g.pair) && r.value.side == Present(g.side) &&
      r.value.entry == Present(g.entry) && r.value.stopLoss == Present(g.stopLoss)
    ensures r.Some? && r.value.action != Action.NewSignal ==>
      r.value.orderId == Present(OrderKey(m.chatId, m.reply.value)) && r.value.exitPrice == ExitPrice(Collapse(TextOrEmpty(m)))
    ensures r.Some? && r.value.action == TpHit ==> r.value.tpLevel == Present(Level(Collapse(TextOrEmpty(m))))
  {
    var t := Collapse(TextOrEmpty(m));
    if !IsReply(m) then
      match ps.entry(t)
      case Some(g) =>
        Some(Bare(m, Action.NewSignal).(
          pair := Present(g.pair), side := Present(g.side), entry := Present(g.entry),
          stopLoss := Present(g.stopLoss), takeProfit := Present(TakeProfits(t, fixed)),
          orderType := Present("MARKET"), orderId := Present(RootKey(m))))
      case None => None
    else if ContainsAny(t, TpKeywords) then
      Some(Bare(m, TpHit).(tpLevel := Present(Level(t)), exitPrice := ExitPrice(t), orderId := Present(ReplyKey(m))))
    else if ContainsAny(t, SlKeywords) then
      Some(Bare(m, SlHit).(exitPrice := ExitPrice(t), orderId := Present(ReplyKey(m))))
    else None
  }

  /** "TP" is a TP keyword, so a reply mentioning a take-profit level is a
      TP hit even when it also names the stop loss. */
  lemma {:induction false} TpWinsOverSl(ps: Patterns, m: Msg, fixed: bool)
    requires IsReply(m) && Contains(Collapse(TextOrEmpty(m)), "TP")
    ensures Classify(ps, m, fixed).Some? && Classify(ps, m, fixed).value.action == TpHit
  {
    assert TpKeywords[0] == "TP";
  }
}

=== FILE: wolf_prototype.dfy ===
/** The prototype Wolf forex classifier of test_wolf.py: it sorts a message
    into an entry, a take-profit hit or a stop-loss hit, and reads an entry's
    symbol, side, price, take-profit levels and stop loss. */
module WolfPrototype {
  import opened Wrappers
  import opened Text
  import opened Numbers
  import opened Scan
  import WolfForex

  datatype Kind = Entry | TakeProfit | StopLoss

  /** The named groups of one entry pattern; only the same-line pattern
      captures a stop loss. */
  datatype EntryGroups = EntryGroups(symbol: string, direction: string, price: Decimal, sl: Option<Decimal>)

  /** The regular expressions kept opaque: any TP pattern matches, any SL
      pattern matches, and the three entry patterns in their listed order
      (all applied ignoring case to the cleaned message). */
  datatype Patterns = Patterns(
    tp: string -> bool,
    sl: string -> bool,
    entries: seq<string -> Option<EntryGroups>>)

  /** What `extract_signal` returns. */
  datatype EntrySignal = EntrySignal(
    symbol: string, direction: string, entryPrice: Decimal,
    takeProfits: map<string, Decimal>, stopLoss: Option<Decimal>, raw: string)

  /** `_clean_message`. */
  function Clean(s: string): (r: string)
    ensures r == Collapse(s)
  {
    CollapseOfStrip(s);
    Collapse(Strip(s))
  }

  /** Cleaning a cleaned message changes nothing, which is why cleaning in
      both `extract_signal` and `classify` is harmless. */
  lemma {:induction false} CleanIdempotent(s: string)
    ensures Clean(Clean(s)) == Clean(s)
  {
    CollapseIdempotent(s);
  }

  /** The literals of the ignore patterns, each alternative on its own. */
  const IgnoreLiterals: seq<string> := [
    "ACCOUNT MANAGEMENT", "copy trading", "promotion", "summary", "analysis",
    "www.", ".com", ".io",
    "\U{1F447}\U{1F447}\U{1F447}", "\U{269C}\U{FE0F}", "\U{1F449}", "\U{27A1}\U{FE0F}"]

  predicate Ignored(m: string) {
    exists k | 0 <= k < |IgnoreLiterals| :: ContainsIgnoringCase(m, IgnoreLiterals[k])
  }

  /** The first entry pattern, in order, that matches. */
  function FirstEntry(entries: seq<string -> Option<EntryGroups>>, m: string): (r: Option<EntryGroups>)
    ensures r.None? <==> forall k | 0 <= k < |entries| :: entries[k](m).None?
    ensures r.Some? ==> exists k | 0 <= k < |entries| ::
      r == entries[k](m) && forall j | 0 <= j < k :: entries[j](m).None?
  {
    if |entries| == 0 then None
    else if entries[0](m).Some? then entries[0](m)
    else
      var r := FirstEntry(entries[1..], m);
      assert forall k | 1 <= k < |entries| :: entries[k] == entries[1..][k - 1];
      r
  }

  /** `classify`: ignored messages are dropped, then TP, SL and entry are
      tried in that order. */
  function Classify(ps: Patterns, message: string): (r: Option<Kind>)
    ensures var m := Clean(message);
      && (Ignored(m) ==> r.None?)
      && (r == Some(TakeProfit) <==> !Ignored(m) && ps.tp(m))
      && (r == Some(StopLoss) <==> !Ignored(m) && !ps.tp(m) && ps.sl(m))
      && (r == Some(Entry) <==> !Ignored(m) && !ps.tp(m) && !ps.sl(m) && FirstEntry(ps.entries, m).Some?)
  {
    Decide(ps, Clean(message))
  }

  /** The precedence chain on an already cleaned message. */
  function Decide(ps: Patterns, m: string): Option<Kind> {
    if Ignored(m) then None
    else if ps.tp(m) then Some(TakeProfit)
    else if ps.sl(m) then Some(StopLoss)
    else if FirstEntry(ps.entries, m).Some? then Some(Entry)
    else None
  }

  // ------------------------------------------------------- take profits

  /** One match of `(?:💰TP|TP|Take Profit)\s*(\d+)\s*(\d+\.\d+)`. */
  datatype Level = Level(digits: string, price: Decimal)

  /** The match at `p`, as the backtracking matcher finds it: greedy
      spaces to `a`, digits to `d`, spaces to `c`. With a gap after the
      digits the price starts at `c`. Without one the level gives back its
      last digit, which must then begin `\d+\.\d+`, so the level needs two
      digits and the dot must follow the run. */
  function LevelAt(s: string, p: nat): (r: Option<Hit<Level>>)
    ensures r.Some? ==> p < r.value.end <= |s| && |r.value.value.digits| > 0 && AllDigits(r.value.value.digits)
  {
    match WolfForex.LabelEnd(s, p)
    case None => None
    case Some(q) => LevelAfter(s, q)
  }

  /** The rest of the match once the label has ended at `q`. */
  function LevelAfter(s: string, q: nat): (r: Option<Hit<Level>>)
    requires q <= |s|
    ensures r.Some? ==> q < r.value.end <= |s| && |r.value.value.digits| > 0 && AllDigits(r.value.value.digits)
  {
    var a := Span(s, q, IsSpace);
    var d := Span(s, a, IsDigit);
    var c := Span(s, d, IsSpace);
    if d == a then None
    else
      var level := if c > d then s[a..d] else s[a..d - 1];
      var start := if c > d then c else d - 1;
      if c == d && d - a < 2 then None
      else
        assert AllDigits(level);
        match DecimalAt(s, start)
        case None => None
        case Some(h) => Some(Hit(h.end, Level(level, h.value)))
  }

  /** A price written straight after the label, as in "TP 3107.50", is
      read as level 310 at price 7.50: the pattern insists on a level. */
  lemma {:induction false} BarePriceBecomesLevel()
    ensures LevelAt(WolfForex.BareTp, 0) == Some(Hit(10, Level("310", Decimal(750, 2))))
  {
    var s := WolfForex.BareTp;
    WolfForex.BareTpSpans();
    WolfForex.BareTpMatches();
    assert StartsAt(s, 0, "TP");
    assert !StartsAt(s, 0, WolfForex.MoneyTp);
    assert WolfForex.LabelEnd(s, 0) == Some(2);
    assert s[3..6] == "310";
    assert s[6..10] == "7.50";
  }

  /** The same holds for every label followed by a bare price of two or
      more integer digits: the level takes all of them but the last, and
      the price is read from that last digit on, the same cut tail the
      production pattern reads, smaller than the price written. */
  lemma {:induction false} BarePriceSplits(s: string, p: nat, q: nat, a: nat, d: nat)
    requires WolfForex.LabelEnd(s, p) == Some(q) && a == Span(s, q, IsSpace) && d == Span(s, a, IsDigit)
    requires d >= a + 2 && DecimalAt(s, a).Some? && s[a] != '0'
    ensures LevelAt(s, p).Some? && WolfForex.TpPriceAt(s, p, false).Some?
    ensures var l := LevelAt(s, p).value.value;
      && l.digits == s[a..d - 1]
      && l.price == WolfForex.TpPriceAt(s, p, false).value.value
      && l.price.scale == DecimalAt(s, a).value.value.scale
      && l.price.units < DecimalAt(s, a).value.value.units
  {
    WolfForex.AsWrittenLosesDigits(s, p, q, a, d);
    WolfForex.AsWrittenCutsPrice(s, p, q, a, d);
    assert s[d] == '.';
    LevelOfBarePrice(s, p, q, a, d);
  }

  lemma {:induction false} LevelOfBarePrice(s: string, p: nat, q: nat, a: nat, d: nat)
    requires WolfForex.LabelEnd(s, p) == Some(q) && a == Span(s, q, IsSpace) && d == Span(s, a, IsDigit)
    requires d >= a + 2 && d < |s| && s[d] == '.' && DecimalAt(s, d - 1).Some?
    ensures LevelAt(s, p) == Some(Hit(DecimalAt(s, d - 1).value.end, Level(s[a..d - 1], DecimalAt(s, d - 1).value.value)))
  {
    LevelAfterBarePrice(s, q, a, d);
  }

  lemma {:induction false} LevelAfterBarePrice(s: string, q: nat, a: nat, d: nat)
    requires q <= |s| && a == Span(s, q, IsSpace) && d == Span(s, a, IsDigit)
    requires d >= a + 2 && d < |s| && s[d] == '.' && DecimalAt(s, d - 1).Some?
    ensures LevelAfter(s, q) == Some(Hit(DecimalAt(s, d - 1).value.end, Level(s[a..d - 1], DecimalAt(s, d - 1).value.value)))
  {
    assert !IsSpace(s[d]);
    assert Span(s, d, IsSpace) == d;
    var h := DecimalAt(s, d - 1).value;
    assert d != a;
    assert !(d == d && d - a < 2);
    assert LevelAfter(s, q).Some?;
    assert LevelAfter(s, q).value.end == h.end;
  }

  /** `re.findall` of the take-profit pattern, in text order. */
  function Levels(s: string): seq<Level> {
    var at := (p: nat) => LevelAt(s, p);
    assert forall p: nat :: at(p) == LevelAt(s, p);
    FindAll(|s|, at, 0)
  }

  function KeyOf(l: Level): string {
    "TP" + l.digits
  }

  /** The dictionary the loop builds: each match written in turn under
      `"TP" + level`. */
  function LevelMap(ls: seq<Level>): (tps: map<string, Decimal>)
    decreases |ls|
  {
    if |ls| == 0 then map[]
    else
      var last := ls[|ls| - 1];
      LevelMap(ls[..|ls| - 1])[KeyOf(last) := last.price]
  }

  /** The dictionary holds a key for every match and no other, and a level
      that appears more than once keeps the price of its last match. */
  lemma {:induction false} LastLevelWins(ls: seq<Level>)
    ensures forall i | 0 <= i < |ls| :: KeyOf(ls[i]) in LevelMap(ls)
    ensures forall k | k in LevelMap(ls) :: exists i | 0 <= i < |ls| :: KeyOf(ls[i]) == k
    ensures forall i | 0 <= i < |ls| && (forall j | i < j < |ls| :: KeyOf(ls[j]) != KeyOf(ls[i])) ::
      LevelMap(ls)[KeyOf(ls[i])] == ls[i].price
  {
    LevelMapCovers(ls);
    LevelMapOnlyMatches(ls);
    LevelMapLastPrice(ls);
  }

  lemma {:induction false} LevelMapCovers(ls: seq<Level>)
    ensures forall i | 0 <= i < |ls| :: KeyOf(ls[i]) in LevelMap(ls)
    decreases |ls|
  {
    if |ls| > 0 {
      var init := ls[..|ls| - 1];
      LevelMapCovers(init);
      forall i | 0 <= i < |ls| ensures KeyOf(ls[i]) in LevelMap(ls) {
        if i < |init| {
          assert ls[i] == init[i];
        }
      }
    }
  }

  lemma {:induction false} LevelMapOnlyMatches(ls: seq<Level>)
    ensures forall k | k in LevelMap(ls) :: exists i | 0 <= i < |ls| :: KeyOf(ls[i]) == k
    decreases |ls|
  {
    if |ls| > 0 {
      var init := ls[..|ls| - 1];
      LevelMapOnlyMatches(init);
      forall k | k in LevelMap(ls) ensures exists i | 0 <= i < |ls| :: KeyOf(ls[i]) == k {
        if k != KeyOf(ls[|ls| - 1]) {
          assert k in LevelMap(init);
          var i :| 0 <= i < |init| && KeyOf(init[i]) == k;
          assert KeyOf(ls[i]) == k;
        }
      }
    }
  }

  lemma {:induction false} LevelMapLastPrice(ls: seq<Level>)
    ensures forall i | 0 <= i < |ls| && (forall j | i < j < |ls| :: KeyOf(ls[j]) != KeyOf(ls[i])) ::
      KeyOf(ls[i]) in LevelMap(ls) && LevelMap(ls)[KeyOf(ls[i])] == ls[i].price
    decreases |ls|
  {
    if |ls| > 0 {
      var init := ls[..|ls| - 1];
      LevelMapCovers(ls);
      LevelMapLastPrice(init);
      forall i | 0 <= i < |ls| && (forall j | i < j < |ls| :: KeyOf(ls[j]) != KeyOf(ls[i]))
        ensures KeyOf(ls[i]) in LevelMap(ls) && LevelMap(ls)[KeyOf(ls[i])] == ls[i].price
      {
        if i < |init| {
          assert ls[i] == init[i];
          assert forall j | i < j < |init| :: init[j] == ls[j];
        }
      }
    }
  }

  /** `_extract_take_profits`. */
  function TakeProfits(m: string): map<string, Decimal> {
    LevelMap(Levels(m))
  }

  // ---------------------------------------------------------- stop loss

  const BlockedSl: string := "\U{1F6AB}SL"

  /** `(?:🚫SL|SL|Stop Loss)\s*(\d+\.\d+)` at `p`, case-sensitive. */
  function StopLossAt(s: string, p: nat): (r: Option<Decimal>)
    ensures r.Some? ==> StartsAt(s, p, BlockedSl) || StartsAt(s, p, "SL") || StartsAt(s, p, "Stop Loss")
  {
    var q := if StartsAt(s, p, BlockedSl) then Some(p + 3)
             else if StartsAt(s, p, "SL") then Some(p + 2)
             else if StartsAt(s, p, "Stop Loss") then Some(p + 9)
             else None;
    match q
    case None => None
    case Some(e) =>
      match DecimalAt(s, Span(s, e, IsSpace))
      case None => None
      case Some(h) => Some(h.value)
  }

  /** `_extract_stop_loss`: the leftmost match's price, or `None`. */
  function SearchStopLoss(s: string): (r: Option<Decimal>)
    ensures r.None? <==> forall p | 0 <= p < |s| :: StopLossAt(s, p).None?
    ensures r.Some? ==> exists p | 0 <= p < |s| :: StopLossAt(s, p) == r && forall q | 0 <= q < p :: StopLossAt(s, q).None?
  {
    var at := (p: nat) => StopLossAt(s, p);
    assert forall p: nat :: at(p) == StopLossAt(s, p);
    Search(|s|, at)
  }

  // ------------------------------------------------------------ entries

  /** `extract_signal`. */
  function ExtractSignal(ps: Patterns, message: string): (r: Option<EntrySignal>)
    ensures r.Some? ==> r.value.raw == Clean(message)
    ensures r.Some? ==> var g := FirstEntry(ps.entries, Clean(message));
      && g.Some?
      && r.value.symbol == g.value.symbol && r.value.direction == g.value.direction
      && r.value.entryPrice == g.value.price
      && r.value.stopLoss == (if g.value.sl.Some? then g.value.sl else SearchStopLoss(Clean(message)))
    ensures r.Some? ==> r.value.takeProfits == TakeProfits(Clean(message))
  {
    var m := Clean(message);
    Pick(ps, m, Classify(ps, m))
  }

  /** The entry read from cleaned text `m` once it has classified as `k`. */
  function Pick(ps: Patterns, m: string, k: Option<Kind>): Option<EntrySignal> {
    if k != Some(Entry) then None
    else
      match FirstEntry(ps.entries, m)
      case None => None
      case Some(g) =>
        var sl := if g.sl.Some? then g.sl else SearchStopLoss(m);
        Some(EntrySignal(g.symbol, g.direction, g.price, TakeProfits(m), sl, m))
  }

  /** An entry is extracted exactly when the message classifies as one. */
  lemma {:induction false} ExtractMatchesClassify(ps: Patterns, message: string)
    ensures ExtractSignal(ps, message).Some? <==> Classify(ps, message) == Some(Entry)
  {
    var m := Clean(message);
    ClassifyCleaned(ps, message);
    PickEntry(ps, m);
  }

  /** An entry is picked exactly when the chain says entry. */
  lemma {:induction false} PickEntry(ps: Patterns, m: string)
    ensures Pick(ps, m, Decide(ps, m)).Some? <==> Decide(ps, m) == Some(Entry)
  {
  }

  /** Classifying the cleaned message decides the same as the raw one. */
  lemma {:induction false} ClassifyCleaned(ps: Patterns, message: string)
    ensures Clean(Clean(message)) == Clean(message)
    ensures Classify(ps, Clean(message)) == Classify(ps, message)
  {
    CleanIdempotent(message);
    assert Classify(ps, Clean(message)) == Decide(ps, Clean(Clean(message)));
  }

  /** The take-profit dictionary of an entry covers every labelled level
      in the cleaned message, and only those. */
  lemma {:induction false} EntryTakeProfits(ps: Patterns, message: string)
    requires ExtractSignal(ps, message).Some?
    ensures var m := Clean(message); var ls := Levels(m); var tps := ExtractSignal(ps, message).value.takeProfits;
      && (forall i | 0 <= i < |ls| :: KeyOf(ls[i]) in tps)
      && (forall k | k in tps :: exists i | 0 <= i < |ls| :: KeyOf(ls[i]) == k)
  {
    LastLevelWins(Levels(Clean(message)));
  }
}

=== FILE: wrappers.dfy ===
/** Option and Result, the two failure-carrying shapes the model uses for
    Python's `None` returns and raised exceptions. */
module Wrappers {

  datatype Option<+T> = None | Some(value: T) {

    /** The value, or `default` when there is none (Python's `x or default`). */
    function GetOr(default: T): T {
      match this
      case Some(v) => v
      case None => default
    }
  }

  datatype Result<+T, +E> = Success(value: T) | Failure(error: E) {

    function ToOption(): Option<T> {
      match this
      case Success(v) => Some(v)
      case Failure(_) => None
    }
  }
}
